=== FILE: README.md ===
# Kardiverse memorial app — a verified Dafny model

Kardiverse is a memorial web application. A Django REST backend serves four apps:

- **memorials**: the memorial records, with religion, categories and QR data.
- **timeline**: life phases and the stories attached to them.
- **wakeroom**: immersive experiences and the sessions users spend in them.
- **legacy**: the numbered "FOMO 250" legacy licences, with their purchases.

A React frontend shows the memorial gallery, the timeline, the WakeRoom and the legacy-licence pages.

This project models the sequential logic of that system in Dafny and proves what it promises. It covers:

- the licence state machine, with its guarded reserve and purchase transitions;
- discount recomputation on save;
- the guard order of the REST actions;
- the admin bulk actions, which bypass those guards;
- the display and formatting helpers, with their read-back round trips;
- the queryset filters and group-by folds, over in-memory tables;
- the frontend's pure helpers: the gallery filter state, the scarcity counter, the icon tables, list truncation, ordering and fallbacks.

How the model represents the system:

- Records are immutable datatypes.
- A table is a `seq` in the order its queryset returns it.
- Prices are integer cents.
- Times are integers: microseconds, passed in as a `now` parameter.
- Query parameters are `Option`s: `None` when absent. A parameter counts as given (`Text.Given`) when it is present and not empty, matching Python's and JavaScript's truthiness.

Modules follow the source files:

| module | source |
|---|---|
| `Wrappers`, `Seqs`, `Text`, `Money`, `Api`, `Ui` | shared helpers: options and results, sequence folds, decimal text, rounding, id parameters, icon tables |
| `LegacyModels`, `LegacyViews`, `LegacySerializers`, `LegacyAdmin` | `backend/legacy/` |
| `WakeRoomModels`, `WakeRoomViews`, `WakeRoomAdmin` | `backend/wakeroom/` |
| `MemorialModels`, `MemorialSerializers`, `MemorialViews`, `MemorialAdmin` | `backend/memorials/` |
| `TimelineModels`, `TimelineViews` | `backend/timeline/` |
| `GalleryPage`, `LegacyPage`, `TimelinePage`, `MemoryCard`, `WakeRoomPage` | `frontend/src/pages/` and `frontend/src/components/MemoryCard.tsx` |

## Model

| member | source | states |
|---|---|---|
| LegacyModels.StatusCodeRoundTrip | backend/legacy/models.py:13-18 | each of the four statuses reads back from its stored code, so the codes are distinct |
| LegacyModels.TypeCodeInjective | backend/legacy/models.py:7-11 | different licence types never share a stored code |
| LegacyModels.Save | backend/legacy/models.py:57-64 | with both prices non-zero, the discount becomes the percentage saved off the original price, rounded half to even, and the flag says whether the current price is lower; with either price zero the record is unchanged; no other field changes |
| LegacyModels.SaveIdempotent | backend/legacy/models.py:57-64 | saving a saved licence again changes nothing |
| LegacyModels.Store | backend/legacy/models.py:30-64 | the database refuses the save exactly when the recomputed discount is negative; otherwise the stored row is the saved licence with a discount of at least zero, and with either price zero only an already negative discount is refused |
| LegacyModels.StoreRefusedIff | backend/legacy/models.py:26-64 | with a positive original price and a non-zero current price, the save is refused exactly when the current price exceeds the original by more than half a percent of it |
| LegacyModels.StoreRefusedIffNegativeOriginal | backend/legacy/models.py:26-64 | with a negative original price and a non-zero current price, the save is refused exactly when the current price lies below the original by more than half a percent of its size |
| LegacyModels.StoreUnpricedRefusedIff | backend/legacy/models.py:26-64 | with either price zero the discount is not recomputed, and the save is refused exactly when the stored discount is negative |
| LegacyModels.ReserveOfStoredIsStored | backend/legacy/models.py:70-77 | reserving a stored, available licence saves without refusal, storing the reserved licence |
| LegacyModels.PurchaseOfStoredIsStored | backend/legacy/models.py:79-89 | purchasing a stored licence that is available or reserved saves without refusal, storing the sold licence |
| LegacyModels.DefaultPricesGiveDefaultDiscount | backend/legacy/models.py:27-62 | the default prices 2999.00 and 1999.00 give a 33 per cent discount, the field's default, and the discounted flag |
| LegacyModels.DiscountInPercentRange | backend/legacy/models.py:59-61 | when 0 < current ≤ original, the computed discount lies in [0, 100], as the field's validator demands |
| LegacyModels.Reserve | backend/legacy/models.py:66-77 | succeeds exactly when the status is available; the licence is then reserved for the user and saved, nothing else changing; on failure it is unchanged |
| LegacyModels.Purchase | backend/legacy/models.py:79-89 | succeeds exactly from available or reserved; the licence is then sold to the buyer with the date, payment method and transaction id recorded, prices and identity kept; on failure it is unchanged |
| LegacyModels.ReservedLicenseBuyableByAnyone | backend/legacy/models.py:70-89 | after one user reserves a licence, any other user can still buy it: the purchase never checks who reserved it |
| LegacyModels.SoldAndExpiredAreFinal | backend/legacy/models.py:72-89 | no sequence of reserve and purchase calls changes a sold or expired licence |
| LegacyModels.SoldToAPurchaser | backend/legacy/models.py:79-88 | a licence that ends up sold was bought by a user who made a purchase request |
| LegacyModels.PriceDisplay | backend/legacy/models.py:91-95 | the display starts with `$` and ends with `)` exactly when the licence is discounted |
| LegacyModels.PriceDisplayRoundTrip | backend/legacy/models.py:91-95 | the display reads back as the current price, plus the original price exactly when discounted |
| LegacyModels.FeaturesDisplay | backend/legacy/models.py:97-99 | an empty feature list shows `No features listed` |
| LegacyModels.FeaturesDisplayRoundTrip | backend/legacy/models.py:97-99 | splitting the display on commas and stripping gives back the features, in order, when no feature holds a comma or edge blanks |
| LegacyViews.FilterLicenses | backend/legacy/views.py:39-61 | keeps exactly the licences whose status and type equal the given parameters and whose current price lies in the inclusive price range |
| LegacyViews.EmptyQueryKeepsAll | backend/legacy/views.py:39-61 | without parameters every licence is listed |
| LegacyViews.Featurable | backend/legacy/views.py:70-78 | exactly the available FOMO 250 licences the filters let through |
| LegacyViews.Featured | backend/legacy/views.py:70-78 | the first six of the available FOMO 250 licences the filters let through, or all of them when there are fewer, in list order |
| LegacyViews.RemainingCount | backend/legacy/views.py:220-224 | the number of available licences, at most the table size |
| LegacyViews.StatusCountsPartition | backend/legacy/views.py:182-185 | the four status counts add up to the table size |
| LegacyViews.TypeCountsPartition | backend/legacy/views.py:194-199 | the three type counts add up to the table size |
| LegacyViews.RemainingCountComplement | backend/legacy/views.py:220-224 | the remaining count is the table size minus the reserved, sold and expired counts |
| LegacyViews.Tally | backend/legacy/views.py:194-200 | a type's entry has its code and name, the number of licences of that type, and the number of those that are available |
| LegacyViews.Statistics | backend/legacy/views.py:179-218 | the total, available, sold and reserved numbers are the counts of the table and of each status, with expired making up the rest; the revenue is the sum of the sold licences' current prices; each type's entry counts that type and its available licences, and the type counts add up to the total |
| LegacyViews.PurchaseAddsRevenue | backend/legacy/views.py:184-189 | a successful purchase adds exactly the amount paid to the revenue and one licence to the sold count |
| LegacyViews.Group | backend/legacy/views.py:86-93 | a type's entry carries its code and name, exactly the listed licences of that type with their count, and the number of those that are available |
| LegacyViews.GroupOfFiltered | backend/legacy/views.py:86-93 | the entry built from the filtered list holds only licences of that type that pass the query, with an available count at most the count |
| LegacyViews.ByType | backend/legacy/views.py:80-95 | one group per licence type, in declaration order, each the `Group` of that type over the filtered licences, so their counts add up to the number of filtered licences |
| LegacyViews.ReserveAction | backend/legacy/views.py:113-135 | anonymous callers get 401 with no change; otherwise 200 exactly when the licence is available, and then it is reserved for the caller; any non-200 leaves it unchanged |
| LegacyViews.PurchaseAction | backend/legacy/views.py:137-177 | 401 first, then 400 for a missing payment method or transaction id, then 200 exactly when the licence can be bought; success records one purchase for the current price; failures change nothing |
| LegacyViews.PurchaseRecordCount | backend/legacy/views.py:158-166 | a call adds one purchase record on success and none otherwise |
| LegacySerializers.ValidateLicenseNumber | backend/legacy/serializers.py:84-90 | a number in use is rejected before the range check; an unused number is accepted exactly when it is in 1..250, and returned unchanged |
| LegacySerializers.ValidatedCreateKeepsNumbers | backend/legacy/serializers.py:84-90 | adding a validated licence keeps the numbers distinct and within 1..250 |
| LegacySerializers.UniqueNumbersCount | backend/legacy/serializers.py:84-90 | distinct numbers number as many as the licences |
| LegacySerializers.TableCapacity | backend/legacy/serializers.py:84-90 | a table built through the validator holds at most 250 licences |
| LegacySerializers.ValidatePurchase | backend/legacy/serializers.py:124-137 | an unavailable licence is rejected first, then a payment that differs from the current price; otherwise the data is returned unchanged |
| LegacySerializers.AcceptedPurchaseAgreesWithAction | backend/legacy/serializers.py:124-137 | purchase data the serializer accepts is also accepted by the purchase action, with the amount paid as the recorded amount |
| LegacyAdmin.UpdateSelected | backend/legacy/admin.py:54-77 | a bulk update changes exactly the selected rows and reports how many were selected |
| LegacyAdmin.MarkAvailable | backend/legacy/admin.py:54-60 | selected rows become available with purchaser and purchase date cleared and every other field kept; other rows are unchanged; the count is reported |
| LegacyAdmin.MarkReserved | backend/legacy/admin.py:63-69 | selected rows become reserved, whatever their status, and nothing else changes |
| LegacyAdmin.MarkSold | backend/legacy/admin.py:72-78 | selected rows become sold, whatever their status, and nothing else changes |
| LegacyAdmin.AdminBypassesGuards | backend/legacy/admin.py:54-78 | an expired licence, which the model refuses to sell, becomes sold through the admin action; marked available again, it can be reserved |
| LegacyAdmin.ReadonlyFields | backend/legacy/admin.py:110-115 | the base fields come first; status, purchaser and purchase date follow exactly for a sold licence, and nothing else is added |
| WakeRoomModels.SaveExperience | backend/wakeroom/models.py:64-69 | an experience that needs a QR code and has none gets a code under `/wakeroom/experience/`; one that has QR data or needs none is saved unchanged; no other field changes |
| WakeRoomModels.SaveExperienceIdempotent | backend/wakeroom/models.py:64-69 | saving an experience a second time changes nothing more |
| WakeRoomModels.SaveExperiencePathNamesId | backend/wakeroom/models.py:66-67 | the generated QR path ends with the stored experience's id, which can be read back from it |
| WakeRoomModels.MediaFiles | backend/wakeroom/models.py:71-82 | the media list has at most four entries and each names a stored file |
| WakeRoomModels.MediaFilesAreThePresentSlots | backend/wakeroom/models.py:71-82 | the media list is the video, image, AR model and VR scene slots in that order with the empty ones dropped |
| WakeRoomModels.TechRequirementsListEnabledFlags | backend/wakeroom/models.py:100-111 | each of the four requirement labels is listed exactly when its flag is set |
| WakeRoomModels.TechRequirementsDistinct | backend/wakeroom/models.py:100-111 | no requirement label is listed twice |
| WakeRoomModels.TechRequirementsAreTheEnabledSlots | backend/wakeroom/models.py:100-111 | the requirement list is the labels of the enabled flags in the fixed order headset, audio, NFC, QR |
| WakeRoomModels.ExperienceDuration | backend/wakeroom/models.py:84-94 | under an hour the text is the minutes followed by ` minutes`; on whole hours it is the hours followed by ` hour`, or ` hours` above one |
| WakeRoomModels.ExperienceDurationRoundTrip | backend/wakeroom/models.py:84-94 | reading the duration text back gives the stored minutes for every duration: nothing is lost in any of the three formats |
| WakeRoomModels.EndSession | backend/wakeroom/models.py:143-149 | an open session gets the given end time and a duration of the elapsed whole seconds, truncated toward zero; an ended session is left as it is |
| WakeRoomModels.EndSessionIdempotent | backend/wakeroom/models.py:143-149 | ending a session a second time, at any time, changes nothing |
| WakeRoomModels.DurationDisplay | backend/wakeroom/models.py:151-157 | the display is `Active` exactly when there is no duration or it is zero |
| WakeRoomModels.DurationDisplayRoundTrip | backend/wakeroom/models.py:151-157 | a non-zero duration can be read back from its `Mm Ss` display as minutes times sixty plus seconds |
| WakeRoomModels.InstantSessionDisplaysActive | backend/wakeroom/models.py:143-161 | a session ended within a second of its start is not active, yet displays as `Active` |
| WakeRoomViews.FilterExperiences | backend/wakeroom/views.py:42-69 | the listed experiences are exactly those of the table passing every given filter: type, status, inclusive duration range and memorial |
| WakeRoomViews.NoQueryKeepsAll | backend/wakeroom/views.py:42-69 | without query parameters every experience is listed, in order |
| WakeRoomViews.ActiveExperiences | backend/wakeroom/views.py:71-76 | the active list is exactly the filtered experiences whose status is active |
| WakeRoomViews.FeaturedExperiences | backend/wakeroom/views.py:78-83 | the featured list is exactly the filtered experiences that are both featured and active |
| WakeRoomViews.FeaturedAmongActive | backend/wakeroom/views.py:71-83 | the featured list is the active list with only the featured experiences kept |
| WakeRoomViews.TypeCountsPartition | backend/wakeroom/models.py:9-15 | every experience has exactly one of the five types, so the type counts add up to the number of experiences |
| WakeRoomViews.Group | backend/wakeroom/views.py:91-98 | a type's entry carries its code and name, exactly the listed experiences of that type with their count, and the number of those that are active |
| WakeRoomViews.GroupOfFiltered | backend/wakeroom/views.py:91-98 | the entry built from the filtered list holds only experiences of that type that pass the query, with consistent counts |
| WakeRoomViews.ByType | backend/wakeroom/views.py:85-100 | one entry per experience type in declaration order, each the `Group` of that type over the filtered list, so the counts add up to the size of the filtered list |
| WakeRoomViews.ByMemorial | backend/wakeroom/views.py:102-118 | a missing or empty `memorial_id` gives 400; otherwise the result is exactly the listed experiences associated with that memorial |
| WakeRoomViews.Tally | backend/wakeroom/views.py:198-204 | a type's statistics carry its code and name, the number of experiences of that type, and the number of those that are active |
| WakeRoomViews.ActiveSessions | backend/wakeroom/views.py:251-256 | the active sessions are exactly those without an end time |
| WakeRoomViews.Statistics | backend/wakeroom/views.py:184-228 | the totals count whole tables; the active numbers count the active experiences and the open sessions; each type's entry, in declaration order, counts that type and its active experiences, and the type counts add up to the experience total |
| WakeRoomViews.StatisticsAgreeWithByType | backend/wakeroom/views.py:85-100 | the per-type statistics are the counts and active counts of the unfiltered `by_type` groups |
| WakeRoomViews.ByUser | backend/wakeroom/views.py:258-270 | a missing or empty `user_id` gives 400; otherwise exactly that user's sessions |
| WakeRoomViews.NegativeUserIdListsNothing | backend/wakeroom/views.py:258-270 | a `user_id` read as a negative number, such as `-1`, answers 200 with an empty list |
| WakeRoomViews.ByExperience | backend/wakeroom/views.py:272-284 | a missing or empty `experience_id` gives 400; otherwise exactly that experience's sessions |
| WakeRoomViews.EndSessionAction | backend/wakeroom/views.py:286-313 | an ended session is refused with 400 and left alone; an open one takes each given field from the request, keeps the rest, and is ended at the given time with the duration `end_session()` records |
| WakeRoomViews.EndSessionActionOnce | backend/wakeroom/views.py:286-313 | a session can be ended through the endpoint only once: a second request, whatever it carries, is refused and changes nothing |
| WakeRoomViews.EmptyEndRequestJustEnds | backend/wakeroom/views.py:298-307 | a request without fields ends the session exactly as the model's `end_session()` does |
| WakeRoomAdmin.UpdateExperiences | backend/wakeroom/admin.py:60-94 | a bulk update changes exactly the selected experiences and reports how many were selected |
| WakeRoomAdmin.ActivateExperiences | backend/wakeroom/admin.py:60-66 | the selected experiences become active, the others are unchanged, and the selected ones are counted |
| WakeRoomAdmin.DeactivateExperiences | backend/wakeroom/admin.py:69-75 | the selected experiences go back to draft, the others are unchanged, and the selected ones are counted |
| WakeRoomAdmin.MarkFeatured | backend/wakeroom/admin.py:78-84 | the selected experiences become featured, the others keep their flag, no other field of any row changes, and the selected ones are counted |
| WakeRoomAdmin.UnmarkFeatured | backend/wakeroom/admin.py:87-93 | the selected experiences lose the featured flag, the others keep it, no other field of any row changes, and the selected ones are counted |
| WakeRoomAdmin.UnmarkUndoesMark | backend/wakeroom/admin.py:78-93 | unmarking after marking restores the table when no selected experience was featured before |
| WakeRoomAdmin.DeactivateAfterActivate | backend/wakeroom/admin.py:60-75 | deactivating after activating gives the same table as deactivating alone: the selected experiences end in draft whatever their status was |
| WakeRoomAdmin.EndSessions | backend/wakeroom/admin.py:150-162 | every selected open session is ended at the given time and counted; ended or unselected sessions are unchanged |
| WakeRoomAdmin.EndSessionsSkipsEnded | backend/wakeroom/admin.py:150-162 | on a table of ended sessions the action counts none and changes nothing |
| WakeRoomAdmin.CalculateDurations | backend/wakeroom/admin.py:164-176 | the report counts the selected sessions that have an end time |
| WakeRoomAdmin.CalculateDurationsChangesNothing | backend/wakeroom/admin.py:164-176 | recalculating changes no row, because `end_session()` skips ended sessions, although it reports a count |
| WakeRoomAdmin.ApplySessionAdmin | backend/wakeroom/admin.py:182-188 | the add and delete buttons are refused and leave the table as it was |
| WakeRoomAdmin.AdminKeepsSessions | backend/wakeroom/admin.py:148-188 | no bulk action and neither button creates or removes a session or changes its id, user, experience or start time |
| WakeRoomAdmin.ChangeSession | backend/wakeroom/admin.py:123-140 | the change form replaces one session by the submitted one, except that the read-only id and start time are kept; every other session is unchanged |
| WakeRoomAdmin.ChangeFormReassigns | backend/wakeroom/admin.py:123-131 | through the change form an admin can move a session to another user and another experience |
| MemorialModels.AbsoluteUrl | backend/memorials/models.py:79-80 | the memorial's URL starts with `/memorial/` and continues past it |
| MemorialModels.AbsoluteUrlNamesId | backend/memorials/models.py:79-80 | the URL of a stored memorial names its id, and that of an unsaved memorial names none |
| MemorialModels.SaveMemorial | backend/memorials/models.py:52-55 | a memorial with QR enabled and no QR data gets its URL as QR data; otherwise it is saved unchanged; no other field changes |
| MemorialModels.SaveMemorialIdempotent | backend/memorials/models.py:52-55 | saving a memorial a second time changes nothing more |
| MemorialModels.UnsavedMemorialGetsNonePath | backend/memorials/models.py:52-55 | a memorial saved before it has an id gets `/memorial/None`, which names no memorial and stays after the id is assigned |
| MemorialModels.CategoriesDisplay | backend/memorials/models.py:82-84 | no categories display as `No categories`; a list starting with a choice displays as something else |
| MemorialModels.CategoriesDisplayRoundTrip | backend/memorials/models.py:82-84 | splitting the display of valid categories on commas and trimming gives back the categories in order |
| MemorialModels.ReligionIcon | backend/memorials/models.py:86-88 | the icon is `Cross` exactly for Christian, and `Moon` otherwise |
| MemorialModels.ReligionColorClass | backend/memorials/models.py:90-95 | the classes are the gold ones exactly for Christian, and the blue ones otherwise |
| MemorialModels.IconMatchesColor | backend/memorials/models.py:86-95 | the cross comes with gold and the moon with blue |
| MemorialSerializers.ValidateCategories | backend/memorials/serializers.py:83-89 | a list is accepted unchanged exactly when every element is a category choice; otherwise the error names an invalid element that has only choices before it |
| MemorialSerializers.FirstInvalidUnique | backend/memorials/serializers.py:86-88 | the rejected element is determined: only one position holds the first invalid category |
| MemorialSerializers.ValidateCategoriesNamesFirstInvalid | backend/memorials/serializers.py:86-88 | valid categories followed by an invalid one are rejected with exactly that one's message, whatever follows |
| MemorialSerializers.ValidateReligion | backend/memorials/serializers.py:91-96 | a religion is accepted unchanged exactly when it is one of the two choices; otherwise the error names it |
| MemorialSerializers.Represent | backend/memorials/serializers.py:31-41 | the detail representation shows the cross exactly for Christian, with the gold classes, `No categories` for none, and a URL naming the memorial |
| MemorialSerializers.RepresentInList | backend/memorials/serializers.py:65-70 | the list representation shows the cross exactly for Christian, and the cross exactly with the gold classes |
| MemorialSerializers.ListAndDetailAgree | backend/memorials/serializers.py:31-70 | the list and detail representations give a memorial the same icon and colour |
| MemorialSerializers.ValidReligionIcon | backend/memorials/serializers.py:91-96 | a memorial that passed the religion validator shows the cross exactly when it is not Muslim |
| MemorialViews.ParseCategoryList | backend/memorials/views.py:56 | the `categories` parameter reads as at least one piece, each without commas and trimmed |
| MemorialViews.FilterMemorials | backend/memorials/views.py:44-72 | corrected: the listed memorials are exactly the active ones passing every given filter: religion, a shared category, inclusive date bounds and language |
| MemorialViews.NoQueryListsActive | backend/memorials/views.py:26 | without parameters the list is exactly the active memorials, in order |
| MemorialViews.OwnCategoriesDisplayFindsMemorial | backend/memorials/views.py:54-57 | corrected: asking for a memorial's own categories display finds that memorial |
| MemorialViews.Featured | backend/memorials/views.py:74-79 | corrected: the first six listed memorials, or the whole list when it is shorter, in list order |
| MemorialViews.ByReligion | backend/memorials/views.py:81-93 | corrected: the two groups are exactly the listed Christian and the listed Muslim memorials, sized by their counts, and together no more than the list |
| MemorialViews.Search | backend/memorials/views.py:114-148 | corrected: the results are listed memorials that match the text when one is given, and every listed memorial whose name contains the text, ignoring case, is among them |
| MemorialViews.EmptySearchIsList | backend/memorials/views.py:124 | an empty search text gives the list itself |
| MemorialViews.CategoryGroupOf | backend/memorials/views.py:101-110 | a category's group holds exactly the listed memorials with that category, and its count is their number |
| MemorialViews.ByCategory | backend/memorials/views.py:95-112 | corrected: one group per category choice in declaration order, each the `CategoryGroupOf` that category over the filtered list: exactly the listed memorials holding it, with their number |
| MemorialViews.CategoryCountsSum | backend/memorials/views.py:101-110 | the four category counts add up to the number of category choices each memorial holds, summed over the memorials |
| MemorialViews.LanguageBreakdown | backend/memorials/views.py:182-186 | the languages are exactly those of active memorials, each mapped to the number of active memorials in it, which is at least one and at most the active total |
| MemorialViews.Statistics | backend/memorials/views.py:162-202 | the total counts active memorials, each religion number the active memorials of that religion, each category number those holding the category, and each language number those in the language; the two religion counts together and each category count stay within the total |
| MemorialViews.StatisticsAgreeWithListings | backend/memorials/views.py:81-112 | the statistics are the size of the unfiltered list, of its `by_religion` groups and the counts of its `by_category` groups |
| MemorialViews.ReligionCountsFit | backend/memorials/views.py:165-167 | the Christian and Muslim counts together never exceed the active total |
| MemorialViews.Destroy | backend/memorials/views.py:212-215 | a listed memorial is marked inactive and saved, staying in the table with every other row unchanged; an id with no listed memorial is not found |
| MemorialViews.DestroyedNeverListed | backend/memorials/views.py:212-215 | after a soft delete the memorial is in no listing, whatever the query |
| MemorialViews.FilterMemorialsAsWritten | backend/memorials/views.py:54-57 | the list as written keeps only active memorials whose stored category list has an `overlap` key equal to the parameter's list, which a JSON list never has |
| MemorialViews.KeyTransform | backend/memorials/views.py:54-57 | a key lookup finds a value exactly when the stored JSON is an object with that key, and then it is that key's value |
| MemorialViews.CategoryFilterAsWrittenListsNothing | backend/memorials/views.py:54-57 | as written, any `categories` parameter empties the list |
| MemorialViews.CategoryFilterCounterexample | backend/memorials/views.py:54-57 | an active memorial in `Life Moments`, asked for by that category, is listed by the corrected filter and not by the filter as written |
| MemorialAdmin.SetActive | backend/memorials/admin.py:54-70 | only the active flag of the selected memorials is set, to the given value, and the selected ones are counted |
| MemorialAdmin.ActivateUndoesDeactivate | backend/memorials/admin.py:54-70 | activating after deactivating restores the table when the selected memorials were active |
| MemorialAdmin.GenerateQrCodes | backend/memorials/admin.py:72-84 | every selected memorial without QR data is saved and counted; those with QR enabled get their URL; every other row is unchanged |
| MemorialAdmin.GenerateQrCodesOvercounts | backend/memorials/admin.py:72-84 | a selected memorial with QR disabled is counted although no code is produced |
| MemorialAdmin.GeneratedAtMostReported | backend/memorials/admin.py:72-84 | the codes actually produced never exceed the reported count |
| MemorialAdmin.ListDisplayFor | backend/memorials/admin.py:90-95 | superusers see every column; other staff see the same columns in order without `created_at` |
| TimelineModels.MilestonesDisplay | backend/timeline/models.py:37-39 | no milestones display as `No milestones`; a single milestone displays as itself |
| TimelineModels.MilestonesDisplayRoundTrip | backend/timeline/models.py:37-39 | splitting the display of plain milestones on commas and trimming gives back the milestones in order |
| TimelineViews.FeaturedParam | backend/timeline/views.py:132-136 | a present `featured` parameter always filters, selecting featured stories exactly when it lower-cases to `true`; an absent one does not filter |
| TimelineViews.FeaturedParamSpellings | backend/timeline/views.py:132-136 | `True` and `TRUE` select featured stories; an empty value and `1` select the others |
| TimelineViews.FilterStories | backend/timeline/views.py:102-138 | the listed stories are exactly those of active memorials passing every given filter: phase, memorial and featured flag |
| TimelineViews.FeaturedListed | backend/timeline/views.py:140-145 | exactly the listed stories that are featured |
| TimelineViews.FeaturedStories | backend/timeline/views.py:140-145 | the first six listed featured stories, or all of them when there are fewer, in list order |
| TimelineViews.FeaturedFalseShowsNothing | backend/timeline/views.py:132-145 | with `featured=false` the featured endpoint lists nothing |
| TimelineViews.ByMemorial | backend/timeline/views.py:147-173 | a missing or empty `memorial_id` gives 400; otherwise the memorial's listed stories grouped by phase name, each story in exactly its phase's group, groups keeping list order, and the group sizes add up to the total |
| TimelineViews.ByPhase | backend/timeline/views.py:175-201 | a missing or empty `phase_id` gives 400; otherwise the phase's listed stories grouped by memorial name in the same way |
| TimelineViews.ActivePhases | backend/timeline/views.py:21 | the phase list holds exactly the active phases, in ascending `order` |
| TimelineViews.PhaseStories | backend/timeline/views.py:57-63 | a phase's stories are exactly the stories of that phase whose memorial is active |
| TimelineViews.PhaseFeatured | backend/timeline/views.py:44-48 | exactly the featured visible stories of the phase |
| TimelineViews.FeaturedOfPhase | backend/timeline/views.py:44-48 | the first three featured visible stories of the phase, or all of them when there are fewer |
| TimelineViews.Ordered | backend/timeline/views.py:35-54 | every active phase in order, each with the first three of its featured stories |
| TimelineViews.FeaturedFirst | backend/timeline/views.py:85 | the stories are reordered, none lost or added, with no unfeatured story before a featured one, and the featured and the unfeatured stories each keep their table order |
| TimelineViews.SampleOfPhase | backend/timeline/views.py:82-85 | the first two of the phase's visible stories once ordered featured first, or all of them when there are fewer |
| TimelineViews.SampleStartsFeatured | backend/timeline/views.py:82-85 | when the phase has a featured story, the first sample is featured |
| TimelineViews.Complete | backend/timeline/views.py:73-96 | every active phase in order, each with its two samples, and the total is the number of phases |
| Api.ParseId | backend/wakeroom/views.py:268 | `int()` of the parameter: surrounding whitespace is ignored, a parameter of plain digits is read as their decimal number, and nothing is read from blank text |
| Api.Magnitude | backend/wakeroom/views.py:268 | digits are read exactly when they form underscore-separated groups, with no leading, trailing or doubled underscore |
| Api.ParseIdOfPrinted | backend/wakeroom/views.py:268 | an id parameter spelling a number in decimal is read as that number |
| Api.ParseIdOfNegative | backend/wakeroom/views.py:268 | a minus sign before a printed number is read as its negation |
| Api.ParseIdOfPlus | backend/wakeroom/views.py:268 | a plus sign before a printed number is read as the number |
| Api.ParseIdIgnoresLeadingBlank | backend/wakeroom/views.py:268 | a leading space does not change what is read |
| Api.ParseIdUnderscored | backend/wakeroom/views.py:268 | `1_0` is read as ten |
| Api.ParseIdDoubleUnderscore | backend/wakeroom/views.py:268 | `1__0` is refused |
| Api.ParseIdMinusOne | backend/wakeroom/views.py:268 | `-1` is read as minus one |
| Api.LookupById | backend/wakeroom/views.py:258-270 | a missing or empty id parameter is refused before anything is read; an unreadable one is refused by the database; otherwise the result is exactly the rows belonging to the id |
| Api.LookupNoMatch | backend/wakeroom/views.py:258-270 | an id no row belongs to answers with an empty list |
| GalleryPage.FaithSelectsMode | frontend/src/pages/Gallery.tsx:43-51 | each faith button's religion, lower-cased, names exactly its own view |
| GalleryPage.Utf16Length | frontend/src/pages/Gallery.tsx:26 | JavaScript's length lies between the number of characters and twice that, and equals it exactly when no character lies beyond U+FFFF |
| GalleryPage.SearchingPlainQuery | frontend/src/pages/Gallery.tsx:26 | a query of characters within U+FFFF searches exactly when it has more than two characters |
| GalleryPage.EmojiPairSearches | frontend/src/pages/Gallery.tsx:26 | a letter and an emoji, two characters, already search |
| GalleryPage.DisplayData | frontend/src/pages/Gallery.tsx:25-39 | the search results once the query is longer than two UTF-16 code units, else the selected faith's list, else all memorials; only the all-memorials branch passes an error on |
| GalleryPage.DisplayIgnoresSelections | frontend/src/pages/Gallery.tsx:25-39 | what is displayed does not depend on the selected category or religion |
| GalleryPage.HandleReligionFilter | frontend/src/pages/Gallery.tsx:43-51 | pressing the current faith returns to all and another faith selects it; the search and the category are cleared |
| GalleryPage.ReligionToggleTwice | frontend/src/pages/Gallery.tsx:43-51 | pressing a faith twice, from all or from that faith, comes back to the same view, with the search cleared in between |
| GalleryPage.HandleCategoryFilter | frontend/src/pages/Gallery.tsx:53-60 | the category toggles between selected and none, the search is cleared, and the view is kept |
| GalleryPage.CategoryToggleTwice | frontend/src/pages/Gallery.tsx:53-60 | pressing a category twice restores the selection with the search cleared, and the display is that of clearing the search alone |
| GalleryPage.ClearFilters | frontend/src/pages/Gallery.tsx:62-67 | every piece of state returns to its initial value |
| GalleryPage.ClearFiltersShowsAll | frontend/src/pages/Gallery.tsx:62-67 | after clearing, the all-memorials query is displayed |
| GalleryPage.ShowAll | frontend/src/pages/Gallery.tsx:118-125 | the All Memories button selects the all view and keeps the search and category |
| GalleryPage.ShowAllKeepsSearch | frontend/src/pages/Gallery.tsx:118-125 | while a search runs, the All Memories button changes nothing that is displayed |
| GalleryPage.ResultCount | frontend/src/pages/Gallery.tsx:221 | the count line starts with `Showing ` and ends in `s` exactly when the count is not one |
| GalleryPage.ResultCountReadBack | frontend/src/pages/Gallery.tsx:221 | the count can be read back from the line |
| GalleryPage.ResultLine | frontend/src/pages/Gallery.tsx:219-224 | the results line is shown exactly when nothing loads and there is data to display, and it starts with the count line |
| GalleryPage.ResultLineAfterLoading | frontend/src/pages/Gallery.tsx:69 | while the results line is shown none of the four queries is loading |
| LegacyPage.SoldLicenses | frontend/src/pages/Legacy.tsx:16 | no data counts as none sold; otherwise the count is at most the number of licences |
| LegacyPage.SoldMeansStatusSold | frontend/src/pages/Legacy.tsx:16 | counting the serialized status `sold` counts exactly the sold licences |
| LegacyPage.AvailableLicenses | frontend/src/pages/Legacy.tsx:17 | sold plus available is 250, and available is negative exactly when more than 250 are sold |
| LegacyPage.SoldPercentage | frontend/src/pages/Legacy.tsx:18 | the percentage is the exact fraction sold times 100 over 250 |
| LegacyPage.PercentageInRange | frontend/src/pages/Legacy.tsx:18 | the percentage lies in 0 to 100 exactly when at most 250 are sold; it is 0 exactly for none sold and 100 exactly for 250 |
| LegacyPage.FeatureIcon | frontend/src/pages/Legacy.tsx:21-44 | the icon of the name matching ignoring ASCII case among nine, and the star for any other name |
| LegacyPage.FeatureIconIgnoresCase | frontend/src/pages/Legacy.tsx:21-44 | spellings that differ only in ASCII case get the same icon |
| LegacyPage.FeatureIconCapitalised | frontend/src/pages/Legacy.tsx:21-44 | the capitalised name `TrendingUp` reaches its icon |
| LegacyPage.Features | frontend/src/pages/Legacy.tsx:118-145 | the empty-state message exactly when the features are missing or empty, otherwise one icon per feature in order |
| LegacyPage.Page | frontend/src/pages/Legacy.tsx:46-58 | the loading page exactly while either query loads; otherwise sold plus available is 250, and without licence data all 250 are available at 0 percent |
| LegacyPage.FeaturedDataShowsNoneSold | frontend/src/pages/Legacy.tsx:16 | fed by the featured endpoint, which returns only available licences, the page reports none sold and all 250 available |
| TimelinePage.PhaseIcon | frontend/src/pages/Timeline.tsx:13-31 | the icon of the name or alias matching ignoring ASCII case, and the star for any other name |
| TimelinePage.PhaseIconAliases | frontend/src/pages/Timeline.tsx:13-31 | an alias and its full name, in any ASCII case, get the same icon, which is not the star |
| TimelinePage.Card | frontend/src/pages/Timeline.tsx:88-137 | even positions sit on the left; empty colour classes and spiritual aspect fall back to defaults; no milestones show the to-be-added line |
| TimelinePage.ServedHelpersAgreeWithCard | backend/timeline/models.py:41-50 | the served `icon_component` selects the card's icon, and a non-empty served colour class is the card's class, an empty one giving way to the default |
| TimelinePage.SortedPhases | frontend/src/pages/Timeline.tsx:86-87 | the phases reordered by ascending `order`, none lost or added |
| TimelinePage.Cards | frontend/src/pages/Timeline.tsx:86-95 | one card per phase, in ascending `order`, sides alternating from the left |
| TimelinePage.ServedOrderKept | frontend/src/pages/Timeline.tsx:86-87 | the phase list the backend serves is already in order, so the page keeps its order |
| TimelinePage.Page | frontend/src/pages/Timeline.tsx:33-150 | an error replaces everything; otherwise the spinner while loading, then the timeline with one card per phase, or the no-data message exactly when the phases are missing or empty |
| MemoryCard.Serialized | backend/memorials/serializers.py:65-70 | a served memorial always carries a non-empty icon name and colour class, those of the model |
| MemoryCard.CategoryIcon | frontend/src/components/MemoryCard.tsx:24-37 | each category choice, spelled exactly, gets its icon, and anything else the heart |
| MemoryCard.CategoryChoiceHasIcon | frontend/src/components/MemoryCard.tsx:24-37 | every category the backend accepts has an icon of its own |
| MemoryCard.LowerCasedChoiceGetsHeart | frontend/src/components/MemoryCard.tsx:24-37 | the lookup is case-sensitive: a lower-cased choice gets the heart |
| MemoryCard.CategoryTiles | frontend/src/components/MemoryCard.tsx:111 | a tile for each of the first four categories, in order, with its icon |
| MemoryCard.DisplayImage | frontend/src/components/MemoryCard.tsx:55 | the image URL when given, else the placeholder, so never empty |
| MemoryCard.ReligionColor | frontend/src/components/MemoryCard.tsx:39-46 | the backend's class when given, else gold exactly for Christian |
| MemoryCard.ColorAgreesWithBackend | frontend/src/components/MemoryCard.tsx:39-46 | with or without the backend's class, the card's colour is the backend's colour for the memorial |
| MemoryCard.BadgeAsWritten | frontend/src/components/MemoryCard.tsx:83-87 | as written, the cross appears exactly when no icon name is sent and the memorial is Christian |
| MemoryCard.ChristianBadgeAsWrittenIsMoon | frontend/src/components/MemoryCard.tsx:48-87 | as written, every Christian memorial served by the backend is badged with the moon |
| MemoryCard.Badge | frontend/src/components/MemoryCard.tsx:48-87 | corrected: the cross exactly when the sent icon name is `Cross`, or, without one, when the memorial is Christian |
| MemoryCard.BadgeMatchesReligion | frontend/src/components/MemoryCard.tsx:48-87 | the corrected badge is the cross exactly for Christian memorials, with or without the sent icon name |
| MemoryCard.Card | frontend/src/components/MemoryCard.tsx:55-111 | as written: a card never lacks an image, shows the QR badge exactly for QR memorials, shows at most four tiles from the front of the categories, and shows the cross only when no icon name is sent and the memorial is Christian |
| MemoryCard.CardOfServedMemorial | frontend/src/components/MemoryCard.tsx:39-111 | as written, a served memorial's card always shows the moon; its colour is its religion's, the QR badge shows exactly when it has a QR code, and its first category comes first |
| MemoryCard.CardCorrected | frontend/src/components/MemoryCard.tsx:48-111 | corrected: the card as written with only the badge changed, the cross exactly when the sent icon name is `Cross` or, without one, when the memorial is Christian |
| MemoryCard.CardCorrectedOfServedMemorial | frontend/src/components/MemoryCard.tsx:48-111 | the corrected card of a served memorial shows the cross exactly for Christian memorials, and differs from the card as written exactly for them |
| WakeRoomPage.FeatureIcon | frontend/src/pages/WakeRoom.tsx:15-36 | the icon of the name matching ignoring ASCII case among eight, and the eye for any other name |
| WakeRoomPage.FeatureIconIgnoresCase | frontend/src/pages/WakeRoom.tsx:15-36 | spellings that differ only in ASCII case get the same icon |
| WakeRoomPage.FeatureCards | frontend/src/pages/WakeRoom.tsx:147-149 | a card for each of the first six features, in order, with its icon |
| WakeRoomPage.Page | frontend/src/pages/WakeRoom.tsx:38-172 | the loading page exactly while experiences or features load; otherwise the featured section exactly when the featured list has items, the empty state exactly when the features are missing or empty, and at most six cards |
| WakeRoomPage.FeaturedSectionShown | frontend/src/pages/WakeRoom.tsx:68 | fed by the featured endpoint, the featured section shows exactly when some experience is featured and active |
| Seqs.GroupBy | backend/timeline/views.py:159-167 | every element lands in exactly the group of its key, each group keeps the input order, no group is empty, and the sizes add up to the input's |
| Seqs.SortBy | frontend/src/pages/Timeline.tsx:86-87 | the result is in ascending key order and is a permutation of the input |
| Seqs.SortBySorted | frontend/src/pages/Timeline.tsx:86-87 | sorting a list already in order leaves it unchanged |
| Money.RoundHalfEven | backend/legacy/models.py:61 | the result is the integer nearest the exact quotient, a tie going to the even one, as Python's `round` does |
| Money.RoundHalfEvenUnique | backend/legacy/models.py:61 | half-even rounding has only one answer |
| Money.RoundHalfEvenNegative | backend/legacy/models.py:59-61 | the rounded discount is negative exactly when the exact one is below minus one half |
| Money.TruncDiv | backend/wakeroom/models.py:147-148 | `int()` of a quotient: truncated toward zero, keeping the sign of the dividend |
| Money.ReadDecimalText | backend/legacy/models.py:91-95 | a printed two-place decimal is read back as the same number of cents |
| Text.SplitStripJoin | backend/memorials/views.py:56 | splitting a `", "`-joined list of plain items on commas and stripping each piece gives back the items |
| Text.ReadNatToString | backend/wakeroom/models.py:86-94 | the decimal spelling of a number is read back as that number, whatever non-digit text follows |

## Left out

Framework and environment:

- The Django ORM, pagination, permissions, the serializer framework and `build_absolute_uri`: tables are sequences. An image URL is an input to `MemoryCard.Serialized`.
- The serializer framework's own validators run before the field validators: a duplicate licence number is refused by the unique check, a number outside 1 to 250 by the range check, and an unknown religion by the choice check, each with its own message. `LegacySerializers.ValidateLicenseNumber` and `MemorialSerializers.ValidateReligion` model the field validators' messages, which those checks pre-empt.
- Authentication is an optional user id: anonymous callers are `None`.
- `models.timezone.now()` in `backend/legacy/models.py:84` and `backend/wakeroom/models.py:146` is taken to yield the current time. That time is the `now` parameter.
- Creation times and ordering: a table's order stands for its `Meta.ordering`. The phase list is sorted explicitly, since its order is what the frontend relies on.
- `Memorial.resize_image`: image file input and output.
- The `Avg` aggregate in the WakeRoom statistics, `recent_*` and `top_experiences` lists, and `revenue_summary`: floating-point and date aggregates, or plain slices of the ordered table.
- `apply_discount` in `backend/legacy/admin.py`: it mixes Decimal and float arithmetic.
- The legacy `available`, `by_status` and feature `by_category` actions, the purchase `by_user` action, and `get_remaining_licenses`: each is a plain status or id filter, already covered by `LegacyViews.RemainingCount` and `Api.LookupById`.
- The WakeRoom `requirements`, `media_files` and `search` actions, and the feature view set: they return `WakeRoomModels.TechRequirements`, `WakeRoomModels.MediaFiles` with URLs, or a text filter.
- The timeline `search` and `statistics` actions: a text filter and counts like those of the memorials.
- The memorial `qr_code` action: it only returns fields of the record.
- `LicenseFeature` and `WakeRoomFeature` rows: they are modelled only by the icon names the pages read.

Frontend:

- The frontend data layer (`frontend/src/lib/api.ts`, `frontend/src/hooks/use-api.ts`): the pages' query results are inputs.
- Markup, animation, and the `onError` image swap.

Weaker contracts and approximations:

- Text.Lower: folds ASCII letters only. JavaScript and Python also lower-case non-ASCII letters.
- WakeRoomModels.EndSession: takes `int((end - start).total_seconds())` as exact truncation of the microsecond difference. Float rounding of very long sessions is not modelled.
- LegacyPage.SoldPercentage: gives the percentage as an exact fraction. The page computes it in floating point.
- LegacyModels.Save: rounds the exact rational discount half to even. Python computes it with 28-digit `Decimal`, which cannot create a false tie for prices of ten digits. The refusal of a negative discount by the database is `LegacyModels.Store`; the 100 bound of the field's validator runs only in forms and serializers, not on save, and is not modelled.
- MemorialViews.JsonListText: does not escape quotes or non-ASCII characters the way the database's JSON text does.
- MemorialViews.Search: promises completeness only for matches in the name. For the other three fields it states soundness only.
- TimelineViews.PhaseStories: does not state the newest-first order. It is the table order.
- LegacyViews.FilterLicenses: takes `min_price` and `max_price` as already-read cents. A value the decimal field cannot read makes the ORM raise while the filter is built, a server error, which is not modelled.
- WakeRoomViews.FilterExperiences: takes `min_duration`, `max_duration` and `memorial_id` as already-read numbers. An unreadable value makes the ORM raise, a server error, which is not modelled; nor is a negative `memorial_id`, which lists nothing.
- MemorialViews.OwnCategoriesDisplayFindsMemorial: stated over the corrected category filter. As written, any `categories` parameter empties the list (`CategoryFilterAsWrittenListsNothing`), so this request finds nothing.
- MemorialViews.Featured: stated over the corrected category filter. As written, any `categories` parameter empties it (`CategoryFilterAsWrittenListsNothing`).
- MemorialViews.ByReligion: stated over the corrected category filter. As written, any `categories` parameter empties both groups (`CategoryFilterAsWrittenListsNothing`).
- MemorialViews.Search: stated over the corrected category filter. As written, any `categories` parameter empties it, through the list and again through its own overlap filter (`CategoryFilterAsWrittenListsNothing`).
- MemorialViews.ByCategory: stated over the corrected category filter. As written, any `categories` parameter empties every group (`CategoryFilterAsWrittenListsNothing`).
- MemorialViews.FilterMemorials: takes `start_date` and `end_date` as already-read day numbers. An invalid date makes the date field raise, a server error, which is not modelled.
- TimelineViews.FilterStories: takes `life_phase` and `memorial` as already-read ids. An unreadable value makes the ORM raise, a server error, which is not modelled; nor is a negative id, which lists nothing.
- Api.LookupById: an id that `int()` cannot read is `MalformedId`, standing for the error the database layer raises. Which error response follows is not modelled.
- Api.ParseId: reads ASCII digits only; `int()` also accepts the decimal digits of other scripts. Ids beyond the range of the database's integer column are not refused.
- WakeRoomAdmin.EndSessions: ends every selected session at the one given `now`. The source reads the clock once per session.
- WakeRoomViews.EndSessionAction: takes the request's field values as already having the field's type. Values the database would refuse on save are not modelled.
- MemorialModels.CategoriesDisplay: states the display's contents through `MemorialModels.CategoriesDisplayRoundTrip`, for lists of category choices only.

## Findings

| source | as written | input that shows it | evidently intended | confidence | as-written member | corrected member |
|---|---|---|---|---|---|---|
| backend/memorials/views.py:54-57 | `categories__overlap` on a `JSONField` is not a lookup of that field. It reads as the key `overlap` of the stored JSON compared with the parsed list. A stored list has no such key, so nothing matches. | an active memorial with categories `["Life Moments"]`, listed with `?categories=Life Moments` | keep the memorials sharing at least one category with the parsed list | medium, not executed | MemorialViews.FilterMemorialsAsWritten | MemorialViews.FilterMemorials |
| frontend/src/components/MemoryCard.tsx:83-87 | `getReligionIcon()` returns the backend's icon name, a string. The card compares that string with the `Cross` component, so the test never holds and the moon is shown. | any Christian memorial served by the backend, which sends `religion_icon: "Cross"` | show the cross when the icon name is `Cross`, or, without one, when the religion is Christian | high, not executed | MemoryCard.Card | MemoryCard.CardCorrected |

=== FILE: api.dfy ===
/** What the REST actions share: status codes and the lookups that take a
    required numeric id from the query string. */
module Api {
  import opened Wrappers
  import opened Seqs
  import opened Text

  const Ok200: int := 200
  const BadRequest400: int := 400
  const Unauthorized401: int := 401
  const ServerError500: int := 500

  /** Decimal digits with single underscores between them: what Python's
      `int()` accepts as the digits of a number. */
  predicate UnderscoredDigits(s: string) {
    && |s| > 0 && IsDigit(s[0]) && IsDigit(s[|s| - 1])
    && (forall i :: 0 <= i < |s| ==> IsDigit(s[i]) || s[i] == '_')
    && (forall i :: 0 <= i < |s| - 1 ==> s[i] == '_' ==> s[i + 1] != '_')
  }

  /** The digits of `s` without its underscores. */
  function DropUnderscores(s: string): (r: string)
    requires forall i :: 0 <= i < |s| ==> IsDigit(s[i]) || s[i] == '_'
    ensures AllDigits(r) && |r| <= |s|
    ensures AllDigits(s) ==> r == s
  {
    if |s| == 0 then ""
    else (if s[0] == '_' then "" else [s[0]]) + DropUnderscores(s[1..])
  }

  /** The value of an unsigned digit string in `int()`'s syntax. */
  function Magnitude(s: string): (r: Option<nat>)
    ensures r.Some? <==> UnderscoredDigits(s)
  {
    if UnderscoredDigits(s) then Some(ParseNat(DropUnderscores(s))) else None
  }

  /** `int()` of a string already stripped: an optional sign, then the digits. */
  function ReadSignedId(t: string): (r: Option<int>)
    ensures AllDigits(t) && |t| > 0 ==> r == Some(ParseNat(t) as int)
  {
    if |t| > 0 && (t[0] == '+' || t[0] == '-') then
      match Magnitude(t[1..])
      case None => None
      case Some(n) => Some(if t[0] == '-' then -(n as int) else n as int)
    else
      match Magnitude(t)
      case None => None
      case Some(n) => Some(n as int)
  }

  /** The id Django's integer lookup makes of a query parameter: Python's
      `int()` of the string, which strips surrounding whitespace and takes
      an optional sign before the digits. */
  function ParseId(p: string): (r: Option<int>)
    ensures r.Some? ==> |Strip(p)| > 0
    ensures AllDigits(Strip(p)) && |Strip(p)| > 0 ==> r == Some(ParseNat(Strip(p)) as int)
  {
    ReadSignedId(Strip(p))
  }

  /** A printed number has nothing to strip. */
  lemma DigitsTrimmed(s: string)
    requires AllDigits(s)
    ensures Strip(s) == s
  {
    StripTrimmed(s);
  }

  /** Every printed id is read back. */
  lemma ParseIdOfPrinted(n: nat)
    ensures ParseId(NatToString(n)) == Some(n as int)
  {
    var s := NatToString(n);
    DigitsTrimmed(s);
    ParseNatToString(n);
  }

  /** A sign in front of a printed number leaves nothing to strip. */
  lemma SignedTrimmed(c: char, s: string)
    requires c == '-' || c == '+'
    requires |s| > 0 && AllDigits(s)
    ensures Strip([c] + s) == [c] + s
  {
    var t := [c] + s;
    assert t[0] == c && t[|t| - 1] == s[|s| - 1];
    StripTrimmed(t);
  }

  /** Plain digits are their own `int()` digits. */
  lemma MagnitudeOfDigits(s: string)
    requires |s| > 0 && AllDigits(s)
    ensures Magnitude(s) == Some(ParseNat(s))
  {
    assert UnderscoredDigits(s);
  }

  lemma ReadSignedDigits(c: char, s: string)
    requires c == '-' || c == '+'
    requires |s| > 0 && AllDigits(s)
    ensures ReadSignedId([c] + s) == Some(if c == '-' then -(ParseNat(s) as int) else ParseNat(s) as int)
  {
    var t := [c] + s;
    assert t[0] == c && t[1..] == s;
    MagnitudeOfDigits(s);
    assert Magnitude(t[1..]) == Some(ParseNat(s));
  }

  /** A printed id with a minus sign is read back negative. */
  lemma ParseIdOfNegative(n: nat)
    ensures ParseId("-" + NatToString(n)) == Some(-(n as int))
  {
    var s := NatToString(n);
    SignedTrimmed('-', s);
    ReadSignedDigits('-', s);
    ParseNatToString(n);
  }

  lemma ParseIdMinusOne()
    ensures ParseId("-1") == Some(-1)
  {
    ParseIdOfNegative(1);
    assert NatToString(1) == "1";
    assert "-" + "1" == "-1";
  }

  /** A printed id with a plus sign is read back unchanged. */
  lemma ParseIdOfPlus(n: nat)
    ensures ParseId("+" + NatToString(n)) == Some(n as int)
  {
    var s := NatToString(n);
    SignedTrimmed('+', s);
    ReadSignedDigits('+', s);
    ParseNatToString(n);
  }

  /** Leading blanks do not change the id. */
  lemma ParseIdIgnoresLeadingBlank(p: string)
    ensures ParseId(" " + p) == ParseId(p)
  {
    StripLeadingBlank(p);
  }

  lemma DropUnderscoresOneZero()
    ensures DropUnderscores("1_0") == "10"
  {
    var t := "1_0";
    assert t[1..] == "_0" && t[1..][1..] == "0";
  }

  lemma MagnitudeOneZero()
    ensures Magnitude("1_0") == Some(10)
  {
    var t := "1_0";
    assert t[0] == '1' && t[1] == '_' && t[2] == '0';
    assert UnderscoredDigits(t);
    DropUnderscoresOneZero();
    assert ParseNat("10") == ParseNat("1") * 10 + 0;
  }

  /** Underscores may separate digits. */
  lemma ParseIdUnderscored()
    ensures ParseId("1_0") == Some(10)
  {
    StripTrimmed("1_0");
    MagnitudeOneZero();
  }

  /** Two underscores in a row are not `int()` digits. */
  lemma DoubleUnderscoreRefused(t: string, i: int)
    requires 0 <= i < |t| - 1 && t[i] == '_' && t[i + 1] == '_'
    ensures Magnitude(t).None?
  {
  }

  /** Two underscores in a row make the id malformed. */
  lemma ParseIdDoubleUnderscore()
    ensures ParseId("1__0").None?
  {
    var t := "1__0";
    StripTrimmed(t);
    assert t[0] == '1' && t[1] == '_' && t[2] == '_';
    DoubleUnderscoreRefused(t, 1);
  }

  /** The answer of an action that filters by a required id parameter. */
  datatype IdLookup<T> =
    | MissingId               // 400: the parameter is absent or empty
    | MalformedId             // `int()` refuses the parameter: the database layer raises
    | Rows(items: seq<T>)     // 200 with the matching rows

  function LookupCode<T>(r: IdLookup<T>): int {
    match r
    case MissingId => BadRequest400
    case MalformedId => ServerError500
    case Rows(_) => Ok200
  }

  /** Rows that `belongs` to the id in parameter `p`; a missing parameter is
      refused before anything is read. */
  function LookupById<T>(p: Option<string>, rows: seq<T>, belongs: (T, int) -> bool): (r: IdLookup<T>)
    ensures !Given(p) <==> r.MissingId?
    ensures Given(p) && ParseId(p.value).None? <==> r.MalformedId?
    ensures r.Rows? ==> p.Some? && ParseId(p.value).Some?
    ensures r.Rows? ==> forall i :: 0 <= i < |r.items| ==>
      r.items[i] in rows && belongs(r.items[i], ParseId(p.value).value)
    ensures r.Rows? ==> forall i :: 0 <= i < |rows| && belongs(rows[i], ParseId(p.value).value) ==>
      rows[i] in r.items
  {
    if !Given(p) then MissingId
    else match ParseId(p.value)
      case None => MalformedId
      case Some(id) => Rows(Filter(rows, (x: T) => belongs(x, id)))
  }

  /** An id that no row belongs to answers 200 with an empty list. */
  lemma LookupNoMatch<T>(p: Option<string>, rows: seq<T>, belongs: (T, int) -> bool)
    requires Given(p) && ParseId(p.value).Some?
    requires forall i :: 0 <= i < |rows| ==> !belongs(rows[i], ParseId(p.value).value)
    ensures LookupById(p, rows, belongs) == Rows([])
  {
    FilterNone(rows, (x: T) => belongs(x, ParseId(p.value).value));
  }
}

=== FILE: gallery_page.dfy ===
/** The state and helpers of the Gallery page (`frontend/src/pages/Gallery.tsx`):
    which query's data is displayed, the filter buttons' state changes,
    and the results line. The four queries' results are inputs. */
module GalleryPage {
  import opened Wrappers
  import opened Text
  import opened Ui
  import opened MemorialModels

  /** The faith view: `'all' | 'christian' | 'muslim'`. */
  datatype ViewMode = AllMode | ChristianMode | MuslimMode

  function ModeName(v: ViewMode): string {
    match v
    case AllMode => "all"
    case ChristianMode => "christian"
    case MuslimMode => "muslim"
  }

  /** The religions the two faith buttons pass to the filter handler. */
  datatype Faith = ChristianFaith | MuslimFaith

  function FaithName(f: Faith): string {
    match f
    case ChristianFaith => Christian
    case MuslimFaith => Muslim
  }

  /** The view a religion's lower-cased name selects. */
  function ModeNamed(name: string): (r: Option<ViewMode>)
    ensures r.Some? ==> ModeName(r.value) == name
  {
    if name == "all" then Some(AllMode)
    else if name == "christian" then Some(ChristianMode)
    else if name == "muslim" then Some(MuslimMode)
    else None
  }

  /** Each faith button's religion lower-cases to the name of a view, the
      faith's own, and to no other view's name. */
  lemma FaithSelectsMode(f: Faith)
    ensures ModeNamed(Lower(FaithName(f))).Some?
    ensures forall v: ViewMode :: ModeName(v) == Lower(FaithName(f)) <==> v == FaithMode(f)
  {
    if f == ChristianFaith {
      LowerCapitalised("Christian", "christian");
    } else {
      LowerCapitalised("Muslim", "muslim");
    }
  }

  /** A capitalised word lower-cases to the word with its first letter small. */
  lemma LowerCapitalised(w: string, k: string)
    requires |w| == |k| > 0 && 'A' <= w[0] <= 'Z' && k[0] == LowerChar(w[0])
    requires forall i :: 1 <= i < |w| ==> 'a' <= w[i] <= 'z' && k[i] == w[i]
    ensures Lower(w) == k
  {
    LowerByChars(w, k);
  }

  function FaithMode(f: Faith): ViewMode {
    match f
    case ChristianFaith => ChristianMode
    case MuslimFaith => MuslimMode
  }

  /** The page's four pieces of state. */
  datatype GalleryState = GalleryState(
    searchQuery: string,
    selectedReligion: Option<string>,
    selectedCategory: Option<string>,
    viewMode: ViewMode)

  const Initial: GalleryState := GalleryState("", None, None, AllMode)

  /** One query's state: its data (absent while not fetched), its loading
      flag and its error. */
  datatype Fetch<T> = Fetch(data: Option<seq<T>>, isLoading: bool, error: Option<string>)

  /** The page's four queries: all memorials, each faith, and the search. */
  datatype Queries<T> = Queries(all: Fetch<T>, christian: Fetch<T>, muslim: Fetch<T>, search: Fetch<T>)

  /** JavaScript's `length`: the number of UTF-16 code units, where a
      character beyond U+FFFF is a surrogate pair and counts twice. */
  function Utf16Length(s: string): (n: nat)
    ensures |s| <= n <= 2 * |s|
    ensures n == |s| <==> forall i :: 0 <= i < |s| ==> s[i] as int <= 0xFFFF
  {
    if |s| == 0 then 0
    else
      var rest := Utf16Length(s[1..]);
      assert forall i :: 1 <= i < |s| ==> s[i] == s[1..][i - 1];
      (if s[0] as int > 0xFFFF then 2 else 1) + rest
  }

  /** The search results take over once the query is longer than two
      UTF-16 code units, JavaScript's `length`. */
  predicate Searching(st: GalleryState) {
    Utf16Length(st.searchQuery) > 2
  }

  /** A query of characters within U+FFFF searches exactly when it has more
      than two of them. */
  lemma SearchingPlainQuery(st: GalleryState)
    requires forall i :: 0 <= i < |st.searchQuery| ==> st.searchQuery[i] as int <= 0xFFFF
    ensures Searching(st) <==> |st.searchQuery| > 2
  {
  }

  /** Two characters search when one of them lies beyond U+FFFF: an emoji
      and a letter are three code units. */
  lemma EmojiPairSearches(st: GalleryState)
    requires st.searchQuery == "a\U{1F600}"
    ensures |st.searchQuery| == 2 && Searching(st)
  {
    assert st.searchQuery[1] as int == 0x1F600;
    assert st.searchQuery[1..][1..] == [];
  }

  /** `getDisplayData`: the search results when searching, else the view's
      faith list, else all memorials; only the all-memorials query passes
      its error on. */
  function DisplayData<T>(st: GalleryState, q: Queries<T>): (r: Fetch<T>)
    ensures Searching(st) ==> r == q.search.(error := None)
    ensures !Searching(st) && st.viewMode == ChristianMode ==> r == q.christian.(error := None)
    ensures !Searching(st) && st.viewMode == MuslimMode ==> r == q.muslim.(error := None)
    ensures !Searching(st) && st.viewMode == AllMode ==> r == q.all
    ensures r.error.Some? ==> !Searching(st) && st.viewMode == AllMode
  {
    if Searching(st) then Fetch(q.search.data, q.search.isLoading, None)
    else
      match st.viewMode
      case ChristianMode => Fetch(q.christian.data, q.christian.isLoading, None)
      case MuslimMode => Fetch(q.muslim.data, q.muslim.isLoading, None)
      case AllMode => q.all
  }

  /** The displayed data does not depend on the selected category or
      religion: the category buttons filter nothing. */
  lemma DisplayIgnoresSelections<T>(st: GalleryState, q: Queries<T>, category: Option<string>, religion: Option<string>)
    ensures DisplayData(st.(selectedCategory := category, selectedReligion := religion), q) == DisplayData(st, q)
  {
  }

  /** `handleReligionFilter`: pressing the current faith's button returns to
      all, another faith's selects it; the search and the category are
      cleared and the selected religion is left alone. */
  function HandleReligionFilter(st: GalleryState, f: Faith): (r: GalleryState)
    ensures r.viewMode == if st.viewMode == FaithMode(f) then AllMode else FaithMode(f)
    ensures r.searchQuery == "" && r.selectedCategory.None?
    ensures r.selectedReligion == st.selectedReligion
  {
    FaithSelectsMode(f);
    var name := Lower(FaithName(f));
    var mode := if ModeName(st.viewMode) == name then AllMode else ModeNamed(name).value;
    st.(viewMode := mode, searchQuery := "", selectedCategory := None)
  }

  /** Pressing a faith button twice from all or from that faith comes back
      to the same view; after it the faith list, not the search, is shown. */
  lemma ReligionToggleTwice(st: GalleryState, f: Faith)
    requires st.viewMode == AllMode || st.viewMode == FaithMode(f)
    ensures HandleReligionFilter(HandleReligionFilter(st, f), f).viewMode == st.viewMode
    ensures !Searching(HandleReligionFilter(st, f))
  {
  }

  /** `handleCategoryFilter`: the category toggles between selected and
      none, the search is cleared, and the view is kept. */
  function HandleCategoryFilter(st: GalleryState, category: string): (r: GalleryState)
    ensures r.selectedCategory == (if st.selectedCategory == Some(category) then None else Some(category))
    ensures r.searchQuery == ""
    ensures r.viewMode == st.viewMode && r.selectedReligion == st.selectedReligion
  {
    var selected := if st.selectedCategory == Some(category) then None else Some(category);
    st.(selectedCategory := selected, searchQuery := "")
  }

  /** Pressing a category twice, from no selection or from that category,
      restores the selection, having cleared the search; and what is
      displayed is what clearing the search alone shows. */
  lemma CategoryToggleTwice<T>(st: GalleryState, category: string, q: Queries<T>)
    requires st.selectedCategory.None? || st.selectedCategory == Some(category)
    ensures HandleCategoryFilter(HandleCategoryFilter(st, category), category) == st.(searchQuery := "")
    ensures DisplayData(HandleCategoryFilter(st, category), q) == DisplayData(st.(searchQuery := ""), q)
  {
  }

  /** `clearFilters`: every piece of state back to its initial value. */
  function ClearFilters(st: GalleryState): (r: GalleryState)
    ensures r == Initial
  {
    st.(searchQuery := "", selectedReligion := None, selectedCategory := None, viewMode := AllMode)
  }

  /** After clearing, the page shows the all-memorials query. */
  lemma ClearFiltersShowsAll<T>(st: GalleryState, q: Queries<T>)
    ensures DisplayData(ClearFilters(st), q) == q.all
  {
  }

  /** The "All Memories" button: the all view, keeping the search. */
  function ShowAll(st: GalleryState): (r: GalleryState)
    ensures r.viewMode == AllMode
    ensures r.searchQuery == st.searchQuery && r.selectedCategory == st.selectedCategory
  {
    st.(viewMode := AllMode)
  }

  /** While a search is running, the "All Memories" button changes nothing
      that is displayed. */
  lemma ShowAllKeepsSearch<T>(st: GalleryState, q: Queries<T>)
    requires Searching(st)
    ensures DisplayData(ShowAll(st), q) == DisplayData(st, q)
  {
  }

  const ShowingPrefix: string := "Showing "

  /** `Showing {n} memorial{n !== 1 ? 's' : ''}`. */
  function ResultCount(n: nat): (r: string)
    ensures |r| > |ShowingPrefix|
    ensures r[|r| - 1] == 's' <==> n != 1
    ensures r[..|ShowingPrefix|] == ShowingPrefix
  {
    ShowingPrefix + NatToString(n) + " memorial" + (if n != 1 then "s" else "")
  }

  /** The count can be read back from the line. */
  lemma ResultCountReadBack(n: nat)
    ensures ReadNat(ResultCount(n)[|ShowingPrefix|..]).Some?
    ensures ReadNat(ResultCount(n)[|ShowingPrefix|..]).value.0 == n
  {
    var tail := " memorial" + (if n != 1 then "s" else "");
    assert ResultCount(n)[|ShowingPrefix|..] == NatToString(n) + tail;
    ReadNatToString(n, tail);
  }

  /** Something is still loading: the displayed query or any of the four. */
  predicate LoadingAny<T>(st: GalleryState, q: Queries<T>) {
    DisplayData(st, q).isLoading || q.all.isLoading || q.christian.isLoading
      || q.muslim.isLoading || q.search.isLoading
  }

  /** The results line: shown once nothing loads and there is something to
      display; the count, then the search, then the faith view when not all. */
  function ResultLine<T>(st: GalleryState, q: Queries<T>): (r: Option<string>)
    ensures r.Some? <==> !LoadingAny(st, q) && HasItems(DisplayData(st, q).data)
    ensures r.Some? ==> |r.value| >= |ResultCount(|DisplayData(st, q).data.value|)|
    ensures r.Some? ==> r.value[..|ResultCount(|DisplayData(st, q).data.value|)|] == ResultCount(|DisplayData(st, q).data.value|)
  {
    var shown := DisplayData(st, q);
    if LoadingAny(st, q) || !HasItems(shown.data) then None
    else
      var count := ResultCount(|shown.data.value|);
      var matching := if st.searchQuery != "" then " matching \"" + st.searchQuery + "\"" else "";
      var faith := if st.viewMode != AllMode then " (" + ModeName(st.viewMode) + " faith)" else "";
      assert (count + matching + faith)[..|count|] == count;
      Some(count + matching + faith)
  }

  /** Nothing loads while the results line is shown. */
  lemma ResultLineAfterLoading<T>(st: GalleryState, q: Queries<T>)
    requires ResultLine(st, q).Some?
    ensures !q.all.isLoading && !q.christian.isLoading && !q.muslim.isLoading && !q.search.isLoading
  {
  }
}

=== FILE: legacy_admin.dfy ===
/** The licence admin of `backend/legacy/admin.py`: bulk status overrides
    and the status-dependent read-only fields. The selection is given by
    licence number; rows outside it are untouched. */
module LegacyAdmin {
  import opened Wrappers
  import opened Seqs
  import opened LegacyModels

  /** The rows of the selection. */
  function InSelection(selected: set<nat>): License -> bool {
    (l: License) => l.number in selected
  }

  /** The outcome of a bulk update: the rows touched and the new table. */
  datatype BulkUpdate = BulkUpdate(updated: nat, table: seq<License>)

  /** `queryset.update(...)` with `change` applied to each selected row,
      without calling `save()`. */
  function UpdateSelected(table: seq<License>, selected: set<nat>, change: License -> License): (r: BulkUpdate)
    ensures r.updated == Count(table, InSelection(selected))
    ensures |r.table| == |table|
    ensures forall i :: 0 <= i < |table| ==>
      r.table[i] == if table[i].number in selected then change(table[i]) else table[i]
  {
    var (n, t) := UpdateWhere(table, InSelection(selected), change);
    BulkUpdate(n, t)
  }

  function ToAvailable(l: License): License {
    l.(status := Available, purchaser := None, purchaseDate := None)
  }

  function ToReserved(l: License): License {
    l.(status := Reserved)
  }

  function ToSold(l: License): License {
    l.(status := Sold)
  }

  /** `mark_available`: selected rows become available with no purchaser
      and no purchase date; payment method, transaction id and prices stay. */
  function MarkAvailable(table: seq<License>, selected: set<nat>): (r: BulkUpdate)
    ensures r.updated == Count(table, InSelection(selected)) && |r.table| == |table|
    ensures forall i :: 0 <= i < |table| && table[i].number in selected ==>
      && r.table[i].status == Available && r.table[i].purchaser.None? && r.table[i].purchaseDate.None?
      && r.table[i].paymentMethod == table[i].paymentMethod && r.table[i].transactionId == table[i].transactionId
      && r.table[i].currentPrice == table[i].currentPrice && r.table[i].number == table[i].number
    ensures forall i :: 0 <= i < |table| && table[i].number in selected ==>
      r.table[i].(status := table[i].status, purchaser := table[i].purchaser, purchaseDate := table[i].purchaseDate)
        == table[i]
    ensures forall i :: 0 <= i < |table| && table[i].number !in selected ==> r.table[i] == table[i]
  {
    UpdateSelected(table, selected, ToAvailable)
  }

  /** `mark_reserved`: selected rows become reserved from any status;
      nothing else about them changes. */
  function MarkReserved(table: seq<License>, selected: set<nat>): (r: BulkUpdate)
    ensures r.updated == Count(table, InSelection(selected)) && |r.table| == |table|
    ensures forall i :: 0 <= i < |table| && table[i].number in selected ==>
      r.table[i].status == Reserved && r.table[i].(status := table[i].status) == table[i]
    ensures forall i :: 0 <= i < |table| && table[i].number !in selected ==> r.table[i] == table[i]
  {
    UpdateSelected(table, selected, ToReserved)
  }

  /** `mark_sold`: selected rows become sold from any status; nothing else
      about them changes, so a purchaser need not be recorded. */
  function MarkSold(table: seq<License>, selected: set<nat>): (r: BulkUpdate)
    ensures r.updated == Count(table, InSelection(selected)) && |r.table| == |table|
    ensures forall i :: 0 <= i < |table| && table[i].number in selected ==>
      r.table[i].status == Sold && r.table[i].(status := table[i].status) == table[i]
    ensures forall i :: 0 <= i < |table| && table[i].number !in selected ==> r.table[i] == table[i]
  {
    UpdateSelected(table, selected, ToSold)
  }

  /** The overrides bypass the model's guards: an expired licence, which no
      buyer request can change, becomes sold through `mark_sold`, and a sold
      one becomes available again through `mark_available` and can then be
      reserved. */
  lemma AdminBypassesGuards(l: License, user: UserId, payment: string, txn: string, now: int)
    requires l.status == Expired
    ensures !Purchase(l, user, payment, txn, now).0
    ensures MarkSold([l], {l.number}).table[0].status == Sold
    ensures var sold := MarkSold([l], {l.number}).table[0];
            Reserve(MarkAvailable([sold], {sold.number}).table[0], user).0
  {
  }

  /** The base read-only fields. */
  const BaseReadonlyFields: seq<string> := ["license_id", "discount_percentage", "created_at", "updated_at"]
  const SoldReadonlyFields: seq<string> := ["status", "purchaser", "purchase_date"]

  /** `get_readonly_fields`: the base fields, plus status, purchaser and
      purchase date when editing a sold licence. */
  function ReadonlyFields(obj: Option<License>): (r: seq<string>)
    ensures |BaseReadonlyFields| <= |r| && r[..|BaseReadonlyFields|] == BaseReadonlyFields
    ensures "status" in r <==> obj.Some? && obj.value.status == Sold
    ensures "purchaser" in r <==> obj.Some? && obj.value.status == Sold
    ensures "purchase_date" in r <==> obj.Some? && obj.value.status == Sold
    ensures r[|BaseReadonlyFields|..] ==
      if obj.Some? && obj.value.status == Sold then ["status", "purchaser", "purchase_date"] else []
  {
    if obj.Some? && obj.value.status == Sold then BaseReadonlyFields + SoldReadonlyFields
    else BaseReadonlyFields
  }
}

=== FILE: legacy_models.dfy ===
/** The legacy licence record of `backend/legacy/models.py`: a four-state
    lifecycle (available, reserved, sold, expired), discount bookkeeping on
    save, and the two guarded transitions a buyer can trigger. */
module LegacyModels {
  import opened Wrappers
  import opened Text
  import opened Money

  datatype LicenseStatus = Available | Reserved | Sold | Expired

  /** The value stored in the `status` column. */
  function StatusCode(s: LicenseStatus): string {
    match s
    case Available => "available"
    case Reserved => "reserved"
    case Sold => "sold"
    case Expired => "expired"
  }

  /** The status a stored code stands for, if any. */
  function ParseStatus(code: string): Option<LicenseStatus> {
    if code == "available" then Some(Available)
    else if code == "reserved" then Some(Reserved)
    else if code == "sold" then Some(Sold)
    else if code == "expired" then Some(Expired)
    else None
  }

  /** Every status has its own code, and reading a code back gives the status. */
  lemma StatusCodeRoundTrip(s: LicenseStatus)
    ensures ParseStatus(StatusCode(s)) == Some(s)
  {
  }

  datatype LicenseType = Fomo250 | Standard | Premium

  /** The value stored in the `license_type` column. */
  function TypeCode(t: LicenseType): string {
    match t
    case Fomo250 => "FOMO_250"
    case Standard => "STANDARD"
    case Premium => "PREMIUM"
  }

  /** The human-readable name from `LICENSE_TYPES`. */
  function TypeName(t: LicenseType): string {
    match t
    case Fomo250 => "FOMO 250 Limited Edition"
    case Standard => "Standard License"
    case Premium => "Premium License"
  }

  /** `LICENSE_TYPES` in declaration order. */
  const AllTypes: seq<LicenseType> := [Fomo250, Standard, Premium]

  lemma TypeCodeInjective(a: LicenseType, b: LicenseType)
    requires TypeCode(a) == TypeCode(b)
    ensures a == b
  {
  }

  /** A Django user, by primary key. */
  type UserId = nat

  /** A `LegacyLicense` row. Prices are in cents; `purchaseDate` is a
      timestamp supplied by the caller. */
  datatype License = License(
    number: nat,
    licenseType: LicenseType,
    status: LicenseStatus,
    originalPrice: int,
    currentPrice: int,
    isDiscounted: bool,
    discountPercentage: int,
    features: seq<string>,
    purchaser: Option<UserId>,
    purchaseDate: Option<int>,
    paymentMethod: string,
    transactionId: string)

  /** Field defaults: 2999.00, 1999.00, 33 per cent. */
  const DefaultOriginalPrice: int := 299900
  const DefaultCurrentPrice: int := 199900
  const DefaultDiscountPercentage: int := 33

  /** The fields `save` never touches agree. */
  predicate SameExceptDiscount(a: License, b: License) {
    a == b.(isDiscounted := a.isDiscounted, discountPercentage := a.discountPercentage)
  }

  /** `save()`: when both prices are non-zero, the discount percentage is
      the rounded percentage saved off the original price and the discount
      flag says whether the current price is lower. */
  function Save(l: License): (r: License)
    ensures SameExceptDiscount(r, l)
    ensures l.originalPrice != 0 && l.currentPrice != 0 ==>
      && IsRoundHalfEven((l.originalPrice - l.currentPrice) * 100, l.originalPrice, r.discountPercentage)
      && (r.isDiscounted <==> l.currentPrice < l.originalPrice)
    ensures l.originalPrice == 0 || l.currentPrice == 0 ==> r == l
  {
    if l.originalPrice != 0 && l.currentPrice != 0 then
      l.(discountPercentage := RoundHalfEven((l.originalPrice - l.currentPrice) * 100, l.originalPrice),
         isDiscounted := l.currentPrice < l.originalPrice)
    else l
  }

  /** The discount fields agree with the prices, as after any `save()`. */
  predicate Saved(l: License) {
    Save(l) == l
  }

  /** Saving a saved record changes nothing. */
  lemma SaveIdempotent(l: License)
    ensures Saved(Save(l))
  {
    var r := Save(l);
    if l.originalPrice != 0 && l.currentPrice != 0 {
      RoundHalfEvenUnique((r.originalPrice - r.currentPrice) * 100, r.originalPrice, r.discountPercentage);
    }
  }

  /** With the default prices the computed discount equals the field default. */
  lemma DefaultPricesGiveDefaultDiscount(l: License)
    requires l.originalPrice == DefaultOriginalPrice && l.currentPrice == DefaultCurrentPrice
    ensures Save(l).discountPercentage == DefaultDiscountPercentage
    ensures Save(l).isDiscounted
  {
    var k := DefaultDiscountPercentage;
    assert IsRoundHalfEven((DefaultOriginalPrice - DefaultCurrentPrice) * 100, DefaultOriginalPrice, k);
    RoundHalfEvenUnique((DefaultOriginalPrice - DefaultCurrentPrice) * 100, DefaultOriginalPrice, k);
  }

  /** A genuine markdown (positive price no higher than the original) gives
      a percentage between 0 and 100. */
  lemma DiscountInPercentRange(l: License)
    requires 0 < l.currentPrice <= l.originalPrice
    ensures 0 <= Save(l).discountPercentage <= 100
  {
    var o, c := l.originalPrice, l.currentPrice;
    var n := (o - c) * 100;
    assert o * 0 <= n <= o * 100;
    RoundHalfEvenBetween(n, o, 0, 100);
  }

  /** `save()` as the database completes it: `discount_percentage` is a
      `PositiveIntegerField`, whose check constraint refuses a negative
      value, so a save computing one fails with an integrity error (`None`). */
  function Store(l: License): (r: Option<License>)
    ensures r.Some? ==> r.value == Save(l) && Saved(r.value) && r.value.discountPercentage >= 0
    ensures l.originalPrice == 0 || l.currentPrice == 0 ==> (r.None? <==> l.discountPercentage < 0)
  {
    SaveIdempotent(l);
    var s := Save(l);
    if s.discountPercentage < 0 then None else Some(s)
  }

  /** With a positive original price, the save is refused exactly when the
      current price exceeds the original by more than half a per cent of
      it: a smaller excess rounds to a discount of 0. */
  lemma StoreRefusedIff(l: License)
    requires l.originalPrice > 0 && l.currentPrice != 0
    ensures Store(l).None? <==> 200 * (l.currentPrice - l.originalPrice) > l.originalPrice
  {
    RoundHalfEvenNegative((l.originalPrice - l.currentPrice) * 100, l.originalPrice);
  }

  /** A negative original price, which the decimal column allows, turns the
      comparison round: the save is refused exactly when the current price
      lies below the original by more than half a per cent of its size. */
  lemma StoreRefusedIffNegativeOriginal(l: License)
    requires l.originalPrice < 0 && l.currentPrice != 0
    ensures Store(l).None? <==> 200 * (l.currentPrice - l.originalPrice) < l.originalPrice
  {
    var n := (l.originalPrice - l.currentPrice) * 100;
    assert RoundHalfEven(n, l.originalPrice) == RoundHalfEven(-n, -l.originalPrice);
    RoundHalfEvenNegative(-n, -l.originalPrice);
  }

  /** With a zero price nothing is recomputed, so only a stored negative
      discount is refused. */
  lemma StoreUnpricedRefusedIff(l: License)
    requires l.originalPrice == 0 || l.currentPrice == 0
    ensures Store(l).None? <==> l.discountPercentage < 0
  {
  }

  /** A row the table holds has been stored: its discount agrees with its
      prices and passed the column's check. */
  predicate Stored(l: License) {
    Store(l) == Some(l)
  }

  predicate IsAvailable(l: License) {
    l.status == Available
  }

  /** `reserve_license(user)`: only an available licence can be reserved; it
      then belongs to `user` as reserved. Otherwise nothing changes. */
  function Reserve(l: License, user: UserId): (res: (bool, License))
    ensures res.0 <==> l.status == Available
    ensures res.0 ==> res.1.status == Reserved && res.1.purchaser == Some(user)
    ensures res.0 ==> Saved(res.1)
    ensures res.0 ==> SameExceptDiscount(res.1.(status := l.status, purchaser := l.purchaser), l)
    ensures !res.0 ==> res.1 == l
  {
    if IsAvailable(l) then
      var r := Save(l.(status := Reserved, purchaser := Some(user)));
      SaveIdempotent(l.(status := Reserved, purchaser := Some(user)));
      (true, r)
    else (false, l)
  }

  /** `purchase_license(user, payment_method, transaction_id)`: an available
      or reserved licence becomes sold to `user` at time `now`, whoever
      reserved it. Otherwise nothing changes. */
  function Purchase(l: License, user: UserId, paymentMethod: string, transactionId: string, now: int): (res: (bool, License))
    ensures res.0 <==> l.status == Available || l.status == Reserved
    ensures res.0 ==> && res.1.status == Sold && res.1.purchaser == Some(user)
                      && res.1.purchaseDate == Some(now)
                      && res.1.paymentMethod == paymentMethod && res.1.transactionId == transactionId
    ensures res.0 ==> Saved(res.1)
    ensures res.0 ==> res.1.currentPrice == l.currentPrice && res.1.originalPrice == l.originalPrice
    ensures res.0 ==> res.1.number == l.number && res.1.licenseType == l.licenseType && res.1.features == l.features
    ensures !res.0 ==> res.1 == l
  {
    if l.status == Available || l.status == Reserved then
      var u := l.(status := Sold, purchaser := Some(user), purchaseDate := Some(now),
                  paymentMethod := paymentMethod, transactionId := transactionId);
      SaveIdempotent(u);
      (true, Save(u))
    else (false, l)
  }

  /** A reservation does not bind the purchase to the reserving user: after
      `alice` reserves, `bob` can buy, and the licence then belongs to `bob`. */
  lemma ReservedLicenseBuyableByAnyone(l: License, alice: UserId, bob: UserId, payment: string, txn: string, now: int)
    requires IsAvailable(l)
    ensures var (ok1, reserved) := Reserve(l, alice);
            var (ok2, sold) := Purchase(reserved, bob, payment, txn, now);
            ok1 && ok2 && sold.purchaser == Some(bob)
  {
  }

  /** The save inside `reserve_license` leaves the prices alone, so for a
      stored row the database never refuses it, and it stores what `Reserve`
      returns. */
  lemma ReserveOfStoredIsStored(l: License, user: UserId)
    requires Stored(l) && IsAvailable(l)
    ensures Store(l.(status := Reserved, purchaser := Some(user))) == Some(Reserve(l, user).1)
  {
  }

  /** Likewise the save inside `purchase_license`. */
  lemma PurchaseOfStoredIsStored(l: License, user: UserId, paymentMethod: string, transactionId: string, now: int)
    requires Stored(l) && (l.status == Available || l.status == Reserved)
    ensures Store(l.(status := Sold, purchaser := Some(user), purchaseDate := Some(now),
                     paymentMethod := paymentMethod, transactionId := transactionId))
      == Some(Purchase(l, user, paymentMethod, transactionId, now).1)
  {
  }

  /** A request a buyer can make of a licence. */
  datatype Request =
    | ReserveRequest(user: UserId)
    | PurchaseRequest(user: UserId, paymentMethod: string, transactionId: string, now: int)

  /** The licence after one request, whether or not it succeeded. */
  function Step(l: License, req: Request): (r: License)
    ensures r.status == Sold && l.status != Sold ==> req.PurchaseRequest? && r.purchaser == Some(req.user)
  {
    match req
    case ReserveRequest(u) => Reserve(l, u).1
    case PurchaseRequest(u, m, t, now) => Purchase(l, u, m, t, now).1
  }

  /** The licence after a sequence of requests, each applied in turn. */
  function Apply(l: License, requests: seq<Request>): License
    decreases |requests|
  {
    if |requests| == 0 then l else Apply(Step(l, requests[0]), requests[1..])
  }

  /** Sold and expired licences are final for buyers: no sequence of
      reservations and purchases changes them at all. */
  lemma {:induction false} SoldAndExpiredAreFinal(l: License, requests: seq<Request>)
    requires l.status == Sold || l.status == Expired
    ensures Apply(l, requests) == l
  {
    if |requests| > 0 {
      SoldAndExpiredAreFinal(l, requests[1..]);
    }
  }

  /** Some purchase request in `requests` came from `user`. */
  predicate PurchasedBy(requests: seq<Request>, user: UserId) {
    exists i :: 0 <= i < |requests| && requests[i].PurchaseRequest? && requests[i].user == user
  }

  /** A licence that ends up sold was bought by the user of one of the
      purchase requests, and by no one else after that. */
  lemma {:induction false} SoldToAPurchaser(l: License, requests: seq<Request>)
    requires l.status != Sold
    ensures var r := Apply(l, requests);
            r.status == Sold ==> r.purchaser.Some? && PurchasedBy(requests, r.purchaser.value)
    decreases |requests|
  {
    if |requests| > 0 {
      var next := Step(l, requests[0]);
      var rest := requests[1..];
      var r := Apply(next, rest);
      if next.status == Sold {
        SoldAndExpiredAreFinal(next, rest);
        assert requests[0].PurchaseRequest? && requests[0].user == next.purchaser.value;
      } else {
        SoldToAPurchaser(next, rest);
        if r.status == Sold {
          var i :| 0 <= i < |rest| && rest[i].PurchaseRequest? && rest[i].user == r.purchaser.value;
          assert requests[i + 1] == rest[i];
        }
      }
    }
  }

  /** `get_price_display()`: `$current`, followed by ` ($original)` when
      the licence is discounted. */
  function PriceDisplay(l: License): (r: string)
    ensures |r| >= 5 && r[0] == '$'
    ensures r[|r| - 1] == ')' <==> l.isDiscounted
  {
    var current := "$" + DecimalText(l.currentPrice);
    if l.isDiscounted then current + " ($" + DecimalText(l.originalPrice) + ")" else current
  }

  /** Reads a price display back into the current and, when shown, the
      original price. */
  function ReadPriceDisplay(s: string): Option<(int, Option<int>)> {
    if |s| == 0 || s[0] != '$' then None
    else match ReadDecimal(s[1..])
      case None => None
      case Some((current, rest)) =>
        if rest == "" then Some((current, None))
        else if |rest| < 3 || rest[..3] != " ($" then None
        else match ReadDecimal(rest[3..])
          case Some((original, ")")) => Some((current, Some(original)))
          case _ => None
  }

  /** The display shows exactly the prices it claims: both when discounted,
      the current one alone otherwise. */
  lemma ReadOriginalPrice(original: int)
    ensures var rest := " ($" + DecimalText(original) + ")";
            |rest| >= 3 && rest[..3] == " ($" && ReadDecimal(rest[3..]) == Some((original, ")"))
  {
    var rest := " ($" + DecimalText(original) + ")";
    assert rest[3..] == DecimalText(original) + ")";
    ReadDecimalText(original, ")");
  }

  lemma PriceDisplayRoundTrip(l: License)
    ensures ReadPriceDisplay(PriceDisplay(l))
      == Some((l.currentPrice, if l.isDiscounted then Some(l.originalPrice) else None))
  {
    var cur := DecimalText(l.currentPrice);
    var rest := if l.isDiscounted then " ($" + DecimalText(l.originalPrice) + ")" else "";
    var s := PriceDisplay(l);
    assert s == "$" + (cur + rest);
    assert s[1..] == cur + rest;
    ReadDecimalText(l.currentPrice, rest);
    if l.isDiscounted {
      ReadOriginalPrice(l.originalPrice);
    }
  }

  const NoFeaturesText: string := "No features listed"

  /** `get_features_display()`: the features joined with `", "`, or a
      placeholder when there are none. */
  function FeaturesDisplay(l: License): (r: string)
    ensures |l.features| == 0 ==> r == NoFeaturesText
  {
    ListDisplay(l.features, NoFeaturesText)
  }

  /** The features display lists the features in order: splitting it on
      commas and stripping the pieces gives them back when no feature holds
      a comma or surrounding blanks. */
  lemma FeaturesDisplayRoundTrip(l: License)
    requires |l.features| > 0
    requires forall i :: 0 <= i < |l.features| ==> ',' !in l.features[i] && IsTrimmed(l.features[i])
    ensures StripAll(Split(FeaturesDisplay(l), ',')) == l.features
  {
    SplitStripJoin(l.features);
  }
}

=== FILE: legacy_page.dfy ===
/** The helpers of the Legacy page (`frontend/src/pages/Legacy.tsx`): the
    FOMO availability figures, the feature icon table, and which states the
    page shows. */
module LegacyPage {
  import opened Wrappers
  import opened Seqs
  import opened Text
  import opened Ui
  import opened LegacyModels
  import opened LegacyViews

  /** The fixed size of the FOMO 250 release the page advertises. */
  const TotalLicenses: nat := 250

  /** The status code the page counts as sold. */
  const SoldCode: string := "sold"

  /** The number of fetched licences whose serialized status is exactly
      `"sold"`, or 0 while there is no data. */
  function SoldLicenses(licenses: Option<seq<License>>): (n: nat)
    ensures licenses.None? ==> n == 0
    ensures licenses.Some? ==> n <= |licenses.value|
  {
    match licenses
    case None => 0
    case Some(ls) => Count(ls, (l: License) => StatusCode(l.status) == SoldCode)
  }

  /** Comparing the serialized status with `"sold"` counts the same records
      as comparing the status itself. */
  lemma SoldMeansStatusSold(ls: seq<License>)
    ensures SoldLicenses(Some(ls)) == CountStatus(ls, Sold)
  {
    forall l: License ensures (StatusCode(l.status) == SoldCode) == (l.status == Sold) {
      StatusCodeRoundTrip(l.status);
      StatusCodeRoundTrip(Sold);
    }
    CountSame(ls, (l: License) => StatusCode(l.status) == SoldCode, HasStatus(Sold));
  }

  /** The remaining count: 250 minus the sold count, negative once more
      than 250 are sold, since nothing clamps it. */
  function AvailableLicenses(sold: nat): (r: int)
    ensures sold + r == TotalLicenses
    ensures r < 0 <==> sold > TotalLicenses
  {
    TotalLicenses - sold
  }

  /** An exact rational number `num / den`. */
  datatype Fraction = Fraction(num: int, den: nat)

  /** `num / den` lies in `[lo, hi]`. */
  predicate Within(f: Fraction, lo: int, hi: int)
    requires f.den > 0
  {
    lo * f.den <= f.num <= hi * f.den
  }

  /** `(sold / 250) * 100` as an exact fraction; the page computes it in
      floating point. */
  function SoldPercentage(sold: nat): (r: Fraction)
    ensures r.den > 0
    ensures r.num * 5 == sold * 2 * r.den
  {
    Fraction(sold * 100, TotalLicenses)
  }

  /** The progress bar's percentage is a percentage exactly while no more
      than 250 are sold; it is 0 for none sold and 100 for all sold. */
  lemma PercentageInRange(sold: nat)
    ensures Within(SoldPercentage(sold), 0, 100) <==> sold <= TotalLicenses
    ensures SoldPercentage(sold).num == 0 <==> sold == 0
    ensures Within(SoldPercentage(sold), 100, 100) <==> sold == TotalLicenses
  {
  }

  /** The feature icon `switch`, on the lower-cased icon name. */
  const FeatureCases: Cases := [
    ("shield", Shield), ("star", Star), ("infinity", Infinity), ("gem", Gem),
    ("crown", Crown), ("heart", Heart), ("trendingup", TrendingUp),
    ("users", Users), ("zap", Zap)]

  /** `getFeatureIcon`: the icon whose name matches ignoring ASCII case,
      and the star for any other name. */
  function FeatureIcon(iconName: string): (r: Icon)
    ensures forall i :: 0 <= i < |FeatureCases| && Lower(iconName) == FeatureCases[i].0 ==> r == FeatureCases[i].1
    ensures Unlabelled(FeatureCases, Lower(iconName)) ==> r == Star
  {
    assert DistinctLabels(FeatureCases);
    forall i | 0 <= i < |FeatureCases| && Lower(iconName) == FeatureCases[i].0 {
      LookupLabel(FeatureCases, i, Star);
    }
    Lookup(FeatureCases, Lower(iconName), Star)
  }

  /** Spellings that differ only in ASCII case select the same icon. */
  lemma FeatureIconIgnoresCase(a: string, b: string)
    requires Lower(a) == Lower(b)
    ensures FeatureIcon(a) == FeatureIcon(b)
  {
  }

  /** A capitalised name, as the backend stores them, reaches its icon. */
  lemma FeatureIconCapitalised()
    ensures FeatureIcon("TrendingUp") == TrendingUp
  {
    LowerTrendingUp();
    assert FeatureCases[6].0 == Lower("TrendingUp");
  }

  /** The stored icon name lower-cases to the table's label. */
  lemma LowerTrendingUp()
    ensures Lower("TrendingUp") == "trendingup"
  {
    var w := "TrendingUp";
    forall i | 0 <= i < |w| ensures LowerChar(w[i]) == "trendingup"[i] {
      if i != 0 && i != 8 {
        assert w[i] == "trendingup"[i];
      }
    }
    LowerByChars(w, "trendingup");
  }

  /** The features part of the page: the grid of all features, or the
      empty-state message. */
  datatype FeatureSection = FeatureGrid(icons: seq<Icon>) | NoLicenseFeatures

  function Features(iconNames: Option<seq<string>>): (r: FeatureSection)
    ensures r.NoLicenseFeatures? <==> !HasItems(iconNames)
    ensures r.FeatureGrid? ==> |r.icons| == |iconNames.value| > 0
    ensures r.FeatureGrid? ==> forall i :: 0 <= i < |r.icons| ==> r.icons[i] == FeatureIcon(iconNames.value[i])
  {
    if HasItems(iconNames) then FeatureGrid(Map(iconNames.value, FeatureIcon)) else NoLicenseFeatures
  }

  /** What the page shows: the loading page, or the availability figures
      and the features. */
  datatype Screen =
    | Loading
    | Loaded(sold: nat, available: int, percentage: Fraction, features: FeatureSection)

  /** The page for the two queries' state: the loading page while either
      query is loading, otherwise figures computed from the licences and
      the features grid or its empty state. */
  function Page(isLoadingFeatures: bool, isLoadingLicenses: bool,
                featureIconNames: Option<seq<string>>, licenses: Option<seq<License>>): (r: Screen)
    ensures r.Loading? <==> isLoadingFeatures || isLoadingLicenses
    ensures r.Loaded? ==> r.sold + r.available == TotalLicenses
    ensures r.Loaded? ==> (r.features.NoLicenseFeatures? <==> !HasItems(featureIconNames))
    ensures r.Loaded? && licenses.None? ==> r.available == TotalLicenses && r.percentage.num == 0
  {
    if isLoadingFeatures || isLoadingLicenses then Loading
    else
      var sold := SoldLicenses(licenses);
      Loaded(sold, AvailableLicenses(sold), SoldPercentage(sold), Features(featureIconNames))
  }

  /** The page's data comes from the featured endpoint, which returns only
      available licences: so the page always reports none sold and all
      250 available, whatever the table holds. */
  lemma FeaturedDataShowsNoneSold(ls: seq<License>, q: LicenseQuery)
    ensures SoldLicenses(Some(Featured(ls, q))) == 0
    ensures AvailableLicenses(SoldLicenses(Some(Featured(ls, q)))) == TotalLicenses
  {
    var r := Featured(ls, q);
    SoldMeansStatusSold(r);
    CountIsFilterSize(r, HasStatus(Sold));
    FilterNone(r, HasStatus(Sold));
  }
}

=== FILE: legacy_serializers.dfy ===
/** The validators of `backend/legacy/serializers.py`: licence-number
    checks on create, and the purchase-record checks. */
module LegacySerializers {
  import opened Wrappers
  import opened LegacyModels
  import opened LegacyViews
  import opened Api

  const MinLicenseNumber: int := 1
  const MaxLicenseNumber: int := 250

  const NumberTakenError: string := "License number already exists"
  const NumberRangeError: string := "License number must be between 1 and 250"

  predicate NumberInUse(existing: seq<License>, value: int) {
    exists i :: 0 <= i < |existing| && existing[i].number == value
  }

  /** `validate_license_number`: a number already in the table is refused
      first; then numbers outside 1..250; anything else is accepted as is. */
  function ValidateLicenseNumber(existing: seq<License>, value: int): (r: Result<int>)
    ensures NumberInUse(existing, value) ==> r == Err(NumberTakenError)
    ensures !NumberInUse(existing, value) && (value < MinLicenseNumber || value > MaxLicenseNumber) ==>
      r == Err(NumberRangeError)
    ensures r.Ok? <==> !NumberInUse(existing, value) && MinLicenseNumber <= value <= MaxLicenseNumber
    ensures r.Ok? ==> r.value == value
  {
    if NumberInUse(existing, value) then Err(NumberTakenError)
    else if value < MinLicenseNumber || value > MaxLicenseNumber then Err(NumberRangeError)
    else Ok(value)
  }

  /** No two licences share a number. */
  predicate NumbersUnique(ls: seq<License>) {
    forall i, j :: 0 <= i < j < |ls| ==> ls[i].number != ls[j].number
  }

  /** Every number is in 1..250. */
  predicate NumbersInRange(ls: seq<License>) {
    forall i :: 0 <= i < |ls| ==> MinLicenseNumber <= ls[i].number <= MaxLicenseNumber
  }

  /** Creating licences only through the validator keeps numbers unique
      and within range. */
  lemma ValidatedCreateKeepsNumbers(existing: seq<License>, l: License)
    requires NumbersUnique(existing) && NumbersInRange(existing)
    requires ValidateLicenseNumber(existing, l.number).Ok?
    ensures NumbersUnique(existing + [l]) && NumbersInRange(existing + [l])
  {
  }

  function Numbers(ls: seq<License>): set<int> {
    set i | 0 <= i < |ls| :: ls[i].number as int
  }

  lemma {:induction false} UniqueNumbersCount(ls: seq<License>)
    requires NumbersUnique(ls)
    ensures |Numbers(ls)| == |ls|
  {
    if |ls| > 0 {
      var init := ls[..|ls| - 1];
      UniqueNumbersCount(init);
      assert Numbers(ls) == Numbers(init) + {ls[|ls| - 1].number as int};
      assert ls[|ls| - 1].number as int !in Numbers(init);
    }
  }

  function Range(lo: int, hi: int): (s: set<int>)
    requires lo <= hi
    ensures forall x :: x in s <==> lo <= x < hi
    ensures |s| == hi - lo
    decreases hi - lo
  {
    if lo == hi then {} else {lo} + Range(lo + 1, hi)
  }

  /** A table built through the validator holds at most 250 licences: the
      limited edition cannot be oversold by creating more rows. */
  lemma TableCapacity(ls: seq<License>)
    requires NumbersUnique(ls) && NumbersInRange(ls)
    ensures |ls| <= MaxLicenseNumber
  {
    UniqueNumbersCount(ls);
    var all := Range(MinLicenseNumber, MaxLicenseNumber + 1);
    assert Numbers(ls) <= all;
    SubsetSize(Numbers(ls), all);
  }

  lemma SubsetSize(a: set<int>, b: set<int>)
    requires a <= b
    ensures |a| <= |b|
  {
    assert b == a + (b - a);
  }

  /** The data of a `LicensePurchase` to create; the amount is in cents. */
  datatype PurchaseData = PurchaseData(
    license: License,
    purchaser: UserId,
    amountPaid: int,
    paymentMethod: string,
    transactionId: string)

  const NotAvailableError: string := "License is not available for purchase"
  const AmountMismatchError: string := "Amount paid must match current license price"

  /** `LicensePurchaseCreateSerializer.validate`: the licence must be
      available, and then the amount must equal its current price. */
  function ValidatePurchase(data: PurchaseData): (r: Result<PurchaseData>)
    ensures !IsAvailable(data.license) ==> r == Err(NotAvailableError)
    ensures IsAvailable(data.license) && data.amountPaid != data.license.currentPrice ==> r == Err(AmountMismatchError)
    ensures r.Ok? <==> IsAvailable(data.license) && data.amountPaid == data.license.currentPrice
    ensures r.Ok? ==> r.value == data
  {
    if !IsAvailable(data.license) then Err(NotAvailableError)
    else if data.amountPaid != data.license.currentPrice then Err(AmountMismatchError)
    else Ok(data)
  }

  /** Purchase data the serializer accepts describes a purchase the
      purchase action would carry out, recording the same amount. */
  lemma AcceptedPurchaseAgreesWithAction(data: PurchaseData, now: int, records: seq<PurchaseRecord>)
    requires ValidatePurchase(data).Ok?
    requires data.paymentMethod != "" && data.transactionId != ""
    ensures var res := PurchaseAction(data.license, Some(data.purchaser),
                                      Some(data.paymentMethod), Some(data.transactionId), now, records);
            res.code == Ok200 && res.records[|records|].amountPaid == data.amountPaid
  {
  }
}

=== FILE: legacy_views.dfy ===
/** The licence endpoints of `backend/legacy/views.py`: query-parameter
    filters, the featured and counting endpoints, statistics, and the
    reserve and purchase actions with their guard order. The licence table
    is a sequence in `license_number` order. */
module LegacyViews {
  import opened Wrappers
  import opened Seqs
  import opened LegacyModels
  import opened Text
  import opened Api

  /** The query parameters of the licence list; prices are in cents. */
  datatype LicenseQuery = LicenseQuery(
    status: Option<string>,
    minPrice: Option<int>,
    maxPrice: Option<int>,
    licenseType: Option<string>)

  /** A licence passes every filter the query asks for; the price range is
      inclusive at both ends. */
  predicate Matches(q: LicenseQuery, l: License) {
    && (Given(q.status) ==> StatusCode(l.status) == q.status.value)
    && (q.minPrice.Some? ==> q.minPrice.value <= l.currentPrice)
    && (q.maxPrice.Some? ==> l.currentPrice <= q.maxPrice.value)
    && (Given(q.licenseType) ==> TypeCode(l.licenseType) == q.licenseType.value)
  }

  /** `get_queryset()`: the status, minimum price, maximum price and type
      filters, each applied only when given. Chained `.filter()` calls on one
      table keep the rows that pass all of them, in table order. */
  function FilterLicenses(ls: seq<License>, q: LicenseQuery): (r: seq<License>)
    ensures forall i :: 0 <= i < |r| ==> r[i] in ls && Matches(q, r[i])
    ensures forall i :: 0 <= i < |ls| && Matches(q, ls[i]) ==> ls[i] in r
  {
    Filter(ls, (l: License) => Matches(q, l))
  }

  /** An empty query returns the whole table. */
  lemma EmptyQueryKeepsAll(ls: seq<License>)
    ensures FilterLicenses(ls, LicenseQuery(None, None, None, None)) == ls
  {
    FilterAll(ls, (l: License) => Matches(LicenseQuery(None, None, None, None), l));
  }

  predicate IsFeaturable(l: License) {
    l.status == Available && l.licenseType == Fomo250
  }

  const FeaturedLimit: nat := 6

  /** The candidates of `featured`: the available FOMO 250 licences the
      query lets through, in list order. */
  function Featurable(ls: seq<License>, q: LicenseQuery): (r: seq<License>)
    ensures forall i :: 0 <= i < |r| ==> IsFeaturable(r[i]) && Matches(q, r[i]) && r[i] in ls
    ensures forall i :: 0 <= i < |ls| && IsFeaturable(ls[i]) && Matches(q, ls[i]) ==> ls[i] in r
  {
    Filter(FilterLicenses(ls, q), IsFeaturable)
  }

  /** `featured`: the first six candidates. */
  function Featured(ls: seq<License>, q: LicenseQuery): (r: seq<License>)
    ensures |r| == if |Featurable(ls, q)| <= FeaturedLimit then |Featurable(ls, q)| else FeaturedLimit
    ensures r == Featurable(ls, q)[..|r|]
    ensures forall i :: 0 <= i < |r| ==> IsFeaturable(r[i]) && Matches(q, r[i]) && r[i] in ls
    ensures |r| < FeaturedLimit ==>
      forall i :: 0 <= i < |ls| && IsFeaturable(ls[i]) && Matches(q, ls[i]) ==> ls[i] in r
  {
    var candidates := Featurable(ls, q);
    var r := Take(candidates, FeaturedLimit);
    assert forall i :: 0 <= i < |r| ==> r[i] == candidates[i];
    r
  }

  function HasStatus(s: LicenseStatus): License -> bool {
    (l: License) => l.status == s
  }

  function CountStatus(ls: seq<License>, s: LicenseStatus): nat {
    Count(ls, HasStatus(s))
  }

  /** `remaining_count`: the number of available licences in the whole table. */
  function RemainingCount(ls: seq<License>): (n: nat)
    ensures n <= |ls|
  {
    CountStatus(ls, Available)
  }

  function CountType(ls: seq<License>, t: LicenseType): nat {
    Count(ls, (l: License) => l.licenseType == t)
  }

  /** Each licence has exactly one status, so the four status counts add
      up to the table's size. */
  lemma {:induction false} StatusCountsPartition(ls: seq<License>)
    ensures CountStatus(ls, Available) + CountStatus(ls, Reserved) + CountStatus(ls, Sold) + CountStatus(ls, Expired) == |ls|
  {
    if |ls| > 0 {
      StatusCountsPartition(ls[1..]);
    }
  }

  /** Each licence has exactly one type, so the three type counts add up
      to the table's size. */
  lemma {:induction false} TypeCountsPartition(ls: seq<License>)
    ensures CountType(ls, Fomo250) + CountType(ls, Standard) + CountType(ls, Premium) == |ls|
  {
    if |ls| > 0 {
      TypeCountsPartition(ls[1..]);
    }
  }

  /** The remaining count is the number of available licences, which is
      the table's size less the reserved, sold and expired ones. */
  lemma RemainingCountComplement(ls: seq<License>)
    ensures RemainingCount(ls) == |ls| - CountStatus(ls, Reserved) - CountStatus(ls, Sold) - CountStatus(ls, Expired)
  {
    StatusCountsPartition(ls);
  }

  /** One entry of the per-type summary. */
  datatype TypeTally = TypeTally(code: string, name: string, count: nat, available: nat)

  function OfType(t: LicenseType): License -> bool {
    (l: License) => l.licenseType == t
  }

  /** Available licences of one type. */
  function AvailableOfType(t: LicenseType): License -> bool {
    (l: License) => l.licenseType == t && l.status == Available
  }

  /** The counts for one licence type: all of them, and the available ones. */
  function Tally(ls: seq<License>, t: LicenseType): (r: TypeTally)
    ensures r.code == TypeCode(t) && r.name == TypeName(t)
    ensures r.count == CountType(ls, t)
    ensures r.available == Count(ls, AvailableOfType(t))
    ensures r.available <= r.count
  {
    var ofType := Filter(ls, OfType(t));
    CountIsFilterSize(ls, OfType(t));
    CountSame(ls, OfType(t), (l: License) => l.licenseType == t);
    CountOfFiltered(ls, OfType(t), IsAvailable, AvailableOfType(t));
    TypeTally(TypeCode(t), TypeName(t), |ofType|, Count(ofType, IsAvailable))
  }

  /** The per-type summary, one entry per type in declaration order; the
      type counts add up to the table's size. */
  function Tallies(ls: seq<License>): (r: seq<TypeTally>)
    ensures |r| == |AllTypes|
    ensures forall i :: 0 <= i < |r| ==> r[i] == Tally(ls, AllTypes[i])
    ensures r[0].count + r[1].count + r[2].count == |ls|
  {
    TypeCountsPartition(ls);
    seq(|AllTypes|, i requires 0 <= i < |AllTypes| => Tally(ls, AllTypes[i]))
  }

  /** The aggregate numbers of `statistics`. Revenue is in cents. */
  datatype LicenseStatistics = LicenseStatistics(
    total: nat,
    available: nat,
    sold: nat,
    reserved: nat,
    totalRevenue: int,
    byType: seq<TypeTally>)

  function Price(l: License): int {
    l.currentPrice
  }

  /** The sum of the sold licences' current prices (`Sum('current_price')`
      over the sold rows, 0 when there are none). */
  function Revenue(ls: seq<License>): int {
    Sum(Filter(ls, HasStatus(Sold)), Price)
  }

  lemma NoSalesNoRevenue(ls: seq<License>)
    ensures CountStatus(ls, Sold) == 0 ==> Revenue(ls) == 0
  {
    CountIsFilterSize(ls, HasStatus(Sold));
  }

  /** A successful purchase of a table row adds exactly the recorded amount
      paid to the revenue, and one to the sold count. */
  lemma PurchaseAddsRevenue(
    ls: seq<License>, i: nat, user: Option<UserId>,
    paymentMethod: Option<string>, transactionId: Option<string>, now: int, records: seq<PurchaseRecord>)
    requires i < |ls|
    requires PurchaseAction(ls[i], user, paymentMethod, transactionId, now, records).code == Ok200
    ensures var res := PurchaseAction(ls[i], user, paymentMethod, transactionId, now, records);
            && Revenue(ls[i := res.license]) == Revenue(ls) + res.records[|records|].amountPaid
            && CountStatus(ls[i := res.license], Sold) == CountStatus(ls, Sold) + 1
  {
    var res := PurchaseAction(ls[i], user, paymentMethod, transactionId, now, records);
    SumFilterUpdate(ls, i, res.license, HasStatus(Sold), Price);
    CountUpdate(ls, i, res.license, HasStatus(Sold));
  }

  /** `statistics` over the whole table, whatever the query parameters. */
  function Statistics(ls: seq<License>): (r: LicenseStatistics)
    ensures r.total == |ls| && r.available == RemainingCount(ls)
    ensures r.sold == CountStatus(ls, Sold) && r.reserved == CountStatus(ls, Reserved)
    ensures r.totalRevenue == Revenue(ls)
    ensures r.available + r.sold + r.reserved + CountStatus(ls, Expired) == r.total
    ensures r.sold == 0 ==> r.totalRevenue == 0
    ensures |r.byType| == |AllTypes|
    ensures forall i :: 0 <= i < |r.byType| ==>
      && r.byType[i].code == TypeCode(AllTypes[i]) && r.byType[i].name == TypeName(AllTypes[i])
      && r.byType[i].count == CountType(ls, AllTypes[i])
      && r.byType[i].available == Count(ls, AvailableOfType(AllTypes[i]))
    ensures r.byType[0].count + r.byType[1].count + r.byType[2].count == r.total
  {
    StatusCountsPartition(ls);
    NoSalesNoRevenue(ls);
    var byType := Tallies(ls);
    LicenseStatistics(|ls|, RemainingCount(ls), CountStatus(ls, Sold), CountStatus(ls, Reserved), Revenue(ls), byType)
  }

  /** One entry of `by_type`: the licences of a type among those the query
      lets through. */
  datatype TypeGroup = TypeGroup(code: string, name: string, licenses: seq<License>, count: nat, availableCount: nat)

  /** `g` is the `by_type` entry for type `t` under query `q`. */
  predicate GroupFor(g: TypeGroup, t: LicenseType, q: LicenseQuery) {
    && g.code == TypeCode(t)
    && g.count == |g.licenses|
    && g.availableCount <= g.count
    && (forall j :: 0 <= j < |g.licenses| ==> g.licenses[j].licenseType == t && Matches(q, g.licenses[j]))
  }

  /** The `by_type` entry for type `t` over the listed licences `base`. */
  function Group(base: seq<License>, t: LicenseType): (g: TypeGroup)
    ensures g.code == TypeCode(t) && g.name == TypeName(t)
    ensures g.count == |g.licenses| == CountType(base, t)
    ensures g.availableCount == Count(base, AvailableOfType(t)) && g.availableCount <= g.count
    ensures forall j :: 0 <= j < |g.licenses| ==> g.licenses[j].licenseType == t && g.licenses[j] in base
    ensures forall j :: 0 <= j < |base| && base[j].licenseType == t ==> base[j] in g.licenses
  {
    var ofType := Filter(base, OfType(t));
    CountIsFilterSize(base, OfType(t));
    CountSame(base, OfType(t), (l: License) => l.licenseType == t);
    CountOfFiltered(base, OfType(t), IsAvailable, AvailableOfType(t));
    CountMonotone(base, AvailableOfType(t), OfType(t));
    TypeGroup(TypeCode(t), TypeName(t), ofType, |ofType|, Count(ofType, IsAvailable))
  }

  lemma GroupOfFiltered(ls: seq<License>, q: LicenseQuery, t: LicenseType)
    ensures GroupFor(Group(FilterLicenses(ls, q), t), t, q)
  {
  }

  /** `by_type`: one group per licence type, in declaration order; each
      holds exactly the listed licences of its type, and every listed
      licence lands in the group of its type. */
  function ByType(ls: seq<License>, q: LicenseQuery): (r: seq<TypeGroup>)
    ensures |r| == |AllTypes|
    ensures forall i :: 0 <= i < |r| ==> r[i] == Group(FilterLicenses(ls, q), AllTypes[i])
    ensures forall i :: 0 <= i < |r| ==> GroupFor(r[i], AllTypes[i], q)
    ensures r[0].count + r[1].count + r[2].count == |FilterLicenses(ls, q)|
  {
    var base := FilterLicenses(ls, q);
    TypeCountsPartition(base);
    var r := seq(|AllTypes|, i requires 0 <= i < |AllTypes| => Group(base, AllTypes[i]));
    forall i | 0 <= i < |r|
      ensures GroupFor(r[i], AllTypes[i], q)
    {
      GroupOfFiltered(ls, q, AllTypes[i]);
    }
    r
  }

  /** `reserve`: unauthenticated callers (`user == None`) get 401 before
      anything else; otherwise the licence is reserved (200) or, when not
      available, left alone (400). */
  function ReserveAction(l: License, user: Option<UserId>): (res: (int, License))
    ensures user.None? ==> res == (Unauthorized401, l)
    ensures user.Some? ==> (res.0 == Ok200 <==> IsAvailable(l))
    ensures res.0 == Ok200 ==> res.1.status == Reserved && res.1.purchaser == user
    ensures res.0 != Ok200 ==> res.1 == l
    ensures res.0 in {Ok200, BadRequest400, Unauthorized401}
  {
    if user.None? then (Unauthorized401, l)
    else
      var (ok, l') := Reserve(l, user.value);
      if ok then (Ok200, l') else (BadRequest400, l)
  }

  /** A `LicensePurchase` row; the amount is in cents. */
  datatype PurchaseRecord = PurchaseRecord(
    licenseNumber: nat,
    purchaser: UserId,
    amountPaid: int,
    paymentMethod: string,
    transactionId: string)

  /** The outcome of the purchase action: status code, licence, purchase table. */
  datatype PurchaseOutcome = PurchaseOutcome(code: int, license: License, records: seq<PurchaseRecord>)

  /** `purchase`: 401 for unauthenticated callers; then 400 when the payment
      method or transaction id is missing or empty; then the licence
      transition, which on success appends one purchase record at the
      current price (200) and otherwise changes nothing (400). */
  function PurchaseAction(
    l: License, user: Option<UserId>,
    paymentMethod: Option<string>, transactionId: Option<string>,
    now: int, records: seq<PurchaseRecord>): (res: PurchaseOutcome)
    ensures user.None? ==> res == PurchaseOutcome(Unauthorized401, l, records)
    ensures user.Some? && (paymentMethod.GetOr("") == "" || transactionId.GetOr("") == "") ==>
      res == PurchaseOutcome(BadRequest400, l, records)
    ensures res.code == Ok200 <==>
      user.Some? && paymentMethod.GetOr("") != "" && transactionId.GetOr("") != ""
      && (l.status == Available || l.status == Reserved)
    ensures res.code == Ok200 ==>
      && res.records == records + [PurchaseRecord(l.number, user.value, l.currentPrice,
                                                  paymentMethod.value, transactionId.value)]
      && res.license.status == Sold && res.license.purchaser == user
      && res.license.purchaseDate == Some(now)
      && res.license.currentPrice == l.currentPrice
    ensures res.code != Ok200 ==> res.license == l && res.records == records
    ensures res.code in {Ok200, BadRequest400, Unauthorized401}
  {
    if user.None? then PurchaseOutcome(Unauthorized401, l, records)
    else
      var m := paymentMethod.GetOr("");
      var t := transactionId.GetOr("");
      if m == "" || t == "" then PurchaseOutcome(BadRequest400, l, records)
      else
        var (ok, l') := Purchase(l, user.value, m, t, now);
        if ok then
          PurchaseOutcome(Ok200, l', records + [PurchaseRecord(l.number, user.value, l'.currentPrice, m, t)])
        else PurchaseOutcome(BadRequest400, l, records)
  }

  /** Every purchase record ever written was written by a successful
      purchase: the number of records grows by exactly one per 200. */
  lemma PurchaseRecordCount(
    l: License, user: Option<UserId>, paymentMethod: Option<string>, transactionId: Option<string>,
    now: int, records: seq<PurchaseRecord>)
    ensures var res := PurchaseAction(l, user, paymentMethod, transactionId, now, records);
            |res.records| == |records| + (if res.code == Ok200 then 1 else 0)
  {
  }
}

=== FILE: memorial_admin.dfy ===
/** The memorial admin of `backend/memorials/admin.py`: the activate,
    deactivate and QR bulk actions and the per-user list columns. */
module MemorialAdmin {
  import opened Wrappers
  import opened Seqs
  import opened MemorialModels

  /** A bulk action's report and the table after it. */
  datatype BulkUpdate = BulkUpdate(updated: nat, table: seq<Memorial>)

  function Selected(selected: set<nat>): Memorial -> bool {
    (m: Memorial) => m.id.Some? && m.id.value in selected
  }

  /** `activate_memorials` and `deactivate_memorials`: `queryset.update`
      of the active flag; the count is the number of selected rows. */
  function SetActive(table: seq<Memorial>, selected: set<nat>, active: bool): (r: BulkUpdate)
    ensures r.updated == Count(table, Selected(selected))
    ensures |r.table| == |table|
    ensures forall i :: 0 <= i < |table| ==>
      if Selected(selected)(table[i])
      then r.table[i].isActive == active && r.table[i].(isActive := table[i].isActive) == table[i]
      else r.table[i] == table[i]
  {
    var (n, t) := UpdateWhere(table, Selected(selected), (m: Memorial) => m.(isActive := active));
    BulkUpdate(n, t)
  }

  /** Reactivating undoes a deactivation of memorials that were active. */
  lemma ActivateUndoesDeactivate(table: seq<Memorial>, selected: set<nat>)
    requires forall i :: 0 <= i < |table| && Selected(selected)(table[i]) ==> table[i].isActive
    ensures SetActive(SetActive(table, selected, false).table, selected, true).table == table
  {
    var d := SetActive(table, selected, false).table;
    var a := SetActive(d, selected, true).table;
    forall i | 0 <= i < |table|
      ensures a[i] == table[i]
    {
      assert d[i].id == table[i].id;
    }
  }

  predicate SelectedWithoutQrData(selected: set<nat>, m: Memorial) {
    Selected(selected)(m) && m.qrCodeData == ""
  }

  /** `generate_qr_codes`: every selected memorial without QR data is saved
      and counted, whether or not its save produces data. */
  function GenerateQrCodes(table: seq<Memorial>, selected: set<nat>): (r: BulkUpdate)
    ensures r.updated == Count(table, (m: Memorial) => SelectedWithoutQrData(selected, m))
    ensures |r.table| == |table|
    ensures forall i :: 0 <= i < |table| ==>
      if SelectedWithoutQrData(selected, table[i]) && table[i].qrCode
      then r.table[i] == table[i].(qrCodeData := AbsoluteUrl(table[i]))
      else r.table[i] == table[i]
  {
    var (n, t) := UpdateWhere(table, (m: Memorial) => SelectedWithoutQrData(selected, m), SaveMemorial);
    BulkUpdate(n, t)
  }

  /** The number of memorials whose QR data differs before and after. */
  function Generated(before: seq<Memorial>, after: seq<Memorial>): nat
    requires |before| == |after|
  {
    if |before| == 0 then 0
    else (if before[0].qrCodeData != after[0].qrCodeData then 1 else 0) + Generated(before[1..], after[1..])
  }

  /** The reported count can exceed the codes produced: a selected memorial
      with QR turned off is counted but gains no data. */
  lemma GenerateQrCodesOvercounts(m: Memorial, n: nat)
    requires m.id == Some(n) && m.qrCodeData == "" && !m.qrCode
    ensures GenerateQrCodes([m], {n}).updated == 1
    ensures Generated([m], GenerateQrCodes([m], {n}).table) == 0
  {
    var r := GenerateQrCodes([m], {n});
    assert r.table[0] == m;
  }

  /** Every code produced is counted: the generated codes never exceed the
      report. */
  lemma {:induction false} GeneratedAtMostReported(table: seq<Memorial>, selected: set<nat>)
    ensures Generated(table, GenerateQrCodes(table, selected).table) <= GenerateQrCodes(table, selected).updated
  {
    if |table| > 0 {
      GeneratedAtMostReported(table[1..], selected);
      var r := GenerateQrCodes(table, selected).table;
      var rest := GenerateQrCodes(table[1..], selected).table;
      assert r[1..] == rest;
    }
  }

  /** The admin list columns. */
  const ListColumns: seq<string> := ["name", "religion", "dates", "language", "qr_code", "is_active", "created_at"]

  /** `get_list_display`: superusers see every column; other staff see them
      all but `created_at`, in the same order. */
  function ListDisplayFor(isSuperuser: bool): (r: seq<string>)
    ensures isSuperuser ==> r == ListColumns
    ensures !isSuperuser ==> "created_at" !in r && |r| == |ListColumns| - 1
    ensures !isSuperuser ==> forall i :: 0 <= i < |r| ==> r[i] == ListColumns[i]
  {
    if isSuperuser then ListColumns else ListColumns[..6]
  }
}

=== FILE: memorial_models.dfy ===
/** The memorial record of `backend/memorials/models.py`: QR data defaulting
    on save, the public URL, and the display helpers for categories and
    religion. Dates are integer day numbers. */
module MemorialModels {
  import opened Wrappers
  import opened Text

  const Christian: string := "Christian"
  const Muslim: string := "Muslim"

  /** The religion choices, in declaration order. */
  const Religions: seq<string> := [Christian, Muslim]

  /** The category choices, in declaration order. */
  const Categories: seq<string> := ["Life Moments", "Voice & Stories", "Family Tree", "Spiritual Room"]

  /** A `Memorial` row. The religion is free text at this level: the model
      does not check the choices on save; the create and update serializers
      restrict it to them. */
  datatype Memorial = Memorial(
    id: Option<nat>,
    name: string,
    dates: string,
    birthDate: Option<int>,
    deathDate: Option<int>,
    religion: string,
    categories: seq<string>,
    description: string,
    qrCode: bool,
    qrCodeData: string,
    familyMembers: seq<string>,
    lifeStory: string,
    isActive: bool,
    language: string)

  const MemorialPathPrefix: string := "/memorial/"

  /** `get_absolute_url()`: the memorial's path. */
  function AbsoluteUrl(m: Memorial): (r: string)
    ensures |MemorialPathPrefix| < |r| && r[..|MemorialPathPrefix|] == MemorialPathPrefix
  {
    MemorialPathPrefix + IdText(m.id)
  }

  /** The id a memorial path names, if it names one. */
  function ReadMemorialPath(p: string): Option<nat> {
    if |p| >= |MemorialPathPrefix| && p[..|MemorialPathPrefix|] == MemorialPathPrefix then
      match ReadNat(p[|MemorialPathPrefix|..])
      case Some((n, "")) => Some(n)
      case _ => None
    else None
  }

  /** The URL of a stored memorial names it; an unsaved one's URL names none. */
  lemma AbsoluteUrlNamesId(m: Memorial)
    ensures ReadMemorialPath(AbsoluteUrl(m)) == m.id
  {
    var u := AbsoluteUrl(m);
    assert u[|MemorialPathPrefix|..] == IdText(m.id);
    match m.id
    case Some(n) =>
      ReadNatToString(n, "");
      assert IdText(m.id) + "" == IdText(m.id);
    case None =>
      assert IdText(m.id) == "None";
  }

  /** `save()`: a memorial with QR enabled and no QR data gets its path,
      written with the id as it stands before the save; nothing else
      changes, and existing data is never overwritten. */
  function SaveMemorial(m: Memorial): (r: Memorial)
    ensures r == m.(qrCodeData := r.qrCodeData)
    ensures !m.qrCode || m.qrCodeData != "" ==> r == m
    ensures m.qrCode ==> r.qrCodeData != ""
    ensures m.qrCode && m.qrCodeData == "" ==> r.qrCodeData == AbsoluteUrl(m)
  {
    if m.qrCode && m.qrCodeData == "" then m.(qrCodeData := MemorialPathPrefix + IdText(m.id))
    else m
  }

  /** Saving twice is saving once. */
  lemma SaveMemorialIdempotent(m: Memorial)
    ensures SaveMemorial(SaveMemorial(m)) == SaveMemorial(m)
  {
  }

  /** A memorial saved for the first time, before it has an id, gets the
      path `/memorial/None`, and keeps it once stored. */
  lemma UnsavedMemorialGetsNonePath(m: Memorial, n: nat)
    requires m.id.None? && m.qrCode && m.qrCodeData == ""
    ensures SaveMemorial(m).qrCodeData == "/memorial/None"
    ensures SaveMemorial(SaveMemorial(m).(id := Some(n))).qrCodeData == "/memorial/None"
    ensures ReadMemorialPath(SaveMemorial(m).qrCodeData).None?
  {
    AbsoluteUrlNamesId(m);
  }

  const NoCategoriesText: string := "No categories"

  /** `get_categories_display()`: the categories joined with `", "`, or the
      placeholder for an empty list. A list of category choices never
      displays as the placeholder. */
  function CategoriesDisplay(m: Memorial): (r: string)
    ensures |m.categories| == 0 ==> r == NoCategoriesText
    ensures |m.categories| > 0 && m.categories[0] in Categories ==> |r| > 0 && r != NoCategoriesText
  {
    var r := ListDisplay(m.categories, NoCategoriesText);
    assert |m.categories| > 0 && m.categories[0] in Categories ==> r[0] != 'N';
    r
  }

  /** Every category choice is free of commas and of surrounding blanks. */
  lemma CategoryChoicesArePlain()
    ensures forall i :: 0 <= i < |Categories| ==> ',' !in Categories[i] && IsTrimmed(Categories[i])
  {
    assert Categories[0] == "Life Moments";
    assert Categories[1] == "Voice & Stories";
    assert Categories[2] == "Family Tree";
    assert Categories[3] == "Spiritual Room";
  }

  /** The categories display lists the categories in order: splitting it on
      commas and stripping the pieces gives back a non-empty list of
      category choices. */
  lemma CategoriesDisplayRoundTrip(m: Memorial)
    requires |m.categories| > 0
    requires forall i :: 0 <= i < |m.categories| ==> m.categories[i] in Categories
    ensures StripAll(Split(CategoriesDisplay(m), ',')) == m.categories
  {
    CategoryChoicesArePlain();
    SplitStripJoin(m.categories);
  }

  const CrossIcon: string := "Cross"
  const MoonIcon: string := "Moon"

  /** `get_religion_icon()`: the cross for Christian, the moon for anything
      else. */
  function ReligionIcon(m: Memorial): (r: string)
    ensures r == CrossIcon <==> m.religion == Christian
    ensures r == CrossIcon || r == MoonIcon
  {
    if m.religion == Christian then CrossIcon else MoonIcon
  }

  const GoldClasses: string := "bg-divine-gold/20 text-eternal-bronze border-divine-gold/30"
  const BlueClasses: string := "bg-heavenly-blue/20 text-primary border-heavenly-blue/30"

  /** `get_religion_color_class()`: gold for Christian, blue for anything
      else. */
  function ReligionColorClass(m: Memorial): (r: string)
    ensures r == GoldClasses <==> m.religion == Christian
    ensures r == GoldClasses || r == BlueClasses
  {
    if m.religion == Christian then GoldClasses else BlueClasses
  }

  /** Icon and colour agree: the cross comes with gold and the moon with blue. */
  lemma IconMatchesColor(m: Memorial)
    ensures ReligionIcon(m) == CrossIcon <==> ReligionColorClass(m) == GoldClasses
    ensures ReligionIcon(m) == MoonIcon <==> ReligionColorClass(m) == BlueClasses
  {
  }
}

=== FILE: memorial_serializers.dfy ===
/** The validators and computed fields of `backend/memorials/serializers.py`. */
module MemorialSerializers {
  import opened Wrappers
  import opened Text
  import opened MemorialModels

  /** Every element of `cs` is one of the category choices. */
  predicate AllChoices(cs: seq<string>) {
    forall i :: 0 <= i < |cs| ==> cs[i] in Categories
  }

  /** Index `k` holds the first element of `cs` that is not a category choice. */
  predicate FirstInvalidAt(cs: seq<string>, k: int) {
    0 <= k < |cs| && cs[k] !in Categories && AllChoices(cs[..k])
  }

  /** `validate_categories`, shared by the create and update serializers:
      the list comes back unchanged when every element is a choice (the
      empty list included); otherwise the error names the first element,
      in list order, that is not. */
  function ValidateCategories(cs: seq<string>): (r: Result<seq<string>>)
    ensures r.Ok? <==> AllChoices(cs)
    ensures r.Ok? ==> r.value == cs
    ensures r.Err? ==> exists k :: FirstInvalidAt(cs, k) && r.message == "Invalid category: " + cs[k]
  {
    if |cs| == 0 then Ok(cs)
    else if cs[0] !in Categories then
      assert FirstInvalidAt(cs, 0);
      Err("Invalid category: " + cs[0])
    else
      match ValidateCategories(cs[1..])
      case Ok(_) =>
        assert forall i :: 1 <= i < |cs| ==> cs[i] == cs[1..][i - 1];
        Ok(cs)
      case Err(msg) =>
        var k :| FirstInvalidAt(cs[1..], k) && msg == "Invalid category: " + cs[1..][k];
        assert cs[1..][..k] == cs[1..k + 1];
        assert FirstInvalidAt(cs, k + 1);
        Err(msg)
  }

  /** Only one index can be the first invalid one, so the error message is
      determined by the list. */
  lemma FirstInvalidUnique(cs: seq<string>, j: int, k: int)
    requires FirstInvalidAt(cs, j) && FirstInvalidAt(cs, k)
    ensures j == k
  {
  }

  /** A valid list extended by an invalid element is rejected with that
      element's name. */
  lemma ValidateCategoriesNamesFirstInvalid(valid: seq<string>, bad: string, rest: seq<string>)
    requires AllChoices(valid) && bad !in Categories
    ensures ValidateCategories(valid + [bad] + rest) == Err("Invalid category: " + bad)
  {
    var cs := valid + [bad] + rest;
    assert cs[..|valid|] == valid;
    assert FirstInvalidAt(cs, |valid|);
    var r := ValidateCategories(cs);
    var k :| FirstInvalidAt(cs, k) && r.message == "Invalid category: " + cs[k];
    FirstInvalidUnique(cs, k, |valid|);
  }

  /** `validate_religion`: only the two religion choices are accepted. */
  function ValidateReligion(religion: string): (r: Result<string>)
    ensures r.Ok? <==> religion in Religions
    ensures r.Ok? ==> r.value == religion
    ensures r.Err? ==> r.message == "Invalid religion: " + religion
  {
    if religion in Religions then Ok(religion) else Err("Invalid religion: " + religion)
  }

  /** The computed fields the detail serializer adds to a memorial. */
  datatype Representation = Representation(
    religionIcon: string,
    religionColorClass: string,
    categoriesDisplay: string,
    absoluteUrl: string)

  /** `MemorialSerializer.to_representation`: the computed fields are the
      model helpers' values. */
  function Represent(m: Memorial): (r: Representation)
    ensures r.religionIcon == CrossIcon <==> m.religion == Christian
    ensures r.religionIcon == CrossIcon <==> r.religionColorClass == GoldClasses
    ensures |m.categories| == 0 ==> r.categoriesDisplay == NoCategoriesText
    ensures ReadMemorialPath(r.absoluteUrl) == m.id
  {
    AbsoluteUrlNamesId(m);
    IconMatchesColor(m);
    Representation(ReligionIcon(m), ReligionColorClass(m), CategoriesDisplay(m), AbsoluteUrl(m))
  }

  /** The computed fields the list serializer adds. */
  datatype ListRepresentation = ListRepresentation(religionIcon: string, religionColorClass: string)

  function RepresentInList(m: Memorial): (r: ListRepresentation)
    ensures r.religionIcon == CrossIcon <==> m.religion == Christian
    ensures r.religionIcon == CrossIcon <==> r.religionColorClass == GoldClasses
  {
    IconMatchesColor(m);
    ListRepresentation(ReligionIcon(m), ReligionColorClass(m))
  }

  /** The list and detail views show a memorial with the same icon and colour. */
  lemma ListAndDetailAgree(m: Memorial)
    ensures RepresentInList(m).religionIcon == Represent(m).religionIcon
    ensures RepresentInList(m).religionColorClass == Represent(m).religionColorClass
  {
  }

  /** A memorial accepted by the religion validator shows the cross exactly
      when it is not Muslim. */
  lemma ValidReligionIcon(m: Memorial)
    requires ValidateReligion(m.religion).Ok?
    ensures Represent(m).religionIcon == CrossIcon <==> m.religion != Muslim
  {
  }
}

=== FILE: memorial_views.dfy ===
/** The memorial endpoints of `backend/memorials/views.py`. Only active
    memorials are ever listed. The table is a sequence in the queryset's
    order; dates are integer day numbers. */
module MemorialViews {
  import opened Wrappers
  import opened Seqs
  import opened Text
  import opened Api
  import opened MemorialModels

  /** The query parameters of the memorial list; dates are the days the
      parameters spell. */
  datatype MemorialQuery = MemorialQuery(
    religion: Option<string>,
    categories: Option<string>,
    startDate: Option<int>,
    endDate: Option<int>,
    language: Option<string>)

  const NoQuery: MemorialQuery := MemorialQuery(None, None, None, None, None)

  /** The `categories` parameter read as a list: split on commas, each piece
      stripped of surrounding whitespace. */
  function ParseCategoryList(p: string): (r: seq<string>)
    ensures |r| >= 1
    ensures forall i :: 0 <= i < |r| ==> ',' !in r[i] && IsTrimmed(r[i])
  {
    var pieces := Split(p, ',');
    var r := StripAll(pieces);
    forall i | 0 <= i < |r|
      ensures ',' !in r[i] && IsTrimmed(r[i])
    {
      StripKeepsOut(pieces[i], ',');
    }
    r
  }

  /** Some category is in both lists. */
  predicate SharesCategory(held: seq<string>, wanted: seq<string>) {
    exists c :: c in held && c in wanted
  }

  /** A memorial passes every filter the query asks for. The category
      filter keeps memorials sharing a category with the parameter's list;
      the date filters keep birth dates on or after the start and death
      dates on or before the end, and drop memorials without that date. */
  predicate Matches(q: MemorialQuery, m: Memorial) {
    && (Given(q.religion) ==> m.religion == q.religion.value)
    && (Given(q.categories) ==> SharesCategory(m.categories, ParseCategoryList(q.categories.value)))
    && (q.startDate.Some? ==> m.birthDate.Some? && q.startDate.value <= m.birthDate.value)
    && (q.endDate.Some? ==> m.deathDate.Some? && m.deathDate.value <= q.endDate.value)
    && (Given(q.language) ==> m.language == q.language.value)
  }

  predicate Listed(q: MemorialQuery, m: Memorial) {
    m.isActive && Matches(q, m)
  }

  /** `get_queryset()`: the active memorials that pass the query's filters. */
  function FilterMemorials(ms: seq<Memorial>, q: MemorialQuery): (r: seq<Memorial>)
    ensures |r| <= |ms|
    ensures forall i :: 0 <= i < |r| ==> r[i] in ms && r[i].isActive && Matches(q, r[i])
    ensures forall i :: 0 <= i < |ms| && ms[i].isActive && Matches(q, ms[i]) ==> ms[i] in r
  {
    Filter(ms, (m: Memorial) => Listed(q, m))
  }

  /** Without parameters the list is exactly the active memorials. */
  lemma NoQueryListsActive(ms: seq<Memorial>)
    ensures FilterMemorials(ms, NoQuery) == Filter(ms, Active)
  {
    FilterExt(ms, (m: Memorial) => Listed(NoQuery, m), Active);
  }

  /** Passing a memorial's own categories display as the `categories`
      parameter lists it, when its categories are category choices. */
  lemma OwnCategoriesDisplayFindsMemorial(ms: seq<Memorial>, i: int)
    requires 0 <= i < |ms| && ms[i].isActive && |ms[i].categories| > 0
    requires forall j :: 0 <= j < |ms[i].categories| ==> ms[i].categories[j] in Categories
    ensures ms[i] in FilterMemorials(ms, NoQuery.(categories := Some(CategoriesDisplay(ms[i]))))
  {
    var m := ms[i];
    var d := CategoriesDisplay(m);
    CategoriesDisplayRoundTrip(m);
    assert ParseCategoryList(d) == m.categories;
    assert m.categories[0] in m.categories && m.categories[0] in Categories;
    assert |d| > 0;
    assert Matches(NoQuery.(categories := Some(d)), m);
  }

  const FeaturedLimit: nat := 6

  /** `featured`: the first six listed memorials, in list order. */
  function Featured(ms: seq<Memorial>, q: MemorialQuery): (r: seq<Memorial>)
    ensures |r| == if |FilterMemorials(ms, q)| <= FeaturedLimit then |FilterMemorials(ms, q)| else FeaturedLimit
    ensures r == FilterMemorials(ms, q)[..|r|]
    ensures forall i :: 0 <= i < |r| ==> r[i].isActive && Matches(q, r[i]) && r[i] in ms
  {
    var listed := FilterMemorials(ms, q);
    var r := Take(listed, FeaturedLimit);
    assert forall i :: 0 <= i < |r| ==> r[i] == listed[i];
    r
  }

  function HasReligion(religion: string): Memorial -> bool {
    (m: Memorial) => m.religion == religion
  }

  /** `by_religion`: the listed Christian and the listed Muslim memorials,
      each in list order, with their counts. */
  function ByReligion(ms: seq<Memorial>, q: MemorialQuery): (r: (seq<Memorial>, seq<Memorial>))
    ensures forall i :: 0 <= i < |r.0| ==> r.0[i].religion == Christian && r.0[i] in FilterMemorials(ms, q)
    ensures forall i :: 0 <= i < |r.1| ==> r.1[i].religion == Muslim && r.1[i] in FilterMemorials(ms, q)
    ensures forall i :: 0 <= i < |ms| && Listed(q, ms[i]) && ms[i].religion == Christian ==> ms[i] in r.0
    ensures forall i :: 0 <= i < |ms| && Listed(q, ms[i]) && ms[i].religion == Muslim ==> ms[i] in r.1
    ensures |r.0| == Count(FilterMemorials(ms, q), HasReligion(Christian))
    ensures |r.1| == Count(FilterMemorials(ms, q), HasReligion(Muslim))
    ensures |r.0| + |r.1| <= |FilterMemorials(ms, q)|
  {
    var listed := FilterMemorials(ms, q);
    CountIsFilterSize(listed, HasReligion(Christian));
    CountIsFilterSize(listed, HasReligion(Muslim));
    CountExclusive(listed, HasReligion(Christian), HasReligion(Muslim));
    (Filter(listed, HasReligion(Christian)), Filter(listed, HasReligion(Muslim)))
  }

  /** The serialised text of a JSON list of strings, as the database
      compares it for `icontains`. */
  function JsonListText(xs: seq<string>): string {
    "[" + Join(Map(xs, (x: string) => "\"" + x + "\""), ", ") + "]"
  }

  /** The text search of `search`: name, description, life story or the
      family members' JSON text contains the query, ignoring case. */
  predicate TextMatches(m: Memorial, text: string) {
    || ContainsIgnoringCase(m.name, text)
    || ContainsIgnoringCase(m.description, text)
    || ContainsIgnoringCase(m.lifeStory, text)
    || ContainsIgnoringCase(JsonListText(m.familyMembers), text)
  }

  /** `search`: the listed memorials matching the `q` text when it is
      given. Its religion, categories and language parameters are the ones
      the list already applies, and applying them twice changes nothing. */
  function Search(ms: seq<Memorial>, q: MemorialQuery, text: string): (r: seq<Memorial>)
    ensures forall i :: 0 <= i < |r| ==> r[i] in FilterMemorials(ms, q)
    ensures text != "" ==> forall i :: 0 <= i < |r| ==> TextMatches(r[i], text)
    ensures forall i :: 0 <= i < |ms| && ms[i].isActive && Matches(q, ms[i]) && ContainsIgnoringCase(ms[i].name, text) ==>
      ms[i] in r
  {
    var listed := FilterMemorials(ms, q);
    if text == "" then listed else Filter(listed, (m: Memorial) => TextMatches(m, text))
  }

  /** An empty search text lists what the list lists. */
  lemma EmptySearchIsList(ms: seq<Memorial>, q: MemorialQuery)
    ensures Search(ms, q, "") == FilterMemorials(ms, q)
  {
  }

  /** One entry of `by_category`. */
  datatype CategoryGroup = CategoryGroup(code: string, memorials: seq<Memorial>, count: nat)

  function HasCategory(c: string): Memorial -> bool {
    (m: Memorial) => c in m.categories
  }

  /** The `by_category` entry for category `c` over the listed memorials. */
  function CategoryGroupOf(listed: seq<Memorial>, c: string): (g: CategoryGroup)
    ensures g.code == c && g.count == |g.memorials| == Count(listed, HasCategory(c))
    ensures forall j :: 0 <= j < |g.memorials| ==> c in g.memorials[j].categories && g.memorials[j] in listed
    ensures forall j :: 0 <= j < |listed| && c in listed[j].categories ==> listed[j] in g.memorials
  {
    CountIsFilterSize(listed, HasCategory(c));
    var ms := Filter(listed, HasCategory(c));
    CategoryGroup(c, ms, |ms|)
  }

  /** `by_category`: one group per category choice, in declaration order. */
  function ByCategory(ms: seq<Memorial>, q: MemorialQuery): (r: seq<CategoryGroup>)
    ensures |r| == |Categories|
    ensures forall i :: 0 <= i < |r| ==>
      (r[i].code == Categories[i] && r[i].count == Count(FilterMemorials(ms, q), HasCategory(Categories[i])))
    ensures forall i, j :: 0 <= i < |r| && 0 <= j < |r[i].memorials| ==>
      Categories[i] in r[i].memorials[j].categories && r[i].memorials[j] in FilterMemorials(ms, q)
    ensures forall i :: 0 <= i < |r| ==> r[i] == CategoryGroupOf(FilterMemorials(ms, q), Categories[i])
  {
    var listed := FilterMemorials(ms, q);
    seq(|Categories|, i requires 0 <= i < |Categories| => CategoryGroupOf(listed, Categories[i]))
  }

  /** How many of the category choices a memorial holds. */
  function ChoicesHeld(m: Memorial): int {
    Count(Categories, (c: string) => c in m.categories)
  }

  lemma ChoicesHeldUnfold(m: Memorial)
    ensures ChoicesHeld(m) == (if HasCategory(Categories[0])(m) then 1 else 0)
      + (if HasCategory(Categories[1])(m) then 1 else 0)
      + (if HasCategory(Categories[2])(m) then 1 else 0)
      + (if HasCategory(Categories[3])(m) then 1 else 0)
  {
    var p := (c: string) => c in m.categories;
    assert Categories[1..][1..][1..][1..] == [];
  }

  /** The four category counts add up to the number of category choices
      each memorial holds: a memorial is counted once per category. */
  lemma {:induction false} CategoryCountsSum(listed: seq<Memorial>)
    ensures Count(listed, HasCategory(Categories[0])) + Count(listed, HasCategory(Categories[1]))
      + Count(listed, HasCategory(Categories[2])) + Count(listed, HasCategory(Categories[3]))
      == Sum(listed, ChoicesHeld)
  {
    if |listed| > 0 {
      CategoryCountsSum(listed[1..]);
      ChoicesHeldUnfold(listed[0]);
    }
  }

  /** The numbers of `statistics`, over the whole table. */
  datatype MemorialStatistics = MemorialStatistics(
    total: nat,
    christian: nat,
    muslim: nat,
    byCategory: seq<nat>,
    byLanguage: map<string, nat>)

  function Active(m: Memorial): bool {
    m.isActive
  }

  function ActiveWithReligion(religion: string): Memorial -> bool {
    (m: Memorial) => m.isActive && m.religion == religion
  }

  function ActiveWithCategory(c: string): Memorial -> bool {
    (m: Memorial) => m.isActive && c in m.categories
  }

  function ActiveWithLanguage(l: string): Memorial -> bool {
    (m: Memorial) => m.isActive && m.language == l
  }

  /** The languages of the active memorials. */
  function ActiveLanguages(ms: seq<Memorial>): set<string> {
    set i | 0 <= i < |ms| && ms[i].isActive :: ms[i].language
  }

  /** The language numbers of `statistics`: for each language of an active
      memorial, how many active memorials have it. */
  function LanguageBreakdown(ms: seq<Memorial>): (r: map<string, nat>)
    ensures r.Keys == ActiveLanguages(ms)
    ensures forall l :: l in r ==> r[l] == Count(ms, ActiveWithLanguage(l))
    ensures forall l :: l in r ==> 1 <= r[l] <= Count(ms, Active)
  {
    var r := map l | l in ActiveLanguages(ms) :: Count(ms, ActiveWithLanguage(l));
    forall l | l in r
      ensures 1 <= r[l] <= Count(ms, Active)
    {
      var i :| 0 <= i < |ms| && ms[i].isActive && ms[i].language == l;
      CountPositive(ms, ActiveWithLanguage(l), i);
      CountMonotone(ms, ActiveWithLanguage(l), Active);
    }
    r
  }

  /** `statistics`: active totals by religion, category and language. The
      Christian and Muslim counts never exceed the total together, and each
      category count is at most the total. */
  function Statistics(ms: seq<Memorial>): (r: MemorialStatistics)
    ensures r.total == Count(ms, Active)
    ensures r.christian == Count(ms, ActiveWithReligion(Christian))
    ensures r.muslim == Count(ms, ActiveWithReligion(Muslim))
    ensures r.christian + r.muslim <= r.total
    ensures |r.byCategory| == |Categories|
    ensures forall i :: 0 <= i < |r.byCategory| ==> r.byCategory[i] == Count(ms, ActiveWithCategory(Categories[i]))
    ensures forall i :: 0 <= i < |r.byCategory| ==> r.byCategory[i] <= r.total
    ensures r.byLanguage.Keys == ActiveLanguages(ms)
    ensures forall l :: l in r.byLanguage ==> r.byLanguage[l] == Count(ms, ActiveWithLanguage(l))
  {
    var cats := seq(4, i requires 0 <= i < 4 => Count(ms, ActiveWithCategory(Categories[i])));
    forall i | 0 <= i < 4
      ensures cats[i] <= Count(ms, Active)
    {
      CountMonotone(ms, ActiveWithCategory(Categories[i]), Active);
    }
    ReligionCountsFit(ms);
    MemorialStatistics(Count(ms, Active), Count(ms, ActiveWithReligion(Christian)), Count(ms, ActiveWithReligion(Muslim)),
                       cats, LanguageBreakdown(ms))
  }

  /** The statistics count what the unfiltered list endpoints return: the
      total is the list's size, the religion numbers are the sizes of the
      `by_religion` lists, and the category numbers the `by_category` counts. */
  lemma StatisticsAgreeWithListings(ms: seq<Memorial>)
    ensures Statistics(ms).total == |FilterMemorials(ms, NoQuery)|
    ensures Statistics(ms).christian == |ByReligion(ms, NoQuery).0|
    ensures Statistics(ms).muslim == |ByReligion(ms, NoQuery).1|
    ensures forall i :: 0 <= i < |Categories| ==> Statistics(ms).byCategory[i] == ByCategory(ms, NoQuery)[i].count
  {
    NoQueryListsActive(ms);
    CountIsFilterSize(ms, Active);
    CountOfFiltered(ms, Active, HasReligion(Christian), ActiveWithReligion(Christian));
    CountOfFiltered(ms, Active, HasReligion(Muslim), ActiveWithReligion(Muslim));
    forall i | 0 <= i < |Categories|
      ensures Statistics(ms).byCategory[i] == ByCategory(ms, NoQuery)[i].count
    {
      CountOfFiltered(ms, Active, HasCategory(Categories[i]), ActiveWithCategory(Categories[i]));
    }
  }

  lemma {:induction false} ReligionCountsFit(ms: seq<Memorial>)
    ensures Count(ms, ActiveWithReligion(Christian)) + Count(ms, ActiveWithReligion(Muslim)) <= Count(ms, Active)
  {
    if |ms| > 0 {
      ReligionCountsFit(ms[1..]);
    }
  }

  /** `perform_destroy` on memorial `id`: a soft delete. The row stays in
      the table, marked inactive and passed through `save()` (which may
      still fill in QR data). `None` when no listed memorial has that id,
      as the lookup answers 404. */
  function Destroy(ms: seq<Memorial>, id: nat): (r: Option<seq<Memorial>>)
    ensures r.None? <==> forall i :: 0 <= i < |ms| ==> !(ms[i].isActive && ms[i].id == Some(id))
    ensures r.Some? ==> |r.value| == |ms|
    ensures r.Some? ==> forall i :: 0 <= i < |ms| ==>
      if ms[i].id == Some(id)
      then r.value[i] == SaveMemorial(ms[i].(isActive := false)) && !r.value[i].isActive
      else r.value[i] == ms[i]
  {
    var isTarget := (m: Memorial) => m.id == Some(id);
    CountNoneIsZero(ms, (m: Memorial) => m.isActive && isTarget(m));
    if Count(ms, (m: Memorial) => m.isActive && isTarget(m)) == 0 then
      None
    else
      Some(UpdateWhere(ms, isTarget, (m: Memorial) => SaveMemorial(m.(isActive := false))).1)
  }

  /** A zero count means no element satisfies the predicate, and back. */
  lemma {:induction false} CountNoneIsZero<T>(s: seq<T>, p: T -> bool)
    ensures Count(s, p) == 0 <==> forall i :: 0 <= i < |s| ==> !p(s[i])
  {
    if |s| > 0 {
      CountNoneIsZero(s[1..], p);
      assert forall i :: 1 <= i < |s| ==> s[i] == s[1..][i - 1];
    }
  }

  /** A destroyed memorial drops out of every listing, whatever the query. */
  lemma DestroyedNeverListed(ms: seq<Memorial>, id: nat, q: MemorialQuery)
    requires Destroy(ms, id).Some?
    ensures forall i :: 0 <= i < |FilterMemorials(Destroy(ms, id).value, q)| ==>
      FilterMemorials(Destroy(ms, id).value, q)[i].id != Some(id)
  {
    var after := Destroy(ms, id).value;
    forall i | 0 <= i < |FilterMemorials(after, q)|
      ensures FilterMemorials(after, q)[i].id != Some(id)
    {
      var m := FilterMemorials(after, q)[i];
      assert m in after;
      var j :| 0 <= j < |after| && after[j] == m;
      assert after[j].id == ms[j].id;
    }
  }

  /** A stored JSON value, as far as the categories column needs: a list of
      strings, or an object whose fields hold such lists. */
  datatype JsonValue = JsonList(items: seq<string>) | JsonObject(fields: map<string, seq<string>>)

  /** A key transform `field__key`: the value stored under object key `key`,
      none when the value is not an object or lacks the key. */
  function KeyTransform(v: JsonValue, key: string): (r: Option<seq<string>>)
    ensures r.Some? <==> v.JsonObject? && key in v.fields
    ensures r.Some? ==> r.value == v.fields[key]
  {
    match v
    case JsonList(_) => None
    case JsonObject(fields) => if key in fields then Some(fields[key]) else None
  }

  /** The category test as written: `categories__overlap` is not a lookup
      of a JSON field, so it is read as the key transform `overlap` of the
      stored list, compared for equality with the parameter's list. */
  predicate SharesCategoryAsWritten(held: seq<string>, wanted: seq<string>) {
    KeyTransform(JsonList(held), "overlap") == Some(wanted)
  }

  predicate MatchesAsWritten(q: MemorialQuery, m: Memorial) {
    && (Given(q.religion) ==> m.religion == q.religion.value)
    && (Given(q.categories) ==> SharesCategoryAsWritten(m.categories, ParseCategoryList(q.categories.value)))
    && (q.startDate.Some? ==> m.birthDate.Some? && q.startDate.value <= m.birthDate.value)
    && (q.endDate.Some? ==> m.deathDate.Some? && m.deathDate.value <= q.endDate.value)
    && (Given(q.language) ==> m.language == q.language.value)
  }

  /** `get_queryset()` with the category filter as written. */
  function FilterMemorialsAsWritten(ms: seq<Memorial>, q: MemorialQuery): (r: seq<Memorial>)
    ensures forall i :: 0 <= i < |r| ==> r[i] in ms && r[i].isActive && MatchesAsWritten(q, r[i])
  {
    Filter(ms, (m: Memorial) => m.isActive && MatchesAsWritten(q, m))
  }

  /** As written, any `categories` parameter empties the list. */
  lemma CategoryFilterAsWrittenListsNothing(ms: seq<Memorial>, q: MemorialQuery)
    requires Given(q.categories)
    ensures FilterMemorialsAsWritten(ms, q) == []
  {
    FilterNone(ms, (m: Memorial) => m.isActive && MatchesAsWritten(q, m));
  }

  /** A parameter naming one plain category reads as the one-element list. */
  lemma ParseSingleCategory(c: string)
    requires ',' !in c && IsTrimmed(c)
    ensures ParseCategoryList(c) == [c]
  {
    SplitNoSeparator(c, ',');
    StripTrimmed(c);
  }

  /** An active memorial in the first category ("Life Moments"), asked for
      with exactly that category: the intended filter lists it, the filter
      as written does not. */
  lemma CategoryFilterCounterexample(m: Memorial)
    requires m.isActive && m.categories == [Categories[0]]
    ensures FilterMemorials([m], NoQuery.(categories := Some(Categories[0]))) == [m]
    ensures FilterMemorialsAsWritten([m], NoQuery.(categories := Some(Categories[0]))) == []
  {
    var c := Categories[0];
    var q := NoQuery.(categories := Some(c));
    CategoryChoicesArePlain();
    ParseSingleCategory(c);
    assert c in m.categories;
    assert SharesCategory(m.categories, ParseCategoryList(q.categories.value));
    assert Listed(q, m);
    var p := (x: Memorial) => Listed(q, x);
    assert Filter([m], p) == [m] by {
      FilterAll([m], p);
    }
    CategoryFilterAsWrittenListsNothing([m], q);
  }
}

=== FILE: memory_card.dfy ===
/** The helpers of the memorial card (`frontend/src/components/MemoryCard.tsx`):
    the category icons and tiles, the image and colour fallbacks, the
    religion badge and the QR badge. */
module MemoryCard {
  import opened Wrappers
  import opened Seqs
  import opened Text
  import opened Ui
  import opened MemorialModels
  import opened MemorialSerializers

  /** The fields of a serialized memorial the card reads; the nullable or
      possibly missing ones are options. */
  datatype CardData = CardData(
    name: string,
    dates: string,
    imageUrl: Option<string>,
    religion: string,
    categories: seq<string>,
    description: string,
    qrCode: bool,
    religionIcon: Option<string>,
    religionColorClass: Option<string>)

  /** A memorial as the list serializer sends it, with the image URL the
      serializer builds from the upload (`None` without one). */
  function Serialized(m: Memorial, imageUrl: Option<string>): (d: CardData)
    ensures d.religion == m.religion && d.categories == m.categories && d.qrCode == m.qrCode
    ensures d.religionIcon == Some(RepresentInList(m).religionIcon)
    ensures d.religionColorClass == Some(RepresentInList(m).religionColorClass)
    ensures Given(d.religionIcon) && Given(d.religionColorClass)
  {
    var rep := RepresentInList(m);
    CardData(m.name, m.dates, imageUrl, m.religion, m.categories, m.description, m.qrCode,
             Some(rep.religionIcon), Some(rep.religionColorClass))
  }

  /** The category icon `switch`: exact, case-sensitive labels. */
  const CategoryCases: Cases := [
    (Categories[0], Camera), (Categories[1], Music), (Categories[2], Users), (Categories[3], BookOpen)]

  /** `getCategoryIcon`: the icon of a category choice, spelled exactly,
      and the heart for anything else. */
  function CategoryIcon(category: string): (r: Icon)
    ensures forall i :: 0 <= i < |CategoryCases| && category == CategoryCases[i].0 ==> r == CategoryCases[i].1
    ensures category !in Categories ==> r == Heart
  {
    assert DistinctLabels(CategoryCases);
    forall i | 0 <= i < |CategoryCases| && category == CategoryCases[i].0 {
      LookupLabel(CategoryCases, i, Heart);
    }
    Lookup(CategoryCases, category, Heart)
  }

  /** Every category the create serializer accepts has an icon of its own. */
  lemma CategoryChoiceHasIcon(c: string)
    requires c in Categories
    ensures CategoryIcon(c) != Heart
  {
    var i :| 0 <= i < |Categories| && Categories[i] == c;
    assert CategoryCases[i].0 == c;
  }

  /** Every choice starts with a capital, so no word starting with a small
      letter is one. */
  lemma NotAChoice(k: string)
    requires |k| > 0 && 'a' <= k[0] <= 'z'
    ensures k !in Categories
  {
    forall j | 0 <= j < |Categories| ensures k != Categories[j] {
      assert 'A' <= Categories[j][0] <= 'Z';
    }
  }

  /** The lookup is case-sensitive: a lower-cased choice gets the heart. */
  lemma LowerCasedChoiceGetsHeart(c: string)
    requires c in Categories
    ensures CategoryIcon(Lower(c)) == Heart
  {
    assert |c| > 0 && 'A' <= c[0] <= 'Z';
    NotAChoice(Lower(c));
  }

  /** The card shows at most this many category tiles. */
  const CategoryLimit: nat := 4

  /** `categories.slice(0, 4).map(...)`: a tile for each of the first four
      categories, in order, with its icon. */
  function CategoryTiles(categories: seq<string>): (r: seq<(Icon, string)>)
    ensures |r| == if |categories| <= CategoryLimit then |categories| else CategoryLimit
    ensures forall i :: 0 <= i < |r| ==> r[i] == (CategoryIcon(categories[i]), categories[i])
  {
    Map(Take(categories, CategoryLimit), (c: string) => (CategoryIcon(c), c))
  }

  const PlaceholderImage: string := "/placeholder-memorial.jpg"

  /** `image_url || '/placeholder-memorial.jpg'`: the card never has an
      empty image source. */
  function DisplayImage(d: CardData): (r: string)
    ensures r != ""
    ensures Given(d.imageUrl) ==> r == d.imageUrl.value
    ensures !Given(d.imageUrl) ==> r == PlaceholderImage
  {
    if Given(d.imageUrl) then d.imageUrl.value else PlaceholderImage
  }

  /** `getReligionColor`: the backend's class when it sent one, otherwise
      gold for Christian and blue for anything else. */
  function ReligionColor(d: CardData): (r: string)
    ensures Given(d.religionColorClass) ==> r == d.religionColorClass.value
    ensures !Given(d.religionColorClass) ==> (r == GoldClasses <==> d.religion == Christian)
    ensures r == GoldClasses || r == BlueClasses || r == d.religionColorClass.GetOr("")
  {
    if Given(d.religionColorClass) then d.religionColorClass.value
    else if d.religion == Christian then GoldClasses else BlueClasses
  }

  /** The card's colour is the backend's colour, whether the backend's class
      arrives or the card falls back on its own choice. */
  lemma ColorAgreesWithBackend(m: Memorial, imageUrl: Option<string>)
    ensures ReligionColor(Serialized(m, imageUrl)) == ReligionColorClass(m)
    ensures ReligionColor(Serialized(m, imageUrl).(religionColorClass := None)) == ReligionColorClass(m)
  {
  }

  /** The badge as written: `getReligionIcon` returns the backend's icon
      name when there is one, and the card compares that string with the
      `Cross` component, which never holds; so any sent icon gives the moon. */
  function BadgeAsWritten(d: CardData): (r: Icon)
    ensures r == Cross <==> !Given(d.religionIcon) && d.religion == Christian
    ensures r == Cross || r == Moon
  {
    if Given(d.religionIcon) then Moon
    else if d.religion == Christian then Cross else Moon
  }

  /** Every Christian memorial served by the backend is badged with the moon. */
  lemma ChristianBadgeAsWrittenIsMoon(m: Memorial, imageUrl: Option<string>)
    requires m.religion == Christian
    ensures BadgeAsWritten(Serialized(m, imageUrl)) == Moon
  {
  }

  /** The badge as intended: the cross when the backend's icon name is the
      cross, or, without one, when the religion is Christian. */
  function Badge(d: CardData): (r: Icon)
    ensures Given(d.religionIcon) ==> (r == Cross <==> d.religionIcon.value == CrossIcon)
    ensures !Given(d.religionIcon) ==> (r == Cross <==> d.religion == Christian)
    ensures r == Cross || r == Moon
  {
    if Given(d.religionIcon) then (if d.religionIcon.value == CrossIcon then Cross else Moon)
    else if d.religion == Christian then Cross else Moon
  }

  /** The intended badge shows the cross exactly for Christian memorials,
      with or without the backend's icon name. */
  lemma BadgeMatchesReligion(m: Memorial, imageUrl: Option<string>)
    ensures Badge(Serialized(m, imageUrl)) == Cross <==> m.religion == Christian
    ensures Badge(Serialized(m, imageUrl).(religionIcon := None)) == Badge(Serialized(m, imageUrl))
  {
  }

  /** What the card shows. */
  datatype CardView = CardView(
    image: string,
    colorClass: string,
    badge: Icon,
    religion: string,
    showsQr: bool,
    name: string,
    dates: string,
    description: string,
    tiles: seq<(Icon, string)>)

  /** The card of a serialized memorial, as the program renders it: the
      badge is `BadgeAsWritten`. */
  function Card(d: CardData): (r: CardView)
    ensures r.image != ""
    ensures r.showsQr <==> d.qrCode
    ensures r.badge == Cross <==> !Given(d.religionIcon) && d.religion == Christian
    ensures |r.tiles| <= CategoryLimit && |r.tiles| <= |d.categories|
    ensures forall i :: 0 <= i < |r.tiles| ==> r.tiles[i].1 == d.categories[i]
  {
    CardView(DisplayImage(d), ReligionColor(d), BadgeAsWritten(d), d.religion, d.qrCode,
             d.name, d.dates, d.description, CategoryTiles(d.categories))
  }

  /** A served memorial's card, as rendered, always carries the moon; it has
      its religion's colour, its QR badge exactly when it has a QR code,
      and its first categories. */
  lemma CardOfServedMemorial(m: Memorial, imageUrl: Option<string>)
    ensures Card(Serialized(m, imageUrl)).badge == Moon
    ensures Card(Serialized(m, imageUrl)).colorClass == ReligionColorClass(m)
    ensures Card(Serialized(m, imageUrl)).showsQr <==> m.qrCode
    ensures |m.categories| > 0 ==> Card(Serialized(m, imageUrl)).tiles[0].1 == m.categories[0]
  {
  }

  /** The card with the corrected badge; everything else as rendered. */
  function CardCorrected(d: CardData): (r: CardView)
    ensures r.badge == Cross <==> (if Given(d.religionIcon) then d.religionIcon.value == CrossIcon else d.religion == Christian)
    ensures r == Card(d).(badge := r.badge)
  {
    Card(d).(badge := Badge(d))
  }

  /** With the corrected badge, a served memorial's card shows the cross
      exactly when the memorial is Christian, and differs from the rendered
      card only for Christian memorials. */
  lemma CardCorrectedOfServedMemorial(m: Memorial, imageUrl: Option<string>)
    ensures CardCorrected(Serialized(m, imageUrl)).badge == Cross <==> m.religion == Christian
    ensures CardCorrected(Serialized(m, imageUrl)) == Card(Serialized(m, imageUrl)) <==> m.religion != Christian
  {
    BadgeMatchesReligion(m, imageUrl);
    CardOfServedMemorial(m, imageUrl);
  }
}

=== FILE: money.dfy ===
/** Money and percentages. Prices are Django `DecimalField`s with two
    decimal places; the model keeps them as whole cents. */
module Money {
  import opened Wrappers
  import opened Text

  function Abs(x: int): nat {
    if x < 0 then -x else x
  }

  /** `int(n / d)` for a positive divisor: the quotient truncated toward
      zero, as Python's `int` truncates a float. */
  function TruncDiv(n: int, d: int): (q: int)
    requires d > 0
    ensures Abs(q) * d <= Abs(n) < (Abs(q) + 1) * d
    ensures n >= 0 ==> q >= 0
    ensures n <= 0 ==> q <= 0
  {
    if n >= 0 then n / d
    else
      var q := -((-n) / d);
      assert Abs(q) == (-n) / d;
      q
  }

  /** `r` is `n / d` rounded to the nearest integer, ties to the even one:
      Python's `round` on a `Decimal` (and on a float). */
  predicate IsRoundHalfEven(n: int, d: int, r: int) {
    && 2 * Abs(n - d * r) <= Abs(d)
    && (2 * Abs(n - d * r) == Abs(d) ==> r % 2 == 0)
  }

  /** Half-even rounding of `n / d` for a positive divisor. */
  function RoundPositive(n: int, d: int): (r: int)
    requires d > 0
    ensures -d <= 2 * (n - d * r) <= d
    ensures 2 * (n - d * r) == d || 2 * (n - d * r) == -d ==> r % 2 == 0
  {
    var q := n / d;
    var m := n % d;
    assert n - d * q == m;
    assert d * (q + 1) == d * q + d;
    if 2 * m < d then q
    else if 2 * m > d then q + 1
    else if q % 2 == 0 then q
    else q + 1
  }

  /** Rounds the exact quotient `n / d` half to even. */
  function RoundHalfEven(n: int, d: int): (r: int)
    requires d != 0
    ensures IsRoundHalfEven(n, d, r)
  {
    if d < 0 then
      var r := RoundPositive(-n, -d);
      assert n - d * r == -(-n - (-d) * r);
      r
    else
      RoundPositive(n, d)
  }

  lemma ProductAtMostDivisor(d: int, x: int)
    requires d > 0 && d * x <= d
    ensures x <= 1
  {
    assert d * (x - 1) == d * x - d;
  }

  lemma DistanceOneApart(n: int, d: int, a: int, b: int)
    requires d > 0
    requires 2 * Abs(n - d * a) <= d && 2 * Abs(n - d * b) <= d
    requires a < b
    ensures b == a + 1
    ensures 2 * Abs(n - d * a) == d && 2 * Abs(n - d * b) == d
  {
    assert d * (b - a) == (n - d * a) - (n - d * b);
    ProductAtMostDivisor(d, b - a);
    assert d * b == d * a + d;
  }

  lemma PositiveFactor(d: int, x: int)
    requires d > 0 && d * x > 0
    ensures x > 0
  {
  }

  /** Rounding keeps a quotient within integer bounds it lies between. */
  lemma RoundHalfEvenBetween(n: int, d: int, lo: int, hi: int)
    requires d > 0
    requires d * lo <= n <= d * hi
    ensures lo <= RoundHalfEven(n, d) <= hi
  {
    var r := RoundHalfEven(n, d);
    assert 2 * Abs(n - d * r) <= d;
    WithinHalfBetween(n, d, r, lo, hi);
  }

  /** An integer within half a divisor of `n` lies between the integer
      bounds of `n / d`. */
  lemma WithinHalfBetween(n: int, d: int, r: int, lo: int, hi: int)
    requires d > 0
    requires d * lo <= n <= d * hi
    requires 2 * Abs(n - d * r) <= d
    ensures lo <= r <= hi
  {
    var e := n - d * r;
    assert 2 * e <= d && -2 * e <= d;
    assert d * (r - lo + 1) == (n - d * lo) - e + d;
    PositiveFactor(d, r - lo + 1);
    assert d * (hi + 1 - r) == (d * hi - n) + e + d;
    PositiveFactor(d, hi + 1 - r);
  }

  /** Multiplying by a positive divisor keeps the order of the factors. */
  lemma MultipleMonotone(d: int, a: int, b: int)
    requires d > 0 && a <= b
    ensures d * a <= d * b
  {
    assert d * b - d * a == d * (b - a);
  }

  /** `n / d` rounds to a negative number exactly when it lies below minus
      one half; at minus one half exactly the tie goes to the even 0. */
  lemma RoundHalfEvenNegative(n: int, d: int)
    requires d > 0
    ensures RoundHalfEven(n, d) < 0 <==> 2 * n < -d
  {
    var r := RoundHalfEven(n, d);
    var e := n - d * r;
    assert -d <= 2 * e <= d;
    if r < 0 {
      MultipleMonotone(d, r, -1);
      if 2 * n >= -d {
        assert d * r == -d && 2 * e == d;
        assert r % 2 == 0;
        MultipleMonotone(d, r, -2);
      }
    } else {
      MultipleMonotone(d, 0, r);
    }
  }

  /** Half-even rounding has exactly one answer, so `RoundHalfEven` is the
      rounding Python performs and not merely one that is close. */
  lemma RoundHalfEvenUnique(n: int, d: int, k: int)
    requires d != 0
    requires IsRoundHalfEven(n, d, k)
    ensures k == RoundHalfEven(n, d)
  {
    var r := RoundHalfEven(n, d);
    RoundingsAgree(n, d, k, r);
  }

  /** Two half-even roundings of the same quotient are equal. */
  lemma RoundingsAgree(n: int, d: int, a: int, b: int)
    requires d != 0
    requires IsRoundHalfEven(n, d, a) && IsRoundHalfEven(n, d, b)
    ensures a == b
  {
    if d < 0 {
      NegatedDivisor(n, d, a);
      NegatedDivisor(n, d, b);
      PositiveRoundingsAgree(-n, -d, a, b);
    } else {
      PositiveRoundingsAgree(n, d, a, b);
    }
  }

  /** Negating both `n` and `d` leaves the quotient, and its rounding, alone. */
  lemma NegatedDivisor(n: int, d: int, r: int)
    ensures IsRoundHalfEven(n, d, r) == IsRoundHalfEven(-n, -d, r)
  {
    assert (-d) * r == -(d * r);
    assert -n - (-d) * r == -(n - d * r);
  }

  /** The same for a positive divisor: two candidates would be a tie apart,
      and only one of two neighbours is even. */
  lemma PositiveRoundingsAgree(n: int, d: int, a: int, b: int)
    requires d > 0
    requires IsRoundHalfEven(n, d, a) && IsRoundHalfEven(n, d, b)
    ensures a == b
  {
    if a < b {
      DistanceOneApart(n, d, a, b);
    } else if b < a {
      DistanceOneApart(n, d, b, a);
    }
  }

  /** Two-digit text of `m`, `m` under 100. */
  function TwoDigits(m: nat): (r: string)
    requires m < 100
    ensures |r| == 2 && AllDigits(r)
  {
    [DigitChar(m / 10), DigitChar(m % 10)]
  }

  /** `str` of a non-negative two-place `Decimal` worth `a` hundredths. */
  function UnsignedDecimalText(a: nat): (r: string)
    ensures |r| >= 4 && IsDigit(r[0])
  {
    NatToString(a / 100) + "." + TwoDigits(a % 100)
  }

  /** `str` of a two-place `Decimal` worth `cents` hundredths: `1999.00`, `-0.50`. */
  function DecimalText(cents: int): (r: string)
    ensures |r| >= 4
  {
    (if cents < 0 then "-" else "") + UnsignedDecimalText(Abs(cents))
  }

  /** Reads `digits.dd` off the front of `s`, as a number of hundredths. */
  function ReadUnsignedDecimal(s: string): Option<(nat, string)> {
    match ReadNat(s)
    case None => None
    case Some((whole, rest)) =>
      if |rest| < 3 || rest[0] != '.' || !IsDigit(rest[1]) || !IsDigit(rest[2]) then None
      else Some((whole * 100 + DigitValue(rest[1]) * 10 + DigitValue(rest[2]), rest[3..]))
  }

  /** Reads a two-place decimal off the front of `s`, as a number of cents. */
  function ReadDecimal(s: string): Option<(int, string)> {
    var negative := |s| > 0 && s[0] == '-';
    match ReadUnsignedDecimal(if negative then s[1..] else s)
    case None => None
    case Some((a, rest)) => Some((if negative then -(a as int) else a as int, rest))
  }

  lemma ReadUnsignedDecimalText(a: nat, t: string)
    requires |t| == 0 || !IsDigit(t[0])
    ensures ReadUnsignedDecimal(UnsignedDecimalText(a) + t) == Some((a, t))
  {
    var w, m := a / 100, a % 100;
    var tail := "." + (TwoDigits(m) + t);
    Regroup4(NatToString(w), ".", TwoDigits(m), t);
    assert UnsignedDecimalText(a) + t == NatToString(w) + tail;
    ReadNatToString(w, tail);
    assert tail[0] == '.' && tail[1] == DigitChar(m / 10) && tail[2] == DigitChar(m % 10) && tail[3..] == t;
    assert w * 100 + (m / 10) * 10 + m % 10 == a;
  }

  /** A printed price is read back exactly: the text `DecimalText` writes
      loses nothing. */
  lemma ReadDecimalText(cents: int, t: string)
    requires |t| == 0 || !IsDigit(t[0])
    ensures ReadDecimal(DecimalText(cents) + t) == Some((cents, t))
  {
    var a := Abs(cents);
    var u := UnsignedDecimalText(a);
    ReadUnsignedDecimalText(a, t);
    if cents < 0 {
      assert DecimalText(cents) == "-" + u;
      assert ("-" + u) + t == "-" + (u + t);
      ReadSigned(u + t);
      assert -(a as int) == cents;
    } else {
      assert DecimalText(cents) == u;
      ReadUnsigned(u + t);
    }
  }

  /** A leading minus sign is read as a negative sign on what follows. */
  lemma ReadSigned(s: string)
    ensures ReadDecimal("-" + s) == match ReadUnsignedDecimal(s)
      case None => None
      case Some((a, rest)) => Some((-(a as int), rest))
  {
    assert ("-" + s)[0] == '-' && ("-" + s)[1..] == s;
  }

  /** Text starting with a digit is read without a sign. */
  lemma ReadUnsigned(s: string)
    requires |s| > 0 && IsDigit(s[0])
    ensures ReadDecimal(s) == match ReadUnsignedDecimal(s)
      case None => None
      case Some((a, rest)) => Some((a as int, rest))
  {
  }
}

=== FILE: seqs.dfy ===
/** Sequence operations that stand in for the ORM's querysets and for
    JavaScript's array methods: filtering, slicing, grouping and ordering. */
module Seqs {

  /** The elements of `s` that satisfy `p`, in their original order
      (a queryset `.filter(...)`, or `Array.prototype.filter`). */
  function Filter<T>(s: seq<T>, p: T -> bool): (r: seq<T>)
    ensures |r| <= |s|
    ensures forall i :: 0 <= i < |r| ==> p(r[i])
    ensures forall i :: 0 <= i < |r| ==> r[i] in s
    ensures forall i :: 0 <= i < |s| && p(s[i]) ==> s[i] in r
  {
    if |s| == 0 then []
    else if p(s[0]) then [s[0]] + Filter(s[1..], p)
    else Filter(s[1..], p)
  }

  /** Filtering distributes over concatenation. */
  lemma {:induction false} FilterAppend<T>(a: seq<T>, b: seq<T>, p: T -> bool)
    ensures Filter(a + b, p) == Filter(a, p) + Filter(b, p)
  {
    if |a| > 0 {
      assert (a + b)[0] == a[0];
      assert (a + b)[1..] == a[1..] + b;
      FilterAppend(a[1..], b, p);
    } else {
      assert a + b == b;
    }
  }

  /** Filtering keeps everything exactly when every element passes. */
  lemma {:induction false} FilterAll<T>(s: seq<T>, p: T -> bool)
    requires forall i :: 0 <= i < |s| ==> p(s[i])
    ensures Filter(s, p) == s
  {
    if |s| > 0 {
      FilterAll(s[1..], p);
    }
  }

  /** Filtering twice by the same predicate is filtering once. */
  lemma FilterIdempotent<T>(s: seq<T>, p: T -> bool)
    ensures Filter(Filter(s, p), p) == Filter(s, p)
  {
    FilterAll(Filter(s, p), p);
  }

  /** A filter by `p` and then by `q` keeps what a single filter by both keeps. */
  lemma {:induction false} FilterThenFilter<T>(s: seq<T>, p: T -> bool, q: T -> bool, pq: T -> bool)
    requires forall x :: pq(x) == (p(x) && q(x))
    ensures Filter(Filter(s, p), q) == Filter(s, pq)
  {
    if |s| > 0 {
      FilterThenFilter(s[1..], p, q, pq);
    }
  }

  /** The elements passing `p` and those failing it together are all of `s`. */
  lemma {:induction false} FilterPartition<T>(s: seq<T>, p: T -> bool, notP: T -> bool)
    requires forall x :: notP(x) == !p(x)
    ensures |Filter(s, p)| + |Filter(s, notP)| == |s|
  {
    if |s| > 0 {
      FilterPartition(s[1..], p, notP);
    }
  }

  /** Filters by predicates that agree on every element keep the same elements. */
  lemma {:induction false} FilterExt<T>(s: seq<T>, p: T -> bool, q: T -> bool)
    requires forall x :: p(x) == q(x)
    ensures Filter(s, p) == Filter(s, q)
  {
    if |s| > 0 {
      FilterExt(s[1..], p, q);
    }
  }

  /** Nothing is kept when nothing passes. */
  lemma {:induction false} FilterNone<T>(s: seq<T>, p: T -> bool)
    requires forall i :: 0 <= i < |s| ==> !p(s[i])
    ensures Filter(s, p) == []
  {
    if |s| > 0 {
      FilterNone(s[1..], p);
    }
  }

  /** Applies `f` to every element (a list comprehension, `Array.prototype.map`). */
  function Map<T, U>(s: seq<T>, f: T -> U): (r: seq<U>)
    ensures |r| == |s|
    ensures forall i :: 0 <= i < |s| ==> r[i] == f(s[i])
  {
    if |s| == 0 then [] else [f(s[0])] + Map(s[1..], f)
  }

  /** Mapping distributes over concatenation. */
  lemma {:induction false} MapAppend<T, U>(a: seq<T>, b: seq<T>, f: T -> U)
    ensures Map(a + b, f) == Map(a, f) + Map(b, f)
  {
    if |a| > 0 {
      assert (a + b)[0] == a[0];
      assert (a + b)[1..] == a[1..] + b;
      MapAppend(a[1..], b, f);
    } else {
      assert a + b == b;
    }
  }

  /** No two elements are equal. */
  predicate Distinct<T(==)>(s: seq<T>) {
    forall i, j :: 0 <= i < j < |s| ==> s[i] != s[j]
  }

  /** Keeping some elements and applying `f` gives distinct results when
      `f` already tells all the elements apart. */
  lemma {:induction false} MapFilterDistinct<T, U>(s: seq<T>, p: T -> bool, f: T -> U)
    requires forall i, j :: 0 <= i < j < |s| ==> f(s[i]) != f(s[j])
    ensures Distinct(Map(Filter(s, p), f))
  {
    if |s| > 0 {
      var rest := s[1..];
      MapFilterDistinct(rest, p, f);
      var m := Map(Filter(rest, p), f);
      forall k | 0 <= k < |m|
        ensures m[k] != f(s[0])
      {
        var y := Filter(rest, p)[k];
        assert y in rest;
        var t :| 0 <= t < |rest| && rest[t] == y;
        assert s[t + 1] == y;
      }
      if p(s[0]) {
        assert Map(Filter(s, p), f) == [f(s[0])] + m;
      }
    }
  }

  /** The number of elements satisfying `p` (a queryset's `.count()`). */
  function Count<T>(s: seq<T>, p: T -> bool): (n: nat)
    ensures n <= |s|
  {
    if |s| == 0 then 0 else (if p(s[0]) then 1 else 0) + Count(s[1..], p)
  }

  /** Counting is the length of the filtered sequence. */
  lemma {:induction false} CountIsFilterSize<T>(s: seq<T>, p: T -> bool)
    ensures Count(s, p) == |Filter(s, p)|
  {
    if |s| > 0 {
      CountIsFilterSize(s[1..], p);
    }
  }

  /** Predicates that agree everywhere count the same elements. */
  lemma {:induction false} CountSame<T>(s: seq<T>, p: T -> bool, q: T -> bool)
    requires forall x :: p(x) == q(x)
    ensures Count(s, p) == Count(s, q)
  {
    if |s| > 0 {
      CountSame(s[1..], p, q);
    }
  }

  /** Elements satisfying two exclusive predicates are counted apart, so
      the two counts fit in the sequence together. */
  lemma {:induction false} CountExclusive<T>(s: seq<T>, p: T -> bool, q: T -> bool)
    requires forall i :: 0 <= i < |s| ==> !(p(s[i]) && q(s[i]))
    ensures Count(s, p) + Count(s, q) <= |s|
  {
    if |s| > 0 {
      CountExclusive(s[1..], p, q);
    }
  }

  /** A sequence with an element satisfying `p` has a positive count. */
  lemma {:induction false} CountPositive<T>(s: seq<T>, p: T -> bool, i: int)
    requires 0 <= i < |s| && p(s[i])
    ensures Count(s, p) >= 1
  {
    if i > 0 {
      CountPositive(s[1..], p, i - 1);
    }
  }

  /** A predicate implied by another counts at least as many elements. */
  lemma {:induction false} CountMonotone<T>(s: seq<T>, p: T -> bool, q: T -> bool)
    requires forall i :: 0 <= i < |s| && p(s[i]) ==> q(s[i])
    ensures Count(s, p) <= Count(s, q)
  {
    if |s| > 0 {
      CountMonotone(s[1..], p, q);
    }
  }

  /** The sum of `f` over the elements (an aggregate `Sum`). */
  function Sum<T>(s: seq<T>, f: T -> int): int {
    if |s| == 0 then 0 else f(s[0]) + Sum(s[1..], f)
  }

  /** Counting `q` among the elements passing `p` counts those passing both
      (a chained `.filter(...).filter(...).count()`). */
  lemma CountOfFiltered<T>(s: seq<T>, p: T -> bool, q: T -> bool, pq: T -> bool)
    requires forall x :: pq(x) == (p(x) && q(x))
    ensures Count(Filter(s, p), q) == Count(s, pq)
  {
    CountIsFilterSize(Filter(s, p), q);
    FilterThenFilter(s, p, q, pq);
    CountIsFilterSize(s, pq);
  }

  lemma SumCons<T>(x: T, s: seq<T>, f: T -> int)
    ensures Sum([x] + s, f) == f(x) + Sum(s, f)
  {
    assert ([x] + s)[1..] == s;
  }

  /** Replacing an element that fails `p` by one that passes it adds the
      new element's value to the sum over the filtered sequence. */
  lemma {:induction false} SumFilterUpdate<T>(s: seq<T>, i: nat, y: T, p: T -> bool, f: T -> int)
    requires i < |s| && !p(s[i]) && p(y)
    ensures Sum(Filter(s[i := y], p), f) == Sum(Filter(s, p), f) + f(y)
  {
    var s' := s[i := y];
    if i == 0 {
      assert s'[1..] == s[1..];
      SumCons(y, Filter(s[1..], p), f);
    } else {
      assert s'[0] == s[0];
      assert s'[1..] == s[1..][i - 1 := y];
      SumFilterUpdate(s[1..], i - 1, y, p, f);
      if p(s[0]) {
        SumCons(s[0], Filter(s'[1..], p), f);
        SumCons(s[0], Filter(s[1..], p), f);
      }
    }
  }

  /** Replacing an element that fails `p` by one that passes it counts one more. */
  lemma {:induction false} CountUpdate<T>(s: seq<T>, i: nat, y: T, p: T -> bool)
    requires i < |s| && !p(s[i]) && p(y)
    ensures Count(s[i := y], p) == Count(s, p) + 1
  {
    var s' := s[i := y];
    if i == 0 {
      assert s'[1..] == s[1..];
    } else {
      assert s'[1..] == s[1..][i - 1 := y];
      CountUpdate(s[1..], i - 1, y, p);
    }
  }

  /** `queryset.update(...)`: `change` applied to the elements in the
      selection, the others left alone, with the number of elements changed. */
  function UpdateWhere<T>(s: seq<T>, selected: T -> bool, change: T -> T): (r: (nat, seq<T>))
    ensures r.0 == Count(s, selected)
    ensures |r.1| == |s|
    ensures forall i :: 0 <= i < |s| ==> r.1[i] == if selected(s[i]) then change(s[i]) else s[i]
  {
    if |s| == 0 then (0, [])
    else
      var rest := UpdateWhere(s[1..], selected, change);
      if selected(s[0]) then (rest.0 + 1, [change(s[0])] + rest.1)
      else (rest.0, [s[0]] + rest.1)
  }

  /** The first `n` elements, or all of them when there are fewer
      (Python's `qs[:n]`, JavaScript's `slice(0, n)`). */
  function Take<T>(s: seq<T>, n: nat): (r: seq<T>)
    ensures |r| == if |s| <= n then |s| else n
    ensures r == s[..|r|]
  {
    if |s| <= n then s else s[..n]
  }

  /** The elements of `s` whose key is `k`, in their original order. */
  function Matching<T, K(==)>(s: seq<T>, key: T -> K, k: K): (r: seq<T>)
    ensures forall i :: 0 <= i < |r| ==> key(r[i]) == k
    ensures forall i :: 0 <= i < |r| ==> r[i] in s
    ensures forall i :: 0 <= i < |s| && key(s[i]) == k ==> s[i] in r
  {
    if |s| == 0 then []
    else Matching(s[..|s| - 1], key, k) + (if key(s[|s| - 1]) == k then [s[|s| - 1]] else [])
  }

  /** Nothing matches a key that no element has. */
  lemma {:induction false} MatchingNone<T, K>(s: seq<T>, key: T -> K, k: K)
    requires forall i :: 0 <= i < |s| ==> key(s[i]) != k
    ensures Matching(s, key, k) == []
  {
    if |s| > 0 {
      MatchingNone(s[..|s| - 1], key, k);
    }
  }

  /** No two groups share a key. */
  ghost predicate DistinctKeys<T, K>(groups: seq<(K, seq<T>)>) {
    forall a, b :: 0 <= a < b < |groups| ==> groups[a].0 != groups[b].0
  }

  /** Some group carries key `k`. */
  ghost predicate HasKey<T, K>(groups: seq<(K, seq<T>)>, k: K) {
    exists j :: 0 <= j < |groups| && groups[j].0 == k
  }

  /** The number of elements over all groups. */
  function TotalSize<T, K>(groups: seq<(K, seq<T>)>): nat {
    if |groups| == 0 then 0 else |groups[0].1| + TotalSize(groups[1..])
  }

  lemma {:induction false} TotalSizeAppend<T, K>(groups: seq<(K, seq<T>)>, g: (K, seq<T>))
    ensures TotalSize(groups + [g]) == TotalSize(groups) + |g.1|
  {
    if |groups| > 0 {
      assert (groups + [g])[1..] == groups[1..] + [g];
      TotalSizeAppend(groups[1..], g);
    }
  }

  lemma {:induction false} TotalSizeUpdate<T, K>(groups: seq<(K, seq<T>)>, j: nat, g: (K, seq<T>))
    requires j < |groups|
    ensures TotalSize(groups[j := g]) == TotalSize(groups) - |groups[j].1| + |g.1|
  {
    if j > 0 {
      assert groups[j := g][1..] == groups[1..][j - 1 := g];
      TotalSizeUpdate(groups[1..], j - 1, g);
    }
  }

  /** The index of the group keyed `k`, or `|groups|` when there is none. */
  function FindKey<T, K(==)>(groups: seq<(K, seq<T>)>, k: K): (j: nat)
    ensures j <= |groups|
    ensures j < |groups| ==> groups[j].0 == k
    ensures j == |groups| ==> forall i :: 0 <= i < |groups| ==> groups[i].0 != k
  {
    if |groups| == 0 then 0
    else if groups[0].0 == k then 0
    else 1 + FindKey(groups[1..], k)
  }

  /** `groups` is the grouping of `prefix` by `key`: keys are distinct, each
      group is exactly the elements with its key in input order, no group is
      empty, every element has a group, and the sizes add up. */
  ghost predicate GroupsOf<T, K>(groups: seq<(K, seq<T>)>, prefix: seq<T>, key: T -> K) {
    && DistinctKeys(groups)
    && (forall j :: 0 <= j < |groups| ==> groups[j].1 == Matching(prefix, key, groups[j].0))
    && (forall j :: 0 <= j < |groups| ==> |groups[j].1| > 0)
    && (forall t :: 0 <= t < |prefix| ==> HasKey(groups, key(prefix[t])))
    && TotalSize(groups) == |prefix|
  }

  /** One iteration of the grouping loop: append `x` to the group of its key,
      opening that group at the end when the key is new. */
  function AddToGroup<T, K(==)>(groups: seq<(K, seq<T>)>, k: K, x: T): seq<(K, seq<T>)> {
    var j := FindKey(groups, k);
    if j < |groups| then groups[j := (k, groups[j].1 + [x])]
    else groups + [(k, [x])]
  }

  lemma MatchingSnoc<T, K>(prefix: seq<T>, x: T, key: T -> K, c: K)
    ensures Matching(prefix + [x], key, c) == Matching(prefix, key, c) + (if key(x) == c then [x] else [])
  {
    assert (prefix + [x])[..|prefix|] == prefix;
  }

  /** Every element of `p'` has a group in `g'`, given that the old elements
      kept their groups' keys and the new one has a group. */
  lemma KeysCovered<T, K>(groups: seq<(K, seq<T>)>, g': seq<(K, seq<T>)>, prefix: seq<T>, key: T -> K, x: T, j: nat)
    requires forall t :: 0 <= t < |prefix| ==> HasKey(groups, key(prefix[t]))
    requires |groups| <= |g'| && forall i :: 0 <= i < |groups| ==> g'[i].0 == groups[i].0
    requires j < |g'| && g'[j].0 == key(x)
    ensures forall t :: 0 <= t < |prefix + [x]| ==> HasKey(g', key((prefix + [x])[t]))
  {
    var p' := prefix + [x];
    forall t | 0 <= t < |p'| ensures HasKey(g', key(p'[t])) {
      if t < |prefix| {
        assert p'[t] == prefix[t];
        var w :| 0 <= w < |groups| && groups[w].0 == key(prefix[t]);
        assert g'[w].0 == key(p'[t]);
      } else {
        assert g'[j].0 == key(p'[t]);
      }
    }
  }

  /** Groups carrying the keys of distinct-keyed groups, position by
      position, have distinct keys too. */
  lemma SameKeysDistinct<T, K>(groups: seq<(K, seq<T>)>, g': seq<(K, seq<T>)>)
    requires DistinctKeys(groups) && |g'| == |groups|
    requires forall i :: 0 <= i < |groups| ==> g'[i].0 == groups[i].0
    ensures DistinctKeys(g')
  {
  }

  /** A group with a key no group carries keeps the keys distinct. */
  lemma NewKeyDistinct<T, K>(groups: seq<(K, seq<T>)>, g: (K, seq<T>))
    requires DistinctKeys(groups)
    requires forall i :: 0 <= i < |groups| ==> groups[i].0 != g.0
    ensures DistinctKeys(groups + [g])
  {
    var g' := groups + [g];
    forall a, b | 0 <= a < b < |g'| ensures g'[a].0 != g'[b].0 {
      assert g'[a] == groups[a];
    }
  }

  /** A known key: appending to its group keeps the grouping. */
  lemma GroupStepKnown<T, K>(groups: seq<(K, seq<T>)>, prefix: seq<T>, key: T -> K, x: T, j: nat)
    requires GroupsOf(groups, prefix, key)
    requires j < |groups| && groups[j].0 == key(x)
    ensures GroupsOf(groups[j := (key(x), groups[j].1 + [x])], prefix + [x], key)
  {
    var g' := groups[j := (key(x), groups[j].1 + [x])];
    KnownGroupShape(groups, g', key, x, j);
    TotalSizeUpdate(groups, j, (key(x), groups[j].1 + [x]));
    KnownGroupMatches(groups, g', prefix, key, x, j);
    KeysCoveredKnown(groups, prefix, key, x, j);
  }

  /** Appending to a group keeps the keys, and keeps them distinct, and
      keeps every group non-empty. */
  lemma KnownGroupShape<T, K>(groups: seq<(K, seq<T>)>, g': seq<(K, seq<T>)>, key: T -> K, x: T, j: nat)
    requires DistinctKeys(groups) && forall i :: 0 <= i < |groups| ==> |groups[i].1| > 0
    requires j < |groups| && groups[j].0 == key(x)
    requires g' == groups[j := (key(x), groups[j].1 + [x])]
    ensures DistinctKeys(g')
    ensures forall i :: 0 <= i < |g'| ==> |g'[i].1| > 0
  {
    SameKeysDistinct(groups, g');
    forall i | 0 <= i < |g'| ensures |g'[i].1| > 0 {
      if i != j { assert g'[i] == groups[i]; }
    }
  }

  /** After appending `x` to its group, every element has a group. */
  lemma KeysCoveredKnown<T, K>(groups: seq<(K, seq<T>)>, prefix: seq<T>, key: T -> K, x: T, j: nat)
    requires forall t :: 0 <= t < |prefix| ==> HasKey(groups, key(prefix[t]))
    requires j < |groups| && groups[j].0 == key(x)
    ensures forall t :: 0 <= t < |prefix + [x]| ==> HasKey(groups[j := (key(x), groups[j].1 + [x])], key((prefix + [x])[t]))
  {
    var g' := groups[j := (key(x), groups[j].1 + [x])];
    assert forall i :: 0 <= i < |groups| ==> g'[i].0 == groups[i].0;
    KeysCovered(groups, g', prefix, key, x, j);
  }

  /** Appending to the group of a known key keeps every group equal to the
      elements with its key. */
  lemma KnownGroupMatches<T, K>(groups: seq<(K, seq<T>)>, g': seq<(K, seq<T>)>, prefix: seq<T>, key: T -> K, x: T, j: nat)
    requires forall i :: 0 <= i < |groups| ==> groups[i].1 == Matching(prefix, key, groups[i].0)
    requires DistinctKeys(groups)
    requires j < |groups| && groups[j].0 == key(x)
    requires g' == groups[j := (key(x), groups[j].1 + [x])]
    ensures forall i :: 0 <= i < |g'| ==> g'[i].1 == Matching(prefix + [x], key, g'[i].0)
  {
    forall i | 0 <= i < |g'| ensures g'[i].1 == Matching(prefix + [x], key, g'[i].0) {
      MatchingSnoc(prefix, x, key, g'[i].0);
      if i != j {
        assert g'[i] == groups[i];
        assert groups[i].0 != groups[j].0;
      }
    }
  }

  /** A key no group carries is the key of no element grouped so far. */
  lemma NewKeyUnmatched<T, K>(groups: seq<(K, seq<T>)>, prefix: seq<T>, key: T -> K, k: K)
    requires forall t :: 0 <= t < |prefix| ==> HasKey(groups, key(prefix[t]))
    requires forall i :: 0 <= i < |groups| ==> groups[i].0 != k
    ensures Matching(prefix, key, k) == []
  {
    forall t | 0 <= t < |prefix| ensures key(prefix[t]) != k {
      assert HasKey(groups, key(prefix[t]));
    }
    MatchingNone(prefix, key, k);
  }

  /** Opening a group for a new key keeps every group equal to the
      elements with its key. */
  lemma NewGroupMatches<T, K>(groups: seq<(K, seq<T>)>, prefix: seq<T>, key: T -> K, x: T)
    requires forall j :: 0 <= j < |groups| ==> groups[j].1 == Matching(prefix, key, groups[j].0)
    requires forall i :: 0 <= i < |groups| ==> groups[i].0 != key(x)
    requires Matching(prefix, key, key(x)) == []
    ensures forall j :: 0 <= j < |groups| + 1 ==>
      (groups + [(key(x), [x])])[j].1 == Matching(prefix + [x], key, (groups + [(key(x), [x])])[j].0)
  {
    var g' := groups + [(key(x), [x])];
    forall j | 0 <= j < |g'| ensures g'[j].1 == Matching(prefix + [x], key, g'[j].0) {
      MatchingSnoc(prefix, x, key, g'[j].0);
      if j < |groups| {
        assert g'[j] == groups[j];
      }
    }
  }

  /** A new key: opening a group at the end keeps the grouping. */
  lemma GroupStepNew<T, K>(groups: seq<(K, seq<T>)>, prefix: seq<T>, key: T -> K, x: T)
    requires GroupsOf(groups, prefix, key)
    requires forall i :: 0 <= i < |groups| ==> groups[i].0 != key(x)
    ensures GroupsOf(groups + [(key(x), [x])], prefix + [x], key)
  {
    NewKeyUnmatched(groups, prefix, key, key(x));
    NewGroupMatches(groups, prefix, key, x);
    NewKeyDistinct(groups, (key(x), [x]));
    NonEmptyAppend(groups, (key(x), [x]));
    TotalSizeAppend(groups, (key(x), [x]));
    KeysCoveredNew(groups, prefix, key, x);
  }

  /** Appending a non-empty group keeps every group non-empty. */
  lemma NonEmptyAppend<T, K>(groups: seq<(K, seq<T>)>, g: (K, seq<T>))
    requires forall i :: 0 <= i < |groups| ==> |groups[i].1| > 0
    requires |g.1| > 0
    ensures forall i :: 0 <= i < |groups + [g]| ==> |(groups + [g])[i].1| > 0
  {
    var g' := groups + [g];
    forall i | 0 <= i < |g'| ensures |g'[i].1| > 0 {
      if i < |groups| { assert g'[i] == groups[i]; }
    }
  }

  /** After opening a group for `x`, every element has a group. */
  lemma KeysCoveredNew<T, K>(groups: seq<(K, seq<T>)>, prefix: seq<T>, key: T -> K, x: T)
    requires forall t :: 0 <= t < |prefix| ==> HasKey(groups, key(prefix[t]))
    ensures forall t :: 0 <= t < |prefix + [x]| ==> HasKey(groups + [(key(x), [x])], key((prefix + [x])[t]))
  {
    var g' := groups + [(key(x), [x])];
    assert forall i :: 0 <= i < |groups| ==> g'[i].0 == groups[i].0;
    KeysCovered(groups, g', prefix, key, x, |groups|);
  }

  lemma GroupStep<T, K>(groups: seq<(K, seq<T>)>, prefix: seq<T>, key: T -> K, x: T)
    requires GroupsOf(groups, prefix, key)
    ensures GroupsOf(AddToGroup(groups, key(x), x), prefix + [x], key)
  {
    var j := FindKey(groups, key(x));
    if j < |groups| {
      GroupStepKnown(groups, prefix, key, x, j);
    } else {
      GroupStepNew(groups, prefix, key, x);
    }
  }

  /** Groups `s` by `key` the way a Python loop fills a dict of lists:
      a new key opens a group at the end, a known key appends to its group.
      Every element lands in exactly the group of its key, each group keeps the
      input order, and the group sizes add up to `|s|`. */
  method GroupBy<T, K(==)>(s: seq<T>, key: T -> K) returns (groups: seq<(K, seq<T>)>)
    ensures DistinctKeys(groups)
    ensures forall j :: 0 <= j < |groups| ==> groups[j].1 == Matching(s, key, groups[j].0)
    ensures forall j :: 0 <= j < |groups| ==> |groups[j].1| > 0
    ensures forall t :: 0 <= t < |s| ==> HasKey(groups, key(s[t]))
    ensures TotalSize(groups) == |s|
  {
    groups := [];
    var i := 0;
    while i < |s|
      invariant 0 <= i <= |s|
      invariant GroupsOf(groups, s[..i], key)
    {
      GroupLoopStep(groups, s, i, key);
      groups := AddToGroup(groups, key(s[i]), s[i]);
      i := i + 1;
    }
    GroupsOfWhole(groups, s, key);
  }

  /** One iteration of the grouping loop keeps the invariant. */
  lemma GroupLoopStep<T, K>(groups: seq<(K, seq<T>)>, s: seq<T>, i: nat, key: T -> K)
    requires i < |s| && GroupsOf(groups, s[..i], key)
    ensures GroupsOf(AddToGroup(groups, key(s[i]), s[i]), s[..i + 1], key)
  {
    GroupStep(groups, s[..i], key, s[i]);
    assert s[..i + 1] == s[..i] + [s[i]];
  }

  /** The invariant over the whole input is the method's contract. */
  lemma GroupsOfWhole<T, K>(groups: seq<(K, seq<T>)>, s: seq<T>, key: T -> K)
    requires GroupsOf(groups, s[..|s|], key)
    ensures DistinctKeys(groups)
    ensures forall j :: 0 <= j < |groups| ==> groups[j].1 == Matching(s, key, groups[j].0)
    ensures forall j :: 0 <= j < |groups| ==> |groups[j].1| > 0
    ensures forall t :: 0 <= t < |s| ==> HasKey(groups, key(s[t]))
    ensures TotalSize(groups) == |s|
  {
    assert s[..|s|] == s;
  }

  /** Keys are non-decreasing along `s`. */
  ghost predicate SortedBy<T>(s: seq<T>, key: T -> int) {
    forall i, j :: 0 <= i < j < |s| ==> key(s[i]) <= key(s[j])
  }

  /** Every element of `r` came from `s` or is `x`, so a lower bound on
      `s` and `x` bounds `r`. */
  lemma LowerBoundCarries<T>(r: seq<T>, s: seq<T>, x: T, key: T -> int, b: int)
    requires multiset(r) == multiset(s) + multiset{x}
    requires forall i :: 0 <= i < |s| ==> b <= key(s[i])
    requires b <= key(x)
    ensures forall i :: 0 <= i < |r| ==> b <= key(r[i])
  {
    forall i | 0 <= i < |r| ensures b <= key(r[i]) {
      assert r[i] in multiset(r);
      if r[i] != x {
        assert r[i] in multiset(s);
        var k :| 0 <= k < |s| && s[k] == r[i];
      }
    }
  }

  lemma SortedCons<T>(h: T, t: seq<T>, key: T -> int)
    requires SortedBy(t, key)
    requires forall i :: 0 <= i < |t| ==> key(h) <= key(t[i])
    ensures SortedBy([h] + t, key)
  {
    var r := [h] + t;
    forall i, j | 0 <= i < j < |r| ensures key(r[i]) <= key(r[j]) {
      assert r[j] == t[j - 1];
      if i > 0 {
        assert r[i] == t[i - 1];
      }
    }
  }

  /** Inserts `x` before the first element whose key is not smaller. */
  function InsertBy<T>(x: T, s: seq<T>, key: T -> int): (r: seq<T>)
    requires SortedBy(s, key)
    ensures SortedBy(r, key)
    ensures multiset(r) == multiset(s) + multiset{x}
  {
    if |s| == 0 || key(x) <= key(s[0]) then
      SortedCons(x, s, key);
      [x] + s
    else
      assert s == [s[0]] + s[1..];
      var rest := InsertBy(x, s[1..], key);
      LowerBoundCarries(rest, s[1..], x, key, key(s[0]));
      SortedCons(s[0], rest, key);
      [s[0]] + rest
  }

  /** An ascending ordering by `key`, by insertion. */
  function SortBy<T>(s: seq<T>, key: T -> int): (r: seq<T>)
    ensures SortedBy(r, key)
    ensures multiset(r) == multiset(s)
  {
    if |s| == 0 then []
    else
      assert s == [s[0]] + s[1..];
      InsertBy(s[0], SortBy(s[1..], key), key)
  }

  /** Sorting a sequence that is already in order leaves it as it is. */
  lemma {:induction false} SortBySorted<T>(s: seq<T>, key: T -> int)
    requires SortedBy(s, key)
    ensures SortBy(s, key) == s
  {
    if |s| > 0 {
      assert s == [s[0]] + s[1..];
      forall i, j | 0 <= i < j < |s[1..]| ensures key(s[1..][i]) <= key(s[1..][j]) {
        assert s[1..][i] == s[i + 1] && s[1..][j] == s[j + 1];
      }
      SortBySorted(s[1..], key);
    }
  }
}

=== FILE: text.dfy ===
/** String helpers shared by the backend's f-strings and the frontend's
    template literals: decimal formatting and reading back, ASCII case
    folding, Python's `strip`, `split` and `join`, and substring search. */
module Text {
  import opened Wrappers

  predicate IsDigit(c: char) {
    '0' <= c <= '9'
  }

  predicate AllDigits(s: string) {
    forall i :: 0 <= i < |s| ==> IsDigit(s[i])
  }

  function DigitValue(c: char): nat
    requires IsDigit(c)
  {
    c as int - '0' as int
  }

  function DigitChar(d: nat): (c: char)
    requires d < 10
    ensures IsDigit(c) && DigitValue(c) == d
  {
    ('0' as int + d) as char
  }

  /** Decimal spelling of a natural number, as Python's `str` and an
      f-string print it: digits only, no leading zero. */
  function NatToString(n: nat): (r: string)
    ensures 1 <= |r| && AllDigits(r)
    ensures r[0] == '0' ==> n == 0
  {
    if n < 10 then [DigitChar(n)] else NatToString(n / 10) + [DigitChar(n % 10)]
  }

  /** The value of a string of decimal digits. */
  function ParseNat(s: string): nat
    requires AllDigits(s)
  {
    if |s| == 0 then 0 else ParseNat(s[..|s| - 1]) * 10 + DigitValue(s[|s| - 1])
  }

  /** Reading back a printed number gives the number. */
  lemma {:induction false} ParseNatToString(n: nat)
    ensures ParseNat(NatToString(n)) == n
  {
    if n >= 10 {
      var r := NatToString(n);
      assert r[..|r| - 1] == NatToString(n / 10);
      ParseNatToString(n / 10);
    }
  }

  /** Python's `str` of an integer: a minus sign before negative values. */
  function IntToString(i: int): (r: string)
    ensures 1 <= |r|
    ensures i < 0 <==> r[0] == '-'
  {
    if i < 0 then "-" + NatToString(-i) else NatToString(i)
  }

  /** The number of leading decimal digits of `s`. */
  function DigitRun(s: string): (k: nat)
    ensures k <= |s|
    ensures AllDigits(s[..k])
    ensures k < |s| ==> !IsDigit(s[k])
  {
    if |s| == 0 || !IsDigit(s[0]) then 0 else 1 + DigitRun(s[1..])
  }

  /** Reads a decimal number off the front of `s`, returning it with the rest. */
  function ReadNat(s: string): Option<(nat, string)> {
    var k := DigitRun(s);
    if k == 0 then None else Some((ParseNat(s[..k]), s[k..]))
  }

  /** Reads an optionally negative decimal number off the front of `s`. */
  function ReadInt(s: string): Option<(int, string)> {
    var negative := |s| > 0 && s[0] == '-';
    var o := ReadNat(if negative then s[1..] else s);
    if o.None? then None
    else Some((if negative then -(o.value.0 as int) else o.value.0 as int, o.value.1))
  }

  lemma {:induction false} DigitRunPrefix(a: string, t: string)
    requires AllDigits(a)
    requires |t| == 0 || !IsDigit(t[0])
    ensures DigitRun(a + t) == |a|
  {
    if |a| > 0 {
      assert (a + t)[1..] == a[1..] + t;
      DigitRunPrefix(a[1..], t);
    } else {
      assert a + t == t;
    }
  }

  /** A printed number followed by a non-digit is read back exactly. */
  lemma ReadNatToString(n: nat, t: string)
    requires |t| == 0 || !IsDigit(t[0])
    ensures ReadNat(NatToString(n) + t) == Some((n, t))
  {
    var a := NatToString(n);
    DigitRunPrefix(a, t);
    assert (a + t)[..|a|] == a;
    assert (a + t)[|a|..] == t;
    ParseNatToString(n);
  }

  /** Four pieces joined left to right are the first piece before the
      other three. */
  lemma Regroup4(a: string, b: string, c: string, d: string)
    ensures a + b + c + d == a + (b + (c + d))
  {
  }

  /** The same for a printed integer, sign included. */
  lemma ReadIntToString(i: int, t: string)
    requires |t| == 0 || !IsDigit(t[0])
    ensures ReadInt(IntToString(i) + t) == Some((i, t))
  {
    if i < 0 {
      var a := NatToString(-i);
      assert IntToString(i) + t == "-" + (a + t);
      ReadSignedNat(-i, t);
    } else {
      ReadUnsignedNat(i, t);
    }
  }

  /** A minus sign before a printed number reads as its negation. */
  lemma ReadSignedNat(n: nat, t: string)
    requires |t| == 0 || !IsDigit(t[0])
    ensures ReadInt("-" + (NatToString(n) + t)) == Some((-(n as int), t))
  {
    var s := "-" + (NatToString(n) + t);
    assert s[0] == '-' && s[1..] == NatToString(n) + t;
    ReadNatToString(n, t);
  }

  /** A printed number with no sign reads as itself. */
  lemma ReadUnsignedNat(n: nat, t: string)
    requires |t| == 0 || !IsDigit(t[0])
    ensures ReadInt(NatToString(n) + t) == Some((n, t))
  {
    var a := NatToString(n);
    assert IsDigit(a[0]) && (a + t)[0] == a[0];
    ReadNatToString(n, t);
  }

  /** How an f-string prints an optional primary key: its digits, or
      `None` before the first save. */
  function IdText(id: Option<nat>): (r: string)
    ensures |r| > 0 && (id.None? <==> !IsDigit(r[0]))
  {
    match id
    case Some(n) => NatToString(n)
    case None => "None"
  }

  /** A string that may be absent (a query parameter, a nullable field)
      counts as given when present and non-empty: the truth test of Python
      and JavaScript on a string. */
  predicate Given(p: Option<string>) {
    p.Some? && p.value != ""
  }

  /** ASCII lower-casing of one character. */
  function LowerChar(c: char): char {
    if 'A' <= c <= 'Z' then (c as int - 'A' as int + 'a' as int) as char else c
  }

  /** `toLowerCase()` / `lower()` restricted to ASCII letters. */
  function Lower(s: string): (r: string)
    ensures |r| == |s|
    ensures forall i :: 0 <= i < |s| ==> r[i] == LowerChar(s[i])
  {
    if |s| == 0 then [] else [LowerChar(s[0])] + Lower(s[1..])
  }

  /** `t` is the lower-casing of `s` when it is so character by character. */
  lemma LowerByChars(s: string, t: string)
    requires |s| == |t|
    requires forall i :: 0 <= i < |s| ==> LowerChar(s[i]) == t[i]
    ensures Lower(s) == t
  {
  }

  /** Lower-casing is idempotent, so any two spellings that differ only in
      case look the same to a case-insensitive lookup. */
  lemma LowerIdempotent(s: string)
    ensures Lower(Lower(s)) == Lower(s)
  {
  }

  /** Python's `str.isspace` for one character. */
  predicate IsSpace(c: char) {
    || ('\U{9}' <= c <= '\U{D}') || ('\U{1C}' <= c <= '\U{20}')
    || c == '\U{85}' || c == '\U{A0}' || c == '\U{1680}'
    || ('\U{2000}' <= c <= '\U{200A}') || c == '\U{2028}' || c == '\U{2029}'
    || c == '\U{202F}' || c == '\U{205F}' || c == '\U{3000}'
  }

  function TrimStart(s: string): (r: string)
    ensures |r| <= |s| && r == s[|s| - |r|..]
    ensures |r| > 0 ==> !IsSpace(r[0])
    ensures forall i :: 0 <= i < |s| - |r| ==> IsSpace(s[i])
  {
    if |s| > 0 && IsSpace(s[0]) then TrimStart(s[1..]) else s
  }

  function TrimEnd(s: string): (r: string)
    ensures |r| <= |s| && r == s[..|r|]
    ensures |r| > 0 ==> !IsSpace(r[|r| - 1])
    ensures forall i :: |r| <= i < |s| ==> IsSpace(s[i])
  {
    if |s| > 0 && IsSpace(s[|s| - 1]) then TrimEnd(s[..|s| - 1]) else s
  }

  /** No whitespace at either end. */
  predicate IsTrimmed(x: string) {
    |x| > 0 ==> !IsSpace(x[0]) && !IsSpace(x[|x| - 1])
  }

  /** `r` is the piece of `s` starting at `lo` with only whitespace around it. */
  predicate StrippedAt(s: string, r: string, lo: int) {
    && 0 <= lo <= |s| - |r| && r == s[lo..lo + |r|]
    && (forall i :: 0 <= i < lo ==> IsSpace(s[i]))
    && (forall i :: lo + |r| <= i < |s| ==> IsSpace(s[i]))
  }

  /** Python's `str.strip()`: `s` without its leading and trailing whitespace. */
  function Strip(s: string): (r: string)
    ensures IsTrimmed(r)
  {
    var t := TrimStart(s);
    var r := TrimEnd(t);
    assert |r| > 0 ==> r[0] == t[0];
    r
  }

  /** What `strip` removes is whitespace, and what it keeps is one piece of `s`. */
  lemma StripIsSlice(s: string)
    ensures exists lo :: StrippedAt(s, Strip(s), lo)
  {
    var t := TrimStart(s);
    var r := TrimEnd(t);
    var lo := |s| - |t|;
    assert Strip(s) == r;
    assert r == s[lo..lo + |r|];
    assert StrippedAt(s, r, lo);
  }

  /** Stripping adds no character. */
  lemma StripKeepsOut(s: string, c: char)
    requires c !in s
    ensures c !in Strip(s)
  {
    var t := TrimStart(s);
    var r := Strip(s);
    assert r == TrimEnd(t);
    forall i | 0 <= i < |r|
      ensures r[i] != c
    {
      assert r[i] == t[i] == s[|s| - |t| + i];
    }
  }

  /** Text with no surrounding whitespace is its own strip. */
  lemma StripTrimmed(x: string)
    requires IsTrimmed(x)
    ensures Strip(x) == x
  {
  }

  /** A leading blank makes no difference to `strip`. */
  lemma StripLeadingBlank(x: string)
    ensures Strip(" " + x) == Strip(x)
  {
    var s := " " + x;
    assert IsSpace(s[0]) && s[1..] == x;
    assert TrimStart(s) == TrimStart(x);
  }

  /** Python's `str.split(c)` for a one-character separator: the pieces
      between separators, always at least one. */
  function Split(s: string, c: char): (r: seq<string>)
    ensures |r| >= 1
    ensures forall i :: 0 <= i < |r| ==> c !in r[i]
  {
    if |s| == 0 then [""]
    else
      var rest := Split(s[1..], c);
      if s[0] == c then [""] + rest else [[s[0]] + rest[0]] + rest[1..]
  }

  /** Python's `sep.join(xs)`. */
  function Join(xs: seq<string>, sep: string): string {
    if |xs| == 0 then ""
    else if |xs| == 1 then xs[0]
    else xs[0] + sep + Join(xs[1..], sep)
  }

  /** Joining the pieces of a split with the same separator restores the text. */
  lemma {:induction false} JoinSplit(s: string, c: char)
    ensures Join(Split(s, c), [c]) == s
  {
    if |s| > 0 {
      var rest := Split(s[1..], c);
      JoinSplit(s[1..], c);
      if |rest| >= 2 {
        assert Join(rest, [c]) == rest[0] + [c] + Join(rest[1..], [c]);
      }
      if s[0] == c {
        assert s == [c] + s[1..];
      } else {
        var r := [[s[0]] + rest[0]] + rest[1..];
        assert r[1..] == rest[1..];
        assert s == [s[0]] + s[1..];
      }
    }
  }

  lemma {:induction false} SplitNoSeparator(a: string, c: char)
    requires c !in a
    ensures Split(a, c) == [a]
  {
    if |a| > 0 {
      SplitNoSeparator(a[1..], c);
      assert a == [a[0]] + a[1..];
    }
  }

  lemma {:induction false} SplitAtSeparator(a: string, c: char, t: string)
    requires c !in a
    ensures Split(a + [c] + t, c) == [a] + Split(t, c)
  {
    var s := a + [c] + t;
    if |a| == 0 {
      assert s == [c] + t;
      assert s[1..] == t;
    } else {
      assert s[0] == a[0];
      assert s[1..] == a[1..] + [c] + t;
      SplitAtSeparator(a[1..], c, t);
      assert a == [a[0]] + a[1..];
    }
  }

  /** Splitting a join restores the list when no item holds the separator. */
  lemma {:induction false} SplitJoin(xs: seq<string>, c: char)
    requires |xs| >= 1
    requires forall i :: 0 <= i < |xs| ==> c !in xs[i]
    ensures Split(Join(xs, [c]), c) == xs
  {
    if |xs| == 1 {
      SplitNoSeparator(xs[0], c);
    } else {
      SplitAtSeparator(xs[0], c, Join(xs[1..], [c]));
      SplitJoin(xs[1..], c);
      assert xs == [xs[0]] + xs[1..];
    }
  }

  /** Each item preceded by one blank. */
  function Spaced(xs: seq<string>): (r: seq<string>)
    ensures |r| == |xs|
    ensures forall i :: 0 <= i < |xs| ==> r[i] == " " + xs[i]
  {
    if |xs| == 0 then [] else [" " + xs[0]] + Spaced(xs[1..])
  }

  /** A `", "`-join is a `","`-join of the items after the first with a blank in front. */
  lemma {:induction false} JoinCommaBlank(ys: seq<string>)
    requires |ys| >= 1
    ensures " " + Join(ys, ", ") == Join(Spaced(ys), ",")
  {
    if |ys| >= 2 {
      JoinCommaBlank(ys[1..]);
      assert Spaced(ys)[1..] == Spaced(ys[1..]);
    }
  }

  /** Each item stripped, as a list comprehension over `strip()` does. */
  function StripAll(xs: seq<string>): (r: seq<string>)
    ensures |r| == |xs|
    ensures forall i :: 0 <= i < |xs| ==> r[i] == Strip(xs[i])
  {
    if |xs| == 0 then [] else [Strip(xs[0])] + StripAll(xs[1..])
  }

  /** `", "` is a comma followed by a blank. */
  lemma CommaBlankRegroup(a: string, j: string)
    ensures a + ", " + j == a + [','] + (" " + j)
  {
    assert ", " == [','] + " ";
  }

  lemma JoinCommaBlankSplitPoint(xs: seq<string>)
    requires |xs| >= 2
    ensures Join(xs, ", ") == xs[0] + [','] + Join(Spaced(xs[1..]), [','])
  {
    var tail := xs[1..];
    var j := Join(tail, ", ");
    JoinCommaBlank(tail);
    assert Join(xs, ", ") == xs[0] + ", " + j;
    CommaBlankRegroup(xs[0], j);
  }

  lemma SplitCommaBlankJoin(xs: seq<string>)
    requires |xs| >= 2
    requires forall i :: 0 <= i < |xs| ==> ',' !in xs[i]
    ensures Split(Join(xs, ", "), ',') == [xs[0]] + Spaced(xs[1..])
  {
    var spaced := Spaced(xs[1..]);
    var j := Join(spaced, [',']);
    JoinCommaBlankSplitPoint(xs);
    assert Join(xs, ", ") == xs[0] + [','] + j;
    SplitAtSeparator(xs[0], ',', j);
    forall i | 0 <= i < |spaced|
      ensures ',' !in spaced[i]
    {
      BlankKeepsCommaFree(xs[i + 1]);
    }
    SplitJoin(spaced, ',');
  }

  /** A leading blank brings in no comma. */
  lemma BlankKeepsCommaFree(x: string)
    requires ',' !in x
    ensures ',' !in " " + x
  {
    assert forall k :: 1 <= k < |" " + x| ==> (" " + x)[k] == x[k - 1];
  }

  lemma StripBlankTrimmed(y: string)
    requires IsTrimmed(y)
    ensures Strip(" " + y) == y
  {
    StripLeadingBlank(y);
    StripTrimmed(y);
  }

  lemma StripSpacedAt(x: string, ys: seq<string>, k: int)
    requires IsTrimmed(x)
    requires forall i :: 0 <= i < |ys| ==> IsTrimmed(ys[i])
    requires 0 <= k <= |ys|
    ensures Strip(([x] + Spaced(ys))[k]) == ([x] + ys)[k]
  {
    if k == 0 {
      StripTrimmed(x);
    } else {
      var y := ys[k - 1];
      assert ([x] + Spaced(ys))[k] == " " + y;
      StripBlankTrimmed(y);
    }
  }

  lemma StripAllPointwise(zs: seq<string>, ys: seq<string>)
    requires |zs| == |ys|
    requires forall i :: 0 <= i < |zs| ==> Strip(zs[i]) == ys[i]
    ensures StripAll(zs) == ys
  {
  }

  lemma StripSpacedTrimmed(x: string, ys: seq<string>)
    requires IsTrimmed(x)
    requires forall i :: 0 <= i < |ys| ==> IsTrimmed(ys[i])
    ensures StripAll([x] + Spaced(ys)) == [x] + ys
  {
    var pieces := [x] + Spaced(ys);
    forall k | 0 <= k < |pieces|
      ensures Strip(pieces[k]) == ([x] + ys)[k]
    {
      StripSpacedAt(x, ys, k);
    }
    StripAllPointwise(pieces, [x] + ys);
  }

  /** A `", "`-joined list read back by splitting on `','` and stripping each
      piece is the list again, provided no item holds a comma or surrounding
      whitespace. */
  lemma SplitStripJoin(xs: seq<string>)
    requires |xs| >= 1
    requires forall i :: 0 <= i < |xs| ==> ',' !in xs[i] && IsTrimmed(xs[i])
    ensures StripAll(Split(Join(xs, ", "), ',')) == xs
  {
    var x, ys := xs[0], xs[1..];
    assert xs == [x] + ys;
    if |xs| == 1 {
      SplitNoSeparator(x, ',');
      StripTrimmed(x);
      assert StripAll([x]) == [Strip(x)];
    } else {
      SplitCommaBlankJoin(xs);
      assert forall i :: 0 <= i < |ys| ==> IsTrimmed(ys[i]) by {
        forall i | 0 <= i < |ys| ensures IsTrimmed(ys[i]) {
          assert ys[i] == xs[i + 1];
        }
      }
      StripSpacedTrimmed(x, ys);
    }
  }

  /** The display string shared by the models: the `", "`-join of the items,
      or a placeholder when there are none. */
  function ListDisplay(xs: seq<string>, placeholder: string): string {
    if |xs| == 0 then placeholder else Join(xs, ", ")
  }

  /** `q` occurs in `s` starting at index `i`. */
  predicate OccursAt(s: string, q: string, i: int) {
    0 <= i <= |s| - |q| && s[i..i + |q|] == q
  }

  /** `q` occurs in `s` as a contiguous piece. */
  predicate Contains(s: string, q: string) {
    exists i :: 0 <= i <= |s| - |q| && OccursAt(s, q, i)
  }

  /** Django's `icontains`, with ASCII case folding. */
  predicate ContainsIgnoringCase(s: string, q: string) {
    Contains(Lower(s), Lower(q))
  }
}

=== FILE: timeline_models.dfy ===
/** The life-phase timeline of `backend/timeline/models.py`: phases with
    their display helpers, and stories attached to a phase and a memorial.
    A story carries the fields of its phase and memorial that the views
    read through the foreign keys. */
module TimelineModels {
  import opened Text

  /** A `LifePhase` row. */
  datatype LifePhase = LifePhase(
    id: nat,
    phase: string,
    ageRange: string,
    iconName: string,
    colorClass: string,
    iconColorClass: string,
    description: string,
    milestones: seq<string>,
    spiritualAspect: string,
    order: nat,
    isActive: bool)

  /** A `TimelineStory` row with what it reaches through its foreign keys:
      the phase's name and the memorial's name and active flag. Creation
      times are integers. */
  datatype Story = Story(
    id: nat,
    title: string,
    content: string,
    phaseId: nat,
    phaseName: string,
    memorialId: nat,
    memorialName: string,
    memorialActive: bool,
    createdAt: int,
    isFeatured: bool)

  const NoMilestonesText: string := "No milestones"

  /** `get_milestones_display()`: the milestones joined with `", "` in
      order, or the placeholder when there are none. */
  function MilestonesDisplay(p: LifePhase): (r: string)
    ensures |p.milestones| == 0 ==> r == NoMilestonesText
    ensures |p.milestones| == 1 ==> r == p.milestones[0]
  {
    ListDisplay(p.milestones, NoMilestonesText)
  }

  /** The milestones display lists the milestones in order: splitting it
      on commas and stripping the pieces gives them back when no milestone
      holds a comma or surrounding blanks. */
  lemma MilestonesDisplayRoundTrip(p: LifePhase)
    requires |p.milestones| > 0
    requires forall i :: 0 <= i < |p.milestones| ==> ',' !in p.milestones[i] && IsTrimmed(p.milestones[i])
    ensures StripAll(Split(MilestonesDisplay(p), ',')) == p.milestones
  {
    SplitStripJoin(p.milestones);
  }

  /** `get_icon_component()`: the icon the phase names, passed through
      for the client's icon table. */
  function IconComponent(p: LifePhase): (r: string)
    ensures r == p.iconName
  {
    p.iconName
  }

  /** The two class strings of `get_color_classes()`. */
  datatype ColorClasses = ColorClasses(background: string, icon: string)

  /** `get_color_classes()`: the background is the phase's colour class and
      the icon entry its icon colour class. */
  function GetColorClasses(p: LifePhase): (r: ColorClasses)
    ensures r.background == p.colorClass && r.icon == p.iconColorClass
  {
    ColorClasses(p.colorClass, p.iconColorClass)
  }
}

=== FILE: timeline_page.dfy ===
/** The helpers of the Timeline page (`frontend/src/pages/Timeline.tsx`):
    the phase icon table, the phase cards in `order` with alternating
    sides and field fallbacks, and which state the page shows. */
module TimelinePage {
  import opened Wrappers
  import opened Seqs
  import opened Text
  import opened Ui
  import opened TimelineModels
  import opened TimelineViews

  /** The phase icon `switch`, on the lower-cased icon name; three names
      have a short alias. */
  const PhaseCases: Cases := [
    ("baby", Baby), ("graduationcap", GraduationCap), ("graduation", GraduationCap),
    ("heart", Heart), ("briefcase", Briefcase), ("work", Briefcase),
    ("treepine", TreePine), ("tree", TreePine)]

  /** `getPhaseIcon`: the icon whose name or alias matches ignoring ASCII
      case, and the star for any other name. */
  function PhaseIcon(iconName: string): (r: Icon)
    ensures forall i :: 0 <= i < |PhaseCases| && Lower(iconName) == PhaseCases[i].0 ==> r == PhaseCases[i].1
    ensures Unlabelled(PhaseCases, Lower(iconName)) ==> r == Star
  {
    assert DistinctLabels(PhaseCases);
    forall i | 0 <= i < |PhaseCases| && Lower(iconName) == PhaseCases[i].0 {
      LookupLabel(PhaseCases, i, Star);
    }
    Lookup(PhaseCases, Lower(iconName), Star)
  }

  /** Each alias with the full name it stands for. */
  const Aliases: seq<(string, string)> := [("graduation", "graduationcap"), ("work", "briefcase"), ("tree", "treepine")]

  /** An alias and its full name, in any ASCII case, select the same icon,
      and it is not the default star. */
  lemma PhaseIconAliases(a: string, b: string, k: int)
    requires 0 <= k < |Aliases|
    requires Lower(a) == Aliases[k].0 && Lower(b) == Aliases[k].1
    ensures PhaseIcon(a) == PhaseIcon(b) != Star
  {
    if k == 0 {
      assert PhaseCases[1].0 == Lower(b) && PhaseCases[2].0 == Lower(a);
    } else if k == 1 {
      assert PhaseCases[4].0 == Lower(b) && PhaseCases[5].0 == Lower(a);
    } else {
      assert PhaseCases[6].0 == Lower(b) && PhaseCases[7].0 == Lower(a);
    }
  }

  const DefaultBackground: string := "bg-divine-gold/20"
  const DefaultIconColor: string := "text-eternal-bronze"
  const SpiritualPlaceholder: string := "Spiritual aspects to be explored"

  /** The milestones list: the phase's milestones, or the line saying
      they are still to be added. */
  datatype Milestones = MilestoneList(items: seq<string>) | ToBeAdded

  /** Which half of the timeline a card sits on. */
  datatype Side = LeftSide | RightSide

  /** What a phase card shows. */
  datatype PhaseCard = PhaseCard(
    phaseId: nat,
    order: nat,
    phase: string,
    ageRange: string,
    icon: Icon,
    side: Side,
    background: string,
    iconColor: string,
    milestones: Milestones,
    spiritual: string)

  /** The card of the phase at position `index`: even positions sit on the
      left; an empty colour class, icon colour, milestone list or spiritual
      aspect falls back to its default. */
  function Card(p: LifePhase, index: nat): (c: PhaseCard)
    ensures c.phaseId == p.id && c.order == p.order && c.phase == p.phase
    ensures c.icon == PhaseIcon(p.iconName)
    ensures c.side == LeftSide <==> index % 2 == 0
    ensures c.background != "" && c.iconColor != "" && c.spiritual != ""
    ensures p.colorClass != "" ==> c.background == p.colorClass
    ensures p.iconColorClass != "" ==> c.iconColor == p.iconColorClass
    ensures p.spiritualAspect != "" ==> c.spiritual == p.spiritualAspect
    ensures c.milestones.ToBeAdded? <==> |p.milestones| == 0
    ensures c.milestones.MilestoneList? ==> c.milestones.items == p.milestones
  {
    PhaseCard(
      p.id, p.order, p.phase, p.ageRange, PhaseIcon(p.iconName),
      if index % 2 == 0 then LeftSide else RightSide,
      if p.colorClass != "" then p.colorClass else DefaultBackground,
      if p.iconColorClass != "" then p.iconColorClass else DefaultIconColor,
      if |p.milestones| > 0 then MilestoneList(p.milestones) else ToBeAdded,
      if p.spiritualAspect != "" then p.spiritualAspect else SpiritualPlaceholder)
  }

  /** The serialized `icon_component` and `color_classes` say what the card
      shows: the icon the component name selects is the card's icon, and a
      non-empty class in them is the card's class. */
  lemma ServedHelpersAgreeWithCard(p: LifePhase, index: nat)
    ensures PhaseIcon(IconComponent(p)) == Card(p, index).icon
    ensures GetColorClasses(p).background != "" ==> Card(p, index).background == GetColorClasses(p).background
    ensures GetColorClasses(p).background == "" ==> Card(p, index).background == DefaultBackground
    ensures GetColorClasses(p).icon != "" ==> Card(p, index).iconColor == GetColorClasses(p).icon
    ensures GetColorClasses(p).icon == "" ==> Card(p, index).iconColor == DefaultIconColor
  {
  }

  /** `lifePhases.sort((a, b) => a.order - b.order)`. */
  function SortedPhases(phases: seq<LifePhase>): (r: seq<LifePhase>)
    ensures SortedBy(r, PhaseOrder)
    ensures multiset(r) == multiset(phases)
  {
    SortBy(phases, PhaseOrder)
  }

  /** The cards, one per phase in ascending `order`, sides alternating
      from the left. */
  function Cards(phases: seq<LifePhase>): (r: seq<PhaseCard>)
    ensures |r| == |phases|
    ensures forall i, j :: 0 <= i < j < |r| ==> r[i].order <= r[j].order
    ensures forall i :: 0 <= i < |r| ==> r[i] == Card(SortedPhases(phases)[i], i)
    ensures forall i :: 0 <= i < |r| ==> (r[i].side == LeftSide <==> i % 2 == 0)
  {
    var sorted := SortedPhases(phases);
    assert |sorted| == |multiset(sorted)| == |phases|;
    seq(|sorted|, i requires 0 <= i < |sorted| => Card(sorted[i], i))
  }

  /** The phase list the backend serves is already in `order`, so the page
      shows it in the order it arrives. */
  lemma ServedOrderKept(phases: seq<LifePhase>)
    ensures SortedPhases(ActivePhases(phases)) == ActivePhases(phases)
  {
    SortBySorted(ActivePhases(phases), PhaseOrder);
  }

  /** What the page shows. */
  datatype Screen = ErrorState | Loading | Timeline(cards: seq<PhaseCard>) | NoData

  /** The page for the phase query's state: an error replaces everything;
      otherwise the spinner while loading, then the timeline or the
      no-data message. */
  function Page(error: bool, isLoading: bool, phases: Option<seq<LifePhase>>): (r: Screen)
    ensures error <==> r.ErrorState?
    ensures r.Loading? <==> !error && isLoading
    ensures r.NoData? <==> !error && !isLoading && !HasItems(phases)
    ensures r.Timeline? ==> HasItems(phases) && |r.cards| == |phases.value| > 0
  {
    if error then ErrorState
    else if isLoading then Loading
    else if HasItems(phases) then Timeline(Cards(phases.value))
    else NoData
  }
}

=== FILE: timeline_views.dfy ===
/** The timeline endpoints of `backend/timeline/views.py`. Stories are
    visible only while their memorial is active. The story table is a
    sequence in its default order, newest first; the phase table is a
    sequence of rows in any order. */
module TimelineViews {
  import opened Wrappers
  import opened Seqs
  import opened Text
  import opened Api
  import opened TimelineModels

  /** The `featured` parameter: applied whenever present, and true exactly
      when its lower-case form is `true`. */
  function FeaturedParam(p: Option<string>): (r: Option<bool>)
    ensures p.None? <==> r.None?
    ensures r.Some? ==> (r.value <==> Lower(p.value) == "true")
  {
    match p
    case None => None
    case Some(v) => Some(Lower(v) == "true")
  }

  /** Any capitalisation of `true` selects featured stories; an empty or
      other value selects the stories that are not featured. */
  lemma FeaturedParamSpellings()
    ensures FeaturedParam(Some("True")) == Some(true)
    ensures FeaturedParam(Some("TRUE")) == Some(true)
    ensures FeaturedParam(Some("")) == Some(false)
    ensures FeaturedParam(Some("1")) == Some(false)
  {
    assert Lower("True") == "true";
    assert Lower("TRUE") == "true";
    assert Lower("1") == "1";
  }

  /** The story list's query parameters; the phase and memorial ids are the
      numbers the parameters spell. */
  datatype StoryQuery = StoryQuery(lifePhase: Option<nat>, memorial: Option<nat>, featured: Option<string>)

  predicate Matches(q: StoryQuery, s: Story) {
    && (q.lifePhase.Some? ==> s.phaseId == q.lifePhase.value)
    && (q.memorial.Some? ==> s.memorialId == q.memorial.value)
    && (FeaturedParam(q.featured).Some? ==> s.isFeatured == FeaturedParam(q.featured).value)
  }

  predicate Listed(q: StoryQuery, s: Story) {
    s.memorialActive && Matches(q, s)
  }

  /** `get_queryset()`: the visible stories passing the query's filters. */
  function FilterStories(ss: seq<Story>, q: StoryQuery): (r: seq<Story>)
    ensures |r| <= |ss|
    ensures forall i :: 0 <= i < |r| ==> r[i] in ss && r[i].memorialActive && Matches(q, r[i])
    ensures forall i :: 0 <= i < |ss| && ss[i].memorialActive && Matches(q, ss[i]) ==> ss[i] in r
  {
    Filter(ss, (s: Story) => Listed(q, s))
  }

  const FeaturedLimit: nat := 6

  /** The listed stories that are featured, in list order. */
  function FeaturedListed(ss: seq<Story>, q: StoryQuery): (r: seq<Story>)
    ensures forall i :: 0 <= i < |r| ==> r[i].isFeatured && Listed(q, r[i]) && r[i] in ss
    ensures forall i :: 0 <= i < |ss| && ss[i].isFeatured && Listed(q, ss[i]) ==> ss[i] in r
  {
    Filter(FilterStories(ss, q), (s: Story) => s.isFeatured)
  }

  /** `featured`: the first six listed stories that are featured. */
  function FeaturedStories(ss: seq<Story>, q: StoryQuery): (r: seq<Story>)
    ensures |r| == if |FeaturedListed(ss, q)| <= FeaturedLimit then |FeaturedListed(ss, q)| else FeaturedLimit
    ensures r == FeaturedListed(ss, q)[..|r|]
    ensures forall i :: 0 <= i < |r| ==> r[i].isFeatured && r[i].memorialActive && Matches(q, r[i]) && r[i] in ss
    ensures |r| < FeaturedLimit ==>
      forall i :: 0 <= i < |ss| && ss[i].isFeatured && Listed(q, ss[i]) ==> ss[i] in r
  {
    var c := FeaturedListed(ss, q);
    var r := Take(c, FeaturedLimit);
    assert forall i :: 0 <= i < |r| ==> r[i] == c[i];
    r
  }

  /** With `featured=false` the featured endpoint has nothing to show. */
  lemma FeaturedFalseShowsNothing(ss: seq<Story>, q: StoryQuery)
    requires FeaturedParam(q.featured) == Some(false)
    ensures FeaturedStories(ss, q) == []
  {
    FilterNone(FilterStories(ss, q), (s: Story) => s.isFeatured);
  }

  /** The answer of `by_memorial` and `by_phase`. */
  datatype Grouped =
    | MissingParam                                          // 400
    | MalformedParam                                        // the database rejects the id
    | Groups(groups: seq<(string, seq<Story>)>, total: nat) // 200

  function OfMemorial(s: Story, id: int): bool {
    s.memorialId == id
  }

  function OfPhase(s: Story, id: int): bool {
    s.phaseId == id
  }

  function PhaseNameOf(s: Story): string {
    s.phaseName
  }

  function MemorialNameOf(s: Story): string {
    s.memorialName
  }

  /** `by_memorial`: 400 without a `memorial_id`; otherwise the memorial's
      listed stories grouped by phase name. Each story lands in exactly the
      group of its phase, groups keep the list order, and the total is the
      sum of the group sizes. */
  method ByMemorial(ss: seq<Story>, q: StoryQuery, memorialId: Option<string>) returns (r: Grouped)
    ensures !Given(memorialId) <==> r.MissingParam?
    ensures r.Groups? ==> Given(memorialId) && ParseId(memorialId.value).Some?
    ensures r.Groups? ==>
      var found := LookupById(memorialId, FilterStories(ss, q), OfMemorial);
      && found.Rows?
      && GroupsOf(r.groups, found.items, PhaseNameOf)
      && r.total == |found.items|
  {
    match LookupById(memorialId, FilterStories(ss, q), OfMemorial)
    case MissingId => r := MissingParam;
    case MalformedId => r := MalformedParam;
    case Rows(stories) =>
      var groups := GroupBy(stories, PhaseNameOf);
      assert GroupsOf(groups, stories, PhaseNameOf);
      r := Groups(groups, |stories|);
  }

  /** `by_phase`: the same, for a `phase_id`, grouped by memorial name. */
  method ByPhase(ss: seq<Story>, q: StoryQuery, phaseId: Option<string>) returns (r: Grouped)
    ensures !Given(phaseId) <==> r.MissingParam?
    ensures r.Groups? ==> Given(phaseId) && ParseId(phaseId.value).Some?
    ensures r.Groups? ==>
      var found := LookupById(phaseId, FilterStories(ss, q), OfPhase);
      && found.Rows?
      && GroupsOf(r.groups, found.items, MemorialNameOf)
      && r.total == |found.items|
  {
    match LookupById(phaseId, FilterStories(ss, q), OfPhase)
    case MissingId => r := MissingParam;
    case MalformedId => r := MalformedParam;
    case Rows(stories) =>
      var groups := GroupBy(stories, MemorialNameOf);
      assert GroupsOf(groups, stories, MemorialNameOf);
      r := Groups(groups, |stories|);
  }

  function PhaseOrder(p: LifePhase): int {
    p.order
  }

  /** The phase list: the active phases in ascending `order`. */
  function ActivePhases(phases: seq<LifePhase>): (r: seq<LifePhase>)
    ensures SortedBy(r, PhaseOrder)
    ensures multiset(r) == multiset(Filter(phases, (p: LifePhase) => p.isActive))
  {
    SortBy(Filter(phases, (p: LifePhase) => p.isActive), PhaseOrder)
  }

  /** The visible stories of phase `p`, newest first. */
  function PhaseStories(ss: seq<Story>, p: LifePhase): (r: seq<Story>)
    ensures forall i :: 0 <= i < |r| ==> r[i] in ss && r[i].phaseId == p.id && r[i].memorialActive
    ensures forall i :: 0 <= i < |ss| && ss[i].phaseId == p.id && ss[i].memorialActive ==> ss[i] in r
  {
    Filter(ss, (s: Story) => s.phaseId == p.id && s.memorialActive)
  }

  const OrderedLimit: nat := 3

  /** The featured visible stories of phase `p`, newest first. */
  function PhaseFeatured(ss: seq<Story>, p: LifePhase): (r: seq<Story>)
    ensures forall i :: 0 <= i < |r| ==> r[i].isFeatured && r[i].phaseId == p.id && r[i].memorialActive && r[i] in ss
    ensures forall i :: 0 <= i < |ss| && ss[i].isFeatured && ss[i].phaseId == p.id && ss[i].memorialActive ==> ss[i] in r
  {
    Filter(PhaseStories(ss, p), (s: Story) => s.isFeatured)
  }

  /** One phase of `ordered`: at most three featured stories. */
  function FeaturedOfPhase(ss: seq<Story>, p: LifePhase): (r: seq<Story>)
    ensures |r| == if |PhaseFeatured(ss, p)| <= OrderedLimit then |PhaseFeatured(ss, p)| else OrderedLimit
    ensures r == PhaseFeatured(ss, p)[..|r|]
    ensures forall i :: 0 <= i < |r| ==> r[i].isFeatured && r[i].phaseId == p.id && r[i].memorialActive && r[i] in ss
    ensures |r| < OrderedLimit ==>
      forall i :: 0 <= i < |ss| && ss[i].isFeatured && ss[i].phaseId == p.id && ss[i].memorialActive ==> ss[i] in r
  {
    var c := PhaseFeatured(ss, p);
    var r := Take(c, OrderedLimit);
    assert forall i :: 0 <= i < |r| ==> r[i] == c[i];
    r
  }

  /** `ordered`: each active phase, in order, with its featured stories. */
  function Ordered(phases: seq<LifePhase>, ss: seq<Story>): (r: seq<(LifePhase, seq<Story>)>)
    ensures |r| == |ActivePhases(phases)|
    ensures forall i :: 0 <= i < |r| ==> r[i].0 == ActivePhases(phases)[i] && |r[i].1| <= OrderedLimit
    ensures forall i :: 0 <= i < |r| ==> r[i].1 == FeaturedOfPhase(ss, r[i].0)
    ensures forall i, j :: 0 <= i < |r| && 0 <= j < |r[i].1| ==> r[i].1[j].phaseId == r[i].0.id && r[i].1[j].isFeatured
  {
    Map(ActivePhases(phases), (p: LifePhase) => (p, FeaturedOfPhase(ss, p)))
  }

  const SampleLimit: nat := 2

  function IsFeatured(s: Story): bool {
    s.isFeatured
  }

  function NotFeatured(s: Story): bool {
    !s.isFeatured
  }

  /** Stories of a phase ordered featured first, then newest first: the
      featured ones and then the others, each keeping table order. */
  function FeaturedFirst(stories: seq<Story>): (r: seq<Story>)
    ensures multiset(r) == multiset(stories)
    ensures forall i, j :: 0 <= i < j < |r| && r[j].isFeatured ==> r[i].isFeatured
    ensures Filter(r, IsFeatured) == Filter(stories, IsFeatured)
    ensures Filter(r, NotFeatured) == Filter(stories, NotFeatured)
  {
    var f := Filter(stories, IsFeatured);
    var o := Filter(stories, NotFeatured);
    FilterSplitsMultiset(stories, IsFeatured, NotFeatured);
    FilterAppend(f, o, IsFeatured);
    FilterAppend(f, o, NotFeatured);
    FilterIdempotent(stories, IsFeatured);
    FilterIdempotent(stories, NotFeatured);
    FilterNone(o, IsFeatured);
    FilterNone(f, NotFeatured);
    f + o
  }

  /** Filtering by a predicate and by its negation splits the elements. */
  lemma {:induction false} FilterSplitsMultiset<T>(s: seq<T>, p: T -> bool, notP: T -> bool)
    requires forall x :: notP(x) == !p(x)
    ensures multiset(Filter(s, p)) + multiset(Filter(s, notP)) == multiset(s)
  {
    if |s| > 0 {
      FilterSplitsMultiset(s[1..], p, notP);
      assert s == [s[0]] + s[1..];
    }
  }

  /** One phase of `complete_timeline`: at most two stories, featured ones
      first. */
  function SampleOfPhase(ss: seq<Story>, p: LifePhase): (r: seq<Story>)
    ensures |r| <= SampleLimit
    ensures |r| == if |PhaseStories(ss, p)| <= SampleLimit then |PhaseStories(ss, p)| else SampleLimit
    ensures r == FeaturedFirst(PhaseStories(ss, p))[..|r|]
    ensures forall i :: 0 <= i < |r| ==> r[i] in PhaseStories(ss, p)
    ensures forall i, j :: 0 <= i < j < |r| && r[j].isFeatured ==> r[i].isFeatured
  {
    var sorted := FeaturedFirst(PhaseStories(ss, p));
    assert |sorted| == |multiset(sorted)| == |PhaseStories(ss, p)|;
    var r := Take(sorted, SampleLimit);
    forall i | 0 <= i < |r|
      ensures r[i] in PhaseStories(ss, p)
    {
      assert r[i] == sorted[i];
      assert r[i] in multiset(sorted);
    }
    r
  }

  /** When a phase has a featured story, the first sample is featured. */
  lemma SampleStartsFeatured(ss: seq<Story>, p: LifePhase, k: int)
    requires 0 <= k < |PhaseStories(ss, p)| && PhaseStories(ss, p)[k].isFeatured
    ensures |SampleOfPhase(ss, p)| > 0 && SampleOfPhase(ss, p)[0].isFeatured
  {
    var stories := PhaseStories(ss, p);
    var f := Filter(stories, IsFeatured);
    assert stories[k] in f;
    assert FeaturedFirst(stories)[0] == f[0];
  }

  /** The `complete_timeline` answer: the phases with samples and their count. */
  datatype CompleteTimeline = CompleteTimeline(timeline: seq<(LifePhase, seq<Story>)>, totalPhases: nat)

  /** `complete_timeline`: each active phase, in order, with up to two
      sample stories; the total is the number of phases listed. */
  function Complete(phases: seq<LifePhase>, ss: seq<Story>): (r: CompleteTimeline)
    ensures r.totalPhases == |r.timeline| == |ActivePhases(phases)|
    ensures forall i :: 0 <= i < |r.timeline| ==>
      r.timeline[i].0 == ActivePhases(phases)[i] && |r.timeline[i].1| <= SampleLimit
    ensures forall i :: 0 <= i < |r.timeline| ==> r.timeline[i].1 == SampleOfPhase(ss, r.timeline[i].0)
  {
    var t := Map(ActivePhases(phases), (p: LifePhase) => (p, SampleOfPhase(ss, p)));
    CompleteTimeline(t, |t|)
  }
}

=== FILE: ui.dfy ===
/** What the React pages share: the icons they draw, the `switch` that
    picks an icon by name, and the truthiness tests on fetched data. */
module Ui {
  import opened Wrappers
  import opened Text

  /** The lucide-react icons the pages and the memorial card choose between. */
  datatype Icon =
    | Baby | GraduationCap | Heart | Briefcase | TreePine | Star
    | Shield | Infinity | Gem | Crown | TrendingUp | Users | Zap
    | Eye | Headphones | QrCode | Smartphone | Video | Globe
    | Camera | Music | BookOpen | Cross | Moon

  /** The cases of a `switch` on a string: each label with the icon it returns. */
  type Cases = seq<(string, Icon)>

  /** No label occurs twice, so every label reaches its own case. */
  predicate DistinctLabels(cases: Cases) {
    forall i, j :: 0 <= i < j < |cases| ==> cases[i].0 != cases[j].0
  }

  /** No case has `key` as its label. */
  predicate Unlabelled(cases: Cases, key: string) {
    forall i :: 0 <= i < |cases| ==> cases[i].0 != key
  }

  /** `switch (key) { case …: return …; default: return default; }`: the
      icon of the first case labelled `key`, or the default when none is. */
  function Lookup(cases: Cases, key: string, default: Icon): (r: Icon)
    ensures forall i :: 0 <= i < |cases| && cases[i].0 == key && Unlabelled(cases[..i], key) ==> r == cases[i].1
    ensures Unlabelled(cases, key) ==> r == default
  {
    if |cases| == 0 then default
    else if cases[0].0 == key then cases[0].1
    else
      var r := Lookup(cases[1..], key, default);
      assert forall i :: 1 <= i < |cases| ==> cases[1..][..i - 1] == cases[..i][1..];
      r
  }

  /** With distinct labels, every label selects its own case. */
  lemma LookupLabel(cases: Cases, i: int, default: Icon)
    requires DistinctLabels(cases)
    requires 0 <= i < |cases|
    ensures Lookup(cases, cases[i].0, default) == cases[i].1
  {
    assert Unlabelled(cases[..i], cases[i].0);
  }

  /** A string with no upper-case ASCII letter, which lower-casing leaves alone. */
  predicate LowerCase(s: string) {
    forall i :: 0 <= i < |s| ==> !('A' <= s[i] <= 'Z')
  }

  lemma LowerOfLowerCase(s: string)
    requires LowerCase(s)
    ensures Lower(s) == s
  {
  }

  /** `data && data.length > 0` on a fetched list that may still be `undefined`. */
  predicate HasItems<T>(data: Option<seq<T>>) {
    data.Some? && |data.value| > 0
  }
}

=== FILE: wakeroom_admin.dfy ===
/** The WakeRoom admin actions of `backend/wakeroom/admin.py`: bulk status
    and featured updates on experiences, and the session actions. The
    selection is a set of row ids; each action reports how many rows it
    touched. */
module WakeRoomAdmin {
  import opened Wrappers
  import opened Seqs
  import opened WakeRoomModels

  /** A bulk action's report and the table after it. */
  datatype BulkUpdate<T> = BulkUpdate(updated: nat, table: seq<T>)

  function ExperienceSelected(selected: set<nat>): Experience -> bool {
    (e: Experience) => e.id.Some? && e.id.value in selected
  }

  /** `queryset.update(...)` on the selected experiences. */
  function UpdateExperiences(table: seq<Experience>, selected: set<nat>, change: Experience -> Experience)
    : (r: BulkUpdate<Experience>)
    ensures r.updated == Count(table, ExperienceSelected(selected)) && r.updated <= |table|
    ensures |r.table| == |table|
    ensures forall i :: 0 <= i < |table| ==>
      r.table[i] == if ExperienceSelected(selected)(table[i]) then change(table[i]) else table[i]
  {
    var (n, t) := UpdateWhere(table, ExperienceSelected(selected), change);
    BulkUpdate(n, t)
  }

  /** `activate_experiences`: the selected experiences become active and
      nothing else about any row changes. */
  function ActivateExperiences(table: seq<Experience>, selected: set<nat>): (r: BulkUpdate<Experience>)
    ensures r.updated == Count(table, ExperienceSelected(selected))
    ensures |r.table| == |table|
    ensures forall i :: 0 <= i < |table| ==>
      if table[i].id.Some? && table[i].id.value in selected
      then r.table[i] == table[i].(status := Active) && IsAvailable(r.table[i])
      else r.table[i] == table[i]
  {
    UpdateExperiences(table, selected, (e: Experience) => e.(status := Active))
  }

  /** `deactivate_experiences`: the selected experiences go back to draft,
      not to archived. */
  function DeactivateExperiences(table: seq<Experience>, selected: set<nat>): (r: BulkUpdate<Experience>)
    ensures r.updated == Count(table, ExperienceSelected(selected))
    ensures |r.table| == |table|
    ensures forall i :: 0 <= i < |table| ==>
      if table[i].id.Some? && table[i].id.value in selected
      then r.table[i] == table[i].(status := Draft) && !IsAvailable(r.table[i])
      else r.table[i] == table[i]
  {
    UpdateExperiences(table, selected, (e: Experience) => e.(status := Draft))
  }

  /** `mark_featured` and `unmark_featured`: only the featured flag of the
      selected experiences changes. */
  function SetFeatured(table: seq<Experience>, selected: set<nat>, featured: bool): (r: BulkUpdate<Experience>)
    ensures r.updated == Count(table, ExperienceSelected(selected))
    ensures |r.table| == |table|
    ensures forall i :: 0 <= i < |table| ==>
      if table[i].id.Some? && table[i].id.value in selected
      then r.table[i].isFeatured == featured && r.table[i].(isFeatured := table[i].isFeatured) == table[i]
      else r.table[i] == table[i]
  {
    UpdateExperiences(table, selected, (e: Experience) => e.(isFeatured := featured))
  }

  function MarkFeatured(table: seq<Experience>, selected: set<nat>): (r: BulkUpdate<Experience>)
    ensures r.updated == Count(table, ExperienceSelected(selected)) && |r.table| == |table|
    ensures forall i :: 0 <= i < |table| ==>
      r.table[i].isFeatured == (table[i].isFeatured || ExperienceSelected(selected)(table[i]))
    ensures forall i :: 0 <= i < |table| ==> r.table[i].(isFeatured := table[i].isFeatured) == table[i]
  {
    SetFeatured(table, selected, true)
  }

  function UnmarkFeatured(table: seq<Experience>, selected: set<nat>): (r: BulkUpdate<Experience>)
    ensures r.updated == Count(table, ExperienceSelected(selected)) && |r.table| == |table|
    ensures forall i :: 0 <= i < |table| ==>
      r.table[i].isFeatured == (table[i].isFeatured && !ExperienceSelected(selected)(table[i]))
    ensures forall i :: 0 <= i < |table| ==> r.table[i].(isFeatured := table[i].isFeatured) == table[i]
  {
    SetFeatured(table, selected, false)
  }

  /** Unmarking undoes marking for a selection of experiences that were not
      featured before. */
  lemma UnmarkUndoesMark(table: seq<Experience>, selected: set<nat>)
    requires forall i :: 0 <= i < |table| && ExperienceSelected(selected)(table[i]) ==> !table[i].isFeatured
    ensures UnmarkFeatured(MarkFeatured(table, selected).table, selected).table == table
  {
    var m := MarkFeatured(table, selected).table;
    var u := UnmarkFeatured(m, selected).table;
    forall i | 0 <= i < |table|
      ensures u[i] == table[i]
    {
      assert m[i].id == table[i].id;
    }
  }

  /** Deactivating after activating leaves the selected rows in draft and
      the others as they were: the two actions do not undo each other. */
  lemma DeactivateAfterActivate(table: seq<Experience>, selected: set<nat>)
    ensures DeactivateExperiences(ActivateExperiences(table, selected).table, selected).table
      == DeactivateExperiences(table, selected).table
  {
    var a := ActivateExperiences(table, selected).table;
    var l := DeactivateExperiences(a, selected).table;
    var r := DeactivateExperiences(table, selected).table;
    assert |l| == |r|;
    forall i | 0 <= i < |l|
      ensures l[i] == r[i]
    {
      assert a[i].id == table[i].id;
    }
  }

  function SessionSelected(selected: set<nat>): Session -> bool {
    (s: Session) => s.id in selected
  }

  function SelectedAndActive(selected: set<nat>): Session -> bool {
    (s: Session) => s.id in selected && IsActive(s)
  }

  function SelectedAndEnded(selected: set<nat>): Session -> bool {
    (s: Session) => s.id in selected && !IsActive(s)
  }

  /** `end_sessions` at time `now`: each selected open session is ended; the
      count is the number of those sessions. */
  function EndSessions(table: seq<Session>, selected: set<nat>, now: int): (r: BulkUpdate<Session>)
    ensures r.updated == Count(table, SelectedAndActive(selected))
    ensures |r.table| == |table|
    ensures forall i :: 0 <= i < |table| ==>
      (table[i].id in selected ==> !IsActive(r.table[i]))
      && (table[i].id in selected && IsActive(table[i]) ==> r.table[i].endTime == Some(now))
      && (table[i].id !in selected || !IsActive(table[i]) ==> r.table[i] == table[i])
  {
    var (n, t) := UpdateWhere(table, SelectedAndActive(selected), (s: Session) => EndSession(s, now));
    BulkUpdate(n, t)
  }

  /** Sessions that already have an end time are never counted nor changed
      by `end_sessions`. */
  lemma EndSessionsSkipsEnded(table: seq<Session>, selected: set<nat>, now: int)
    requires forall i :: 0 <= i < |table| ==> !IsActive(table[i])
    ensures EndSessions(table, selected, now) == BulkUpdate(0, table)
  {
    var r := EndSessions(table, selected, now);
    CountIsFilterSize(table, SelectedAndActive(selected));
    FilterNone(table, SelectedAndActive(selected));
    assert r.table == table;
  }

  /** `calculate_durations`: every selected session that has an end time is
      passed through `end_session()` again and counted. */
  function CalculateDurations(table: seq<Session>, selected: set<nat>, now: int): (r: BulkUpdate<Session>)
    ensures r.updated == Count(table, SelectedAndEnded(selected))
    ensures |r.table| == |table|
  {
    var (n, t) := UpdateWhere(table, SelectedAndEnded(selected), (s: Session) => EndSession(s, now));
    BulkUpdate(n, t)
  }

  /** Because `end_session()` does nothing to an ended session, recalculating
      durations changes no row, although it reports a count. */
  lemma CalculateDurationsChangesNothing(table: seq<Session>, selected: set<nat>, now: int)
    ensures CalculateDurations(table, selected, now).table == table
  {
    var t := CalculateDurations(table, selected, now).table;
    assert forall i :: 0 <= i < |table| ==> t[i] == table[i];
  }

  /** The bulk actions and the add and delete buttons of the session admin;
      the change form of one session is `ChangeSession`. */
  datatype SessionAdminAction =
    | AddSession(s: Session)
    | DeleteSessions(selected: set<nat>)
    | EndSelected(selected: set<nat>)
    | RecalculateSelected(selected: set<nat>)

  /** `has_add_permission` and `has_delete_permission` always refuse. */
  predicate Permitted(a: SessionAdminAction) {
    !a.AddSession? && !a.DeleteSessions?
  }

  /** The session table after admin action `a` at time `now`: refused
      actions leave it as it was. */
  function ApplySessionAdmin(table: seq<Session>, a: SessionAdminAction, now: int): (r: seq<Session>)
    ensures !Permitted(a) ==> r == table
  {
    match a
    case AddSession(_) => table
    case DeleteSessions(_) => table
    case EndSelected(sel) => EndSessions(table, sel, now).table
    case RecalculateSelected(sel) => CalculateDurations(table, sel, now).table
  }

  /** Whatever bulk action the admin runs or button the admin presses,
      sessions are neither created nor removed: the table keeps its size and
      each row keeps its id, user, experience and start time. */
  lemma AdminKeepsSessions(table: seq<Session>, a: SessionAdminAction, now: int)
    ensures |ApplySessionAdmin(table, a, now)| == |table|
    ensures forall i :: 0 <= i < |table| ==>
      var s := ApplySessionAdmin(table, a, now)[i];
      s.id == table[i].id && s.user == table[i].user
      && s.experience == table[i].experience && s.startTime == table[i].startTime
  {
    match a
    case EndSelected(sel) =>
    case RecalculateSelected(sel) => CalculateDurationsChangesNothing(table, sel, now);
    case _ =>
  }

  /** The change form of the session at position `i`: every field but the
      read-only `id` and `start_time` takes the submitted value. A position
      with no session (the admin's 404) changes nothing. */
  function ChangeSession(table: seq<Session>, i: nat, submitted: Session): (r: seq<Session>)
    ensures |r| == |table|
    ensures forall j :: 0 <= j < |table| && j != i ==> r[j] == table[j]
    ensures i < |table| ==> r[i].id == table[i].id && r[i].startTime == table[i].startTime
    ensures i < |table| ==> r[i].(id := submitted.id, startTime := submitted.startTime) == submitted
  {
    if i < |table| then table[i := submitted.(id := table[i].id, startTime := table[i].startTime)] else table
  }

  /** Unlike the bulk actions, the change form can move a session to another
      user and experience; its id and start time still stay. */
  lemma ChangeFormReassigns(table: seq<Session>, i: nat, user: nat, experience: nat)
    requires i < |table|
    ensures var r := ChangeSession(table, i, table[i].(user := user, experience := experience));
      r[i] == table[i].(user := user, experience := experience)
  {
  }
}

=== FILE: wakeroom_models.dfy ===
/** The WakeRoom records of `backend/wakeroom/models.py`: immersive
    experiences with their derived lists and duration text, and the user
    sessions inside them. Times are integer microseconds. */
module WakeRoomModels {
  import opened Wrappers
  import opened Seqs
  import opened Text
  import opened Money

  datatype ExperienceType = AR | VR | Video360 | Interactive | Audio

  function ExperienceTypeCode(t: ExperienceType): string {
    match t
    case AR => "AR"
    case VR => "VR"
    case Video360 => "360"
    case Interactive => "INTERACTIVE"
    case Audio => "AUDIO"
  }

  function ExperienceTypeName(t: ExperienceType): string {
    match t
    case AR => "Augmented Reality"
    case VR => "Virtual Reality"
    case Video360 => "360° Video"
    case Interactive => "Interactive Demo"
    case Audio => "Spatial Audio"
  }

  /** `EXPERIENCE_TYPES` in declaration order. */
  const AllExperienceTypes: seq<ExperienceType> := [AR, VR, Video360, Interactive, Audio]

  datatype ExperienceStatus = Draft | Active | Maintenance | Archived

  function ExperienceStatusCode(s: ExperienceStatus): string {
    match s
    case Draft => "draft"
    case Active => "active"
    case Maintenance => "maintenance"
    case Archived => "archived"
  }

  /** A `WakeRoomExperience` row. `id` is `None` before the first save; a
      media file is present when its stored name is non-empty. */
  datatype Experience = Experience(
    id: Option<nat>,
    title: string,
    experienceType: ExperienceType,
    status: ExperienceStatus,
    demoVideo: string,
    thumbnailImage: string,
    arModelFile: string,
    vrSceneFile: string,
    qrCodeRequired: bool,
    qrCodeData: string,
    nfcEnabled: bool,
    durationMinutes: nat,
    requiresHeadset: bool,
    spatialAudio: bool,
    isFeatured: bool,
    memorials: set<nat>)

  const ExperiencePathPrefix: string := "/wakeroom/experience/"

  /** `save()`: an experience that needs a QR code and has no QR data gets
      the experience path, written with the id as it stands before the
      save. Nothing else changes, and existing data is kept. */
  function SaveExperience(e: Experience): (r: Experience)
    ensures r == e.(qrCodeData := r.qrCodeData)
    ensures e.qrCodeData != "" || !e.qrCodeRequired ==> r == e
    ensures e.qrCodeRequired ==> r.qrCodeData != ""
    ensures e.qrCodeRequired && e.qrCodeData == "" ==>
      |ExperiencePathPrefix| <= |r.qrCodeData| && r.qrCodeData[..|ExperiencePathPrefix|] == ExperiencePathPrefix
  {
    if e.qrCodeRequired && e.qrCodeData == "" then
      e.(qrCodeData := ExperiencePathPrefix + IdText(e.id))
    else e
  }

  /** Saving twice is saving once. */
  lemma SaveExperienceIdempotent(e: Experience)
    ensures SaveExperience(SaveExperience(e)) == SaveExperience(e)
  {
  }

  /** The generated QR path names the experience: reading the number after
      the prefix gives back the id of a stored experience. */
  lemma SaveExperiencePathNamesId(e: Experience, n: nat)
    requires e.qrCodeRequired && e.qrCodeData == "" && e.id == Some(n)
    ensures var d := SaveExperience(e).qrCodeData;
            ReadNat(d[|ExperiencePathPrefix|..]) == Some((n, ""))
  {
    var d := SaveExperience(e).qrCodeData;
    assert d[|ExperiencePathPrefix|..] == NatToString(n) + "";
    ReadNatToString(n, "");
  }

  /** The media slots in their fixed order: kind and stored file name. */
  function MediaSlots(e: Experience): seq<(string, string)> {
    [("video", e.demoVideo), ("image", e.thumbnailImage), ("ar_model", e.arModelFile), ("vr_scene", e.vrSceneFile)]
  }

  function IsPresent(slot: (string, string)): bool {
    slot.1 != ""
  }

  /** `get_media_files()`: the present files, each tagged with its kind,
      appended in the order video, image, AR model, VR scene. */
  function MediaFiles(e: Experience): (r: seq<(string, string)>)
    ensures |r| <= 4
    ensures forall i :: 0 <= i < |r| ==> r[i].1 != ""
  {
    (if e.demoVideo != "" then [("video", e.demoVideo)] else [])
    + (if e.thumbnailImage != "" then [("image", e.thumbnailImage)] else [])
    + (if e.arModelFile != "" then [("ar_model", e.arModelFile)] else [])
    + (if e.vrSceneFile != "" then [("vr_scene", e.vrSceneFile)] else [])
  }

  lemma FilterSingle<T>(x: T, p: T -> bool)
    ensures Filter([x], p) == if p(x) then [x] else []
  {
    assert [x][1..] == [];
  }

  lemma FilterFour<T>(a: T, b: T, c: T, d: T, p: T -> bool)
    ensures Filter([a, b, c, d], p)
      == (if p(a) then [a] else []) + (if p(b) then [b] else []) + (if p(c) then [c] else []) + (if p(d) then [d] else [])
  {
    assert [a, b, c, d] == [a] + [b] + [c] + [d];
    FilterAppend([a] + [b] + [c], [d], p);
    FilterAppend([a] + [b], [c], p);
    FilterAppend([a], [b], p);
    FilterSingle(a, p);
    FilterSingle(b, p);
    FilterSingle(c, p);
    FilterSingle(d, p);
  }

  /** The media list is the fixed slot list with the empty slots dropped:
      exactly the present files, in slot order. */
  lemma MediaFilesAreThePresentSlots(e: Experience)
    ensures MediaFiles(e) == Filter(MediaSlots(e), IsPresent)
  {
    var s := MediaSlots(e);
    FilterFour(s[0], s[1], s[2], s[3], IsPresent);
  }

  /** The requirement flags in their fixed order, with their labels. */
  function RequirementSlots(e: Experience): seq<(bool, string)> {
    [(e.requiresHeadset, "VR Headset"), (e.spatialAudio, "Spatial Audio Headphones"),
     (e.nfcEnabled, "NFC-enabled Device"), (e.qrCodeRequired, "QR Code Scanner")]
  }

  function Enabled(slot: (bool, string)): bool {
    slot.0
  }

  function Label(slot: (bool, string)): string {
    slot.1
  }

  function Flagged(flag: bool, text: string): seq<string> {
    if flag then [text] else []
  }

  /** `get_technology_requirements()`: one label per enabled flag. */
  function TechRequirements(e: Experience): (r: seq<string>)
    ensures |r| <= 4
  {
    Flagged(e.requiresHeadset, "VR Headset")
    + Flagged(e.spatialAudio, "Spatial Audio Headphones")
    + Flagged(e.nfcEnabled, "NFC-enabled Device")
    + Flagged(e.qrCodeRequired, "QR Code Scanner")
  }

  /** The four labels have different lengths, so no two are equal. */
  lemma LabelsDiffer()
    ensures |"VR Headset"| == 10 && |"Spatial Audio Headphones"| == 24
    ensures |"NFC-enabled Device"| == 18 && |"QR Code Scanner"| == 15
  {
  }

  lemma InFlagged(x: string, flag: bool, text: string)
    ensures x in Flagged(flag, text) <==> flag && x == text
  {
  }

  /** Each requirement is listed exactly when its flag is set. */
  lemma TechRequirementsListEnabledFlags(e: Experience)
    ensures var r := TechRequirements(e);
            && ("VR Headset" in r <==> e.requiresHeadset)
            && ("Spatial Audio Headphones" in r <==> e.spatialAudio)
            && ("NFC-enabled Device" in r <==> e.nfcEnabled)
            && ("QR Code Scanner" in r <==> e.qrCodeRequired)
  {
    LabelsDiffer();
    var a := Flagged(e.requiresHeadset, "VR Headset");
    var b := Flagged(e.spatialAudio, "Spatial Audio Headphones");
    var c := Flagged(e.nfcEnabled, "NFC-enabled Device");
    var d := Flagged(e.qrCodeRequired, "QR Code Scanner");
    assert TechRequirements(e) == a + b + c + d;
    forall x: string
      ensures x in a + b + c + d <==> x in a || x in b || x in c || x in d
    {
    }
  }

  /** No requirement is listed twice. */
  lemma TechRequirementsDistinct(e: Experience)
    ensures Distinct(TechRequirements(e))
  {
    LabelsDiffer();
    var s := RequirementSlots(e);
    TechRequirementsAreTheEnabledSlots(e);
    assert |Label(s[0])| == 10 && |Label(s[1])| == 24 && |Label(s[2])| == 18 && |Label(s[3])| == 15;
    forall i, j | 0 <= i < j < |s|
      ensures Label(s[i]) != Label(s[j])
    {
      assert |Label(s[i])| != |Label(s[j])|;
    }
    MapFilterDistinct(s, Enabled, Label);
  }

  /** The requirements are the labels of the enabled flags in the fixed
      order headset, spatial audio, NFC, QR. */
  lemma TechRequirementsAreTheEnabledSlots(e: Experience)
    ensures TechRequirements(e) == Map(Filter(RequirementSlots(e), Enabled), Label)
  {
    var s0, s1, s2, s3 := (e.requiresHeadset, "VR Headset"), (e.spatialAudio, "Spatial Audio Headphones"),
      (e.nfcEnabled, "NFC-enabled Device"), (e.qrCodeRequired, "QR Code Scanner");
    assert RequirementSlots(e) == [s0, s1, s2, s3];
    FilterFour(s0, s1, s2, s3, Enabled);
    var a := if Enabled(s0) then [s0] else [];
    var b := if Enabled(s1) then [s1] else [];
    var c := if Enabled(s2) then [s2] else [];
    var d := if Enabled(s3) then [s3] else [];
    MapAppend(a + b + c, d, Label);
    MapAppend(a + b, c, Label);
    MapAppend(a, b, Label);
    MapKept(s0);
    MapKept(s1);
    MapKept(s2);
    MapKept(s3);
  }

  /** A slot kept by the filter maps to its label, a dropped one to nothing. */
  lemma MapKept(slot: (bool, string))
    ensures Map(if Enabled(slot) then [slot] else [], Label) == Flagged(slot.0, slot.1)
  {
  }

  predicate IsAvailable(e: Experience) {
    e.status == Active
  }

  const MinutesPerHour: nat := 60

  /** `get_experience_duration()`: `"N minutes"` under an hour (so `"1
      minutes"`), `"H hour"` or `"H hours"` on a whole number of hours, and
      `"Hh Mm"` otherwise. */
  function ExperienceDuration(d: nat): (r: string)
    ensures d < MinutesPerHour ==> r == NatToString(d) + " minutes"
    ensures d >= MinutesPerHour && d % MinutesPerHour == 0 ==>
      r == NatToString(d / MinutesPerHour) + (if d / MinutesPerHour > 1 then " hours" else " hour")
  {
    if d < MinutesPerHour then NatToString(d) + " minutes"
    else
      var hours := d / MinutesPerHour;
      var minutes := d % MinutesPerHour;
      if minutes == 0 then NatToString(hours) + " hour" + (if hours > 1 then "s" else "")
      else NatToString(hours) + "h " + NatToString(minutes) + "m"
  }

  /** Reads a duration text back into minutes. */
  function ReadExperienceDuration(s: string): Option<nat> {
    match ReadNat(s)
    case None => None
    case Some((n, rest)) =>
      if rest == " minutes" then Some(n)
      else if rest == " hour" || rest == " hours" then Some(n * MinutesPerHour)
      else if |rest| >= 2 && rest[..2] == "h " then
        match ReadNat(rest[2..])
        case Some((m, "m")) => Some(n * MinutesPerHour + m)
        case _ => None
      else None
  }

  lemma WholeHoursRoundTrip(d: nat)
    requires d >= MinutesPerHour && d % MinutesPerHour == 0
    ensures ReadExperienceDuration(ExperienceDuration(d)) == Some(d)
  {
    var hours := d / MinutesPerHour;
    var suffix := if hours > 1 then " hours" else " hour";
    assert ExperienceDuration(d) == NatToString(hours) + suffix;
    ReadNatToString(hours, suffix);
  }

  lemma HoursAndMinutesRoundTrip(d: nat)
    requires d % MinutesPerHour != 0 && d >= MinutesPerHour
    ensures ReadExperienceDuration(ExperienceDuration(d)) == Some(d)
  {
    var hours, minutes := d / MinutesPerHour, d % MinutesPerHour;
    assert hours * MinutesPerHour + minutes == d;
    var h, m := NatToString(hours), NatToString(minutes);
    assert ExperienceDuration(d) == h + "h " + m + "m";
    Regroup4(h, "h ", m, "m");
    ReadHoursAndMinutes(hours, minutes);
  }

  /** `"Hh Mm"` reads back as `H` hours and `M` minutes. */
  lemma ReadHoursAndMinutes(hours: nat, minutes: nat)
    ensures ReadExperienceDuration(NatToString(hours) + ("h " + (NatToString(minutes) + "m")))
      == Some(hours * MinutesPerHour + minutes)
  {
    var rest := "h " + (NatToString(minutes) + "m");
    ReadNatToString(hours, rest);
    assert rest[..2] == "h " && rest[2..] == NatToString(minutes) + "m";
    assert rest != " minutes" && rest != " hour" && rest != " hours" by {
      assert rest[0] == 'h';
    }
    ReadNatToString(minutes, "m");
  }

  /** The duration text loses nothing: hours times sixty plus minutes is
      the stored number of minutes. */
  lemma ExperienceDurationRoundTrip(d: nat)
    ensures ReadExperienceDuration(ExperienceDuration(d)) == Some(d)
  {
    if d < MinutesPerHour {
      ReadNatToString(d, " minutes");
    } else if d % MinutesPerHour == 0 {
      WholeHoursRoundTrip(d);
    } else {
      HoursAndMinutesRoundTrip(d);
    }
  }

  /** A `WakeRoomSession` row; times in microseconds, durations in seconds. */
  datatype Session = Session(
    id: nat,
    user: nat,
    experience: nat,
    memorial: Option<nat>,
    startTime: int,
    endTime: Option<int>,
    durationSeconds: Option<int>,
    interactionsCount: int,
    completedMilestones: seq<string>,
    userFeedback: string,
    rating: Option<int>)

  const MicrosPerSecond: nat := 1000000

  /** `is_active()`: the session has no end time. */
  predicate IsActive(s: Session) {
    s.endTime.None?
  }

  /** `end_session()` at time `now`: an open session gets `now` as its end
      and the elapsed whole seconds, truncated toward zero, as its duration.
      An ended session is left as it is. */
  function EndSession(s: Session, now: int): (r: Session)
    ensures !IsActive(r)
    ensures !IsActive(s) ==> r == s
    ensures IsActive(s) ==>
      && r == s.(endTime := Some(now), durationSeconds := r.durationSeconds)
      && r.durationSeconds.Some?
      && Abs(r.durationSeconds.value) * MicrosPerSecond <= Abs(now - s.startTime)
      && Abs(now - s.startTime) < (Abs(r.durationSeconds.value) + 1) * MicrosPerSecond
      && (now >= s.startTime ==> r.durationSeconds.value >= 0)
  {
    if IsActive(s) then
      s.(endTime := Some(now), durationSeconds := Some(TruncDiv(now - s.startTime, MicrosPerSecond)))
    else s
  }

  /** Ending twice is ending once, whatever the clock says the second time. */
  lemma EndSessionIdempotent(s: Session, t1: int, t2: int)
    ensures EndSession(EndSession(s, t1), t2) == EndSession(s, t1)
  {
  }

  const ActiveText: string := "Active"

  /** `get_duration_display()`: `"Mm Ss"` with the seconds split by floor
      division, or `"Active"` when there is no duration or it is zero. */
  function DurationDisplay(s: Session): (r: string)
    ensures r == ActiveText <==> s.durationSeconds.None? || s.durationSeconds.value == 0
  {
    if s.durationSeconds.Some? && s.durationSeconds.value != 0 then
      var d := s.durationSeconds.value;
      var r := IntToString(d / 60) + "m " + NatToString(d % 60) + "s";
      assert r[|r| - 1] == 's';
      r
    else ActiveText
  }

  /** Reads a duration display back into seconds. */
  function ReadDurationDisplay(t: string): Option<int> {
    match ReadInt(t)
    case None => None
    case Some((m, rest)) =>
      if |rest| >= 2 && rest[..2] == "m " then
        match ReadNat(rest[2..])
        case Some((sec, "s")) => Some(m * 60 + sec)
        case _ => None
      else None
  }

  /** The display of a non-zero duration gives the duration back: minutes
      times sixty plus seconds. */
  lemma DurationDisplayRoundTrip(s: Session)
    requires s.durationSeconds.Some? && s.durationSeconds.value != 0
    ensures ReadDurationDisplay(DurationDisplay(s)) == s.durationSeconds
  {
    var d := s.durationSeconds.value;
    var rest := "m " + (NatToString(d % 60) + "s");
    Regroup4(IntToString(d / 60), "m ", NatToString(d % 60), "s");
    assert DurationDisplay(s) == IntToString(d / 60) + rest;
    ReadIntToString(d / 60, rest);
    assert rest[..2] == "m " && rest[2..] == NatToString(d % 60) + "s";
    ReadNatToString(d % 60, "s");
  }

  /** A session ended in the same second it started is no longer active,
      yet its duration is zero and so it displays as `"Active"`. */
  lemma InstantSessionDisplaysActive(s: Session, now: int)
    requires IsActive(s) && s.startTime <= now < s.startTime + MicrosPerSecond
    ensures !IsActive(EndSession(s, now))
    ensures DurationDisplay(EndSession(s, now)) == ActiveText
  {
  }
}

=== FILE: wakeroom_page.dfy ===
/** The helpers of the WakeRoom page (`frontend/src/pages/WakeRoom.tsx`):
    the feature icon table, the six-feature grid, and which sections show. */
module WakeRoomPage {
  import opened Wrappers
  import opened Seqs
  import opened Text
  import opened Ui
  import opened WakeRoomModels
  import opened WakeRoomViews

  /** The feature icon `switch`, on the lower-cased icon name. */
  const FeatureCases: Cases := [
    ("eye", Eye), ("headphones", Headphones), ("qrcode", QrCode),
    ("smartphone", Smartphone), ("video", Video), ("globe", Globe),
    ("zap", Zap), ("heart", Heart)]

  /** `getFeatureIcon`: the icon whose name matches ignoring ASCII case,
      and the eye for any other name. */
  function FeatureIcon(iconName: string): (r: Icon)
    ensures forall i :: 0 <= i < |FeatureCases| && Lower(iconName) == FeatureCases[i].0 ==> r == FeatureCases[i].1
    ensures Unlabelled(FeatureCases, Lower(iconName)) ==> r == Eye
  {
    assert DistinctLabels(FeatureCases);
    forall i | 0 <= i < |FeatureCases| && Lower(iconName) == FeatureCases[i].0 {
      LookupLabel(FeatureCases, i, Eye);
    }
    Lookup(FeatureCases, Lower(iconName), Eye)
  }

  /** Spellings that differ only in ASCII case select the same icon. */
  lemma FeatureIconIgnoresCase(a: string, b: string)
    requires Lower(a) == Lower(b)
    ensures FeatureIcon(a) == FeatureIcon(b)
  {
  }

  /** The grid shows at most this many features. */
  const FeatureLimit: nat := 6

  /** A feature card: the feature's name under its icon. */
  datatype FeatureCard = FeatureCard(name: string, icon: Icon)

  /** `features.slice(0, 6).map(...)`: a card for each of the first six
      features, in order, each given as its name and icon name. */
  function FeatureCards(features: seq<(string, string)>): (r: seq<FeatureCard>)
    ensures |r| == if |features| <= FeatureLimit then |features| else FeatureLimit
    ensures forall i :: 0 <= i < |r| ==> r[i] == FeatureCard(features[i].0, FeatureIcon(features[i].1))
  {
    Map(Take(features, FeatureLimit), (f: (string, string)) => FeatureCard(f.0, FeatureIcon(f.1)))
  }

  /** What the page shows. */
  datatype Screen =
    | Loading
    | Loaded(featuredCount: nat, cards: seq<FeatureCard>, noFeatures: bool)

  /** The page for the three queries' state: the loading page while the
      experiences or the features load; otherwise the featured section (its
      size, 0 when hidden), the feature grid, and the empty-state flag. */
  function Page(isLoadingExperiences: bool, isLoadingFeatures: bool,
                features: Option<seq<(string, string)>>, featured: Option<seq<Experience>>): (r: Screen)
    ensures r.Loading? <==> isLoadingExperiences || isLoadingFeatures
    ensures r.Loaded? ==> (r.featuredCount > 0 <==> HasItems(featured))
    ensures r.Loaded? ==> (r.noFeatures <==> !HasItems(features))
    ensures r.Loaded? ==> (r.noFeatures <==> |r.cards| == 0)
    ensures r.Loaded? ==> |r.cards| <= FeatureLimit
  {
    if isLoadingExperiences || isLoadingFeatures then Loading
    else
      var cards := if HasItems(features) then FeatureCards(features.value) else [];
      var count := if HasItems(featured) then |featured.value| else 0;
      Loaded(count, cards, !HasItems(features))
  }

  /** Fed by the featured endpoint, the page shows the featured section
      exactly when some experience is both featured and active. */
  lemma FeaturedSectionShown(es: seq<Experience>, isLoadingExperiences: bool, isLoadingFeatures: bool,
                             features: Option<seq<(string, string)>>)
    requires !isLoadingExperiences && !isLoadingFeatures
    ensures Page(isLoadingExperiences, isLoadingFeatures, features, Some(FeaturedExperiences(es, NoQuery))).featuredCount > 0
      <==> exists i :: 0 <= i < |es| && IsShowcased(es[i])
  {
    var r := FeaturedExperiences(es, NoQuery);
    NoQueryKeepsAll(es);
    if exists i :: 0 <= i < |es| && IsShowcased(es[i]) {
      var i :| 0 <= i < |es| && IsShowcased(es[i]);
      assert es[i] in r;
    }
    if |r| > 0 {
      assert r[0] in es;
    }
  }
}

=== FILE: wakeroom_views.dfy ===
/** The WakeRoom endpoints of `backend/wakeroom/views.py`: the experience
    list filters, the active/featured/by-type/by-memorial endpoints, the
    statistics counts, and the session endpoints including `end_session`.
    Tables are sequences in the queryset's order. */
module WakeRoomViews {
  import opened Wrappers
  import opened Seqs
  import opened Text
  import opened Api
  import opened WakeRoomModels

  /** The query parameters of the experience list. The duration bounds and
      the memorial id are the numbers the parameters spell. */
  datatype ExperienceQuery = ExperienceQuery(
    experienceType: Option<string>,
    status: Option<string>,
    minDuration: Option<int>,
    maxDuration: Option<int>,
    memorialId: Option<nat>)

  const NoQuery: ExperienceQuery := ExperienceQuery(None, None, None, None, None)

  /** An experience passes every filter the query asks for; the duration
      range is inclusive at both ends. */
  predicate Matches(q: ExperienceQuery, e: Experience) {
    && (Given(q.experienceType) ==> ExperienceTypeCode(e.experienceType) == q.experienceType.value)
    && (Given(q.status) ==> ExperienceStatusCode(e.status) == q.status.value)
    && (q.minDuration.Some? ==> q.minDuration.value <= e.durationMinutes)
    && (q.maxDuration.Some? ==> e.durationMinutes <= q.maxDuration.value)
    && (q.memorialId.Some? ==> q.memorialId.value in e.memorials)
  }

  /** `get_queryset()`: the rows that pass all the given filters, in order. */
  function FilterExperiences(es: seq<Experience>, q: ExperienceQuery): (r: seq<Experience>)
    ensures |r| <= |es|
    ensures forall i :: 0 <= i < |r| ==> r[i] in es && Matches(q, r[i])
    ensures forall i :: 0 <= i < |es| && Matches(q, es[i]) ==> es[i] in r
  {
    Filter(es, (e: Experience) => Matches(q, e))
  }

  /** A query without parameters lists every experience. */
  lemma NoQueryKeepsAll(es: seq<Experience>)
    ensures FilterExperiences(es, NoQuery) == es
  {
    FilterAll(es, (e: Experience) => Matches(NoQuery, e));
  }

  /** `active`: exactly the listed experiences whose status is active. */
  function ActiveExperiences(es: seq<Experience>, q: ExperienceQuery): (r: seq<Experience>)
    ensures forall i :: 0 <= i < |r| ==> r[i] in es && Matches(q, r[i]) && r[i].status == Active
    ensures forall i :: 0 <= i < |es| && Matches(q, es[i]) && es[i].status == Active ==> es[i] in r
  {
    Filter(FilterExperiences(es, q), IsAvailable)
  }

  predicate IsShowcased(e: Experience) {
    e.isFeatured && e.status == Active
  }

  /** `featured`: exactly the listed experiences that are featured and active. */
  function FeaturedExperiences(es: seq<Experience>, q: ExperienceQuery): (r: seq<Experience>)
    ensures forall i :: 0 <= i < |r| ==> r[i] in es && Matches(q, r[i]) && r[i].isFeatured && r[i].status == Active
    ensures forall i :: 0 <= i < |es| && Matches(q, es[i]) && es[i].isFeatured && es[i].status == Active ==> es[i] in r
  {
    Filter(FilterExperiences(es, q), IsShowcased)
  }

  /** The featured list is the active list filtered by the featured flag,
      so everything featured is also listed as active and available. */
  lemma FeaturedAmongActive(es: seq<Experience>, q: ExperienceQuery)
    ensures FeaturedExperiences(es, q) == Filter(ActiveExperiences(es, q), (e: Experience) => e.isFeatured)
    ensures forall i :: 0 <= i < |FeaturedExperiences(es, q)| ==>
      IsAvailable(FeaturedExperiences(es, q)[i])
  {
    var base := FilterExperiences(es, q);
    FilterThenFilter(base, IsAvailable, (e: Experience) => e.isFeatured, IsShowcased);
  }

  function OfType(t: ExperienceType): Experience -> bool {
    (e: Experience) => e.experienceType == t
  }

  function ActiveOfType(t: ExperienceType): Experience -> bool {
    (e: Experience) => e.experienceType == t && e.status == Active
  }

  function CountType(es: seq<Experience>, t: ExperienceType): nat {
    Count(es, OfType(t))
  }

  /** Each experience has exactly one type, so the five type counts add up
      to the table's size. */
  lemma {:induction false} TypeCountsPartition(es: seq<Experience>)
    ensures CountType(es, AR) + CountType(es, VR) + CountType(es, Video360)
      + CountType(es, Interactive) + CountType(es, Audio) == |es|
  {
    if |es| > 0 {
      TypeCountsPartition(es[1..]);
    }
  }

  /** One entry of `by_type`. */
  datatype TypeGroup = TypeGroup(
    code: string, name: string, experiences: seq<Experience>, count: nat, activeCount: nat)

  /** The `by_type` entry for type `t` over the listed experiences `base`. */
  function Group(base: seq<Experience>, t: ExperienceType): (g: TypeGroup)
    ensures g.code == ExperienceTypeCode(t) && g.name == ExperienceTypeName(t)
    ensures g.count == |g.experiences| == CountType(base, t)
    ensures g.activeCount == Count(base, ActiveOfType(t)) && g.activeCount <= g.count
    ensures forall j :: 0 <= j < |g.experiences| ==>
      g.experiences[j].experienceType == t && g.experiences[j] in base
    ensures forall j :: 0 <= j < |base| && base[j].experienceType == t ==> base[j] in g.experiences
  {
    var ofType := Filter(base, OfType(t));
    CountIsFilterSize(base, OfType(t));
    CountOfFiltered(base, OfType(t), IsAvailable, ActiveOfType(t));
    CountMonotone(base, ActiveOfType(t), OfType(t));
    TypeGroup(ExperienceTypeCode(t), ExperienceTypeName(t), ofType, |ofType|, Count(ofType, IsAvailable))
  }

  /** `g` is the `by_type` entry for type `t` under query `q`. */
  predicate GroupFor(g: TypeGroup, t: ExperienceType, q: ExperienceQuery) {
    && g.code == ExperienceTypeCode(t)
    && g.count == |g.experiences|
    && g.activeCount <= g.count
    && (forall j :: 0 <= j < |g.experiences| ==> g.experiences[j].experienceType == t && Matches(q, g.experiences[j]))
  }

  lemma GroupOfFiltered(es: seq<Experience>, q: ExperienceQuery, t: ExperienceType)
    ensures GroupFor(Group(FilterExperiences(es, q), t), t, q)
  {
  }

  /** `by_type`: one group per experience type in declaration order; each
      holds exactly the listed experiences of its type, so the groups
      together hold every listed experience. */
  function ByType(es: seq<Experience>, q: ExperienceQuery): (r: seq<TypeGroup>)
    ensures |r| == |AllExperienceTypes|
    ensures forall i :: 0 <= i < |r| ==> r[i] == Group(FilterExperiences(es, q), AllExperienceTypes[i])
    ensures forall i :: 0 <= i < |r| ==> GroupFor(r[i], AllExperienceTypes[i], q)
    ensures r[0].count + r[1].count + r[2].count + r[3].count + r[4].count == |FilterExperiences(es, q)|
  {
    var base := FilterExperiences(es, q);
    TypeCountsPartition(base);
    var r := seq(|AllExperienceTypes|, i requires 0 <= i < |AllExperienceTypes| => Group(base, AllExperienceTypes[i]));
    forall i | 0 <= i < |r|
      ensures GroupFor(r[i], AllExperienceTypes[i], q)
    {
      GroupOfFiltered(es, q, AllExperienceTypes[i]);
    }
    r
  }

  function HasMemorial(e: Experience, id: int): bool {
    id in e.memorials
  }

  /** `by_memorial`: 400 without a `memorial_id`; otherwise the listed
      experiences associated with that memorial. */
  function ByMemorial(es: seq<Experience>, q: ExperienceQuery, memorialId: Option<string>): (r: IdLookup<Experience>)
    ensures !Given(memorialId) <==> LookupCode(r) == BadRequest400
    ensures r.Rows? ==> memorialId.Some? && ParseId(memorialId.value).Some?
    ensures r.Rows? ==> forall i :: 0 <= i < |r.items| ==>
      r.items[i] in es && Matches(q, r.items[i]) && ParseId(memorialId.value).value in r.items[i].memorials
    ensures r.Rows? ==> forall i :: 0 <= i < |es| && Matches(q, es[i]) && ParseId(memorialId.value).value in es[i].memorials ==>
      es[i] in r.items
  {
    LookupById(memorialId, FilterExperiences(es, q), HasMemorial)
  }

  /** The experience numbers of `statistics`, per type. */
  datatype TypeTally = TypeTally(code: string, name: string, count: nat, active: nat)

  function Tally(es: seq<Experience>, t: ExperienceType): (r: TypeTally)
    ensures r.code == ExperienceTypeCode(t) && r.name == ExperienceTypeName(t)
    ensures r.count == CountType(es, t) && r.active == Count(es, ActiveOfType(t))
    ensures r.active <= r.count
  {
    var g := Group(es, t);
    TypeTally(g.code, g.name, g.count, g.activeCount)
  }

  datatype WakeRoomStatistics = WakeRoomStatistics(
    totalExperiences: nat,
    activeExperiences: nat,
    totalSessions: nat,
    activeSessions: nat,
    byType: seq<TypeTally>)

  /** `active` on sessions: those without an end time. */
  function ActiveSessions(ss: seq<Session>): (r: seq<Session>)
    ensures forall i :: 0 <= i < |r| ==> r[i] in ss && r[i].endTime.None?
    ensures forall i :: 0 <= i < |ss| && ss[i].endTime.None? ==> ss[i] in r
  {
    Filter(ss, IsActive)
  }

  /** `statistics` over the whole tables, whatever the query parameters. */
  function Statistics(es: seq<Experience>, ss: seq<Session>): (r: WakeRoomStatistics)
    ensures r.totalExperiences == |es| && r.totalSessions == |ss|
    ensures r.activeExperiences == Count(es, IsAvailable) && r.activeExperiences <= r.totalExperiences
    ensures r.activeSessions == |ActiveSessions(ss)| && r.activeSessions <= r.totalSessions
    ensures |r.byType| == |AllExperienceTypes|
    ensures forall i :: 0 <= i < |r.byType| ==>
      && r.byType[i].code == ExperienceTypeCode(AllExperienceTypes[i])
      && r.byType[i].name == ExperienceTypeName(AllExperienceTypes[i])
      && r.byType[i].count == CountType(es, AllExperienceTypes[i])
      && r.byType[i].active == Count(es, ActiveOfType(AllExperienceTypes[i]))
      && r.byType[i].active <= r.byType[i].count
    ensures r.byType[0].count + r.byType[1].count + r.byType[2].count + r.byType[3].count + r.byType[4].count
      == r.totalExperiences
  {
    TypeCountsPartition(es);
    CountIsFilterSize(ss, IsActive);
    var byType := seq(|AllExperienceTypes|, i requires 0 <= i < |AllExperienceTypes| => Tally(es, AllExperienceTypes[i]));
    WakeRoomStatistics(|es|, Count(es, IsAvailable), |ss|, Count(ss, IsActive), byType)
  }

  /** The statistics per type are the `by_type` numbers of the unfiltered
      list: the same count and the same number of active experiences. */
  lemma StatisticsAgreeWithByType(es: seq<Experience>, ss: seq<Session>)
    ensures forall i :: 0 <= i < |AllExperienceTypes| ==>
      && Statistics(es, ss).byType[i].count == ByType(es, NoQuery)[i].count
      && Statistics(es, ss).byType[i].active == ByType(es, NoQuery)[i].activeCount
  {
    NoQueryKeepsAll(es);
  }

  function OfUser(s: Session, id: int): bool {
    s.user == id
  }

  function OfExperience(s: Session, id: int): bool {
    s.experience == id
  }

  /** `by_user`: 400 without a `user_id`; otherwise that user's sessions. */
  function ByUser(ss: seq<Session>, userId: Option<string>): (r: IdLookup<Session>)
    ensures !Given(userId) <==> LookupCode(r) == BadRequest400
    ensures r.Rows? ==> userId.Some? && ParseId(userId.value).Some?
    ensures r.Rows? ==> forall i :: 0 <= i < |r.items| ==>
      r.items[i] in ss && r.items[i].user == ParseId(userId.value).value
    ensures r.Rows? ==> forall i :: 0 <= i < |ss| && ss[i].user == ParseId(userId.value).value ==>
      ss[i] in r.items
  {
    LookupById(userId, ss, OfUser)
  }

  /** A `user_id` that `int()` reads as negative, such as `-1`, matches no
      session: the answer is 200 with an empty list, not an error. */
  lemma NegativeUserIdListsNothing(ss: seq<Session>, p: string)
    requires ParseId(p).Some? && ParseId(p).value < 0
    ensures ByUser(ss, Some(p)) == Rows([])
  {
    assert p != "" by {
      assert |Strip(p)| > 0;
    }
    LookupNoMatch(Some(p), ss, OfUser);
  }

  /** `by_experience`: 400 without an `experience_id`; otherwise the
      sessions of that experience. */
  function ByExperience(ss: seq<Session>, experienceId: Option<string>): (r: IdLookup<Session>)
    ensures !Given(experienceId) <==> LookupCode(r) == BadRequest400
    ensures r.Rows? ==> experienceId.Some? && ParseId(experienceId.value).Some?
    ensures r.Rows? ==> forall i :: 0 <= i < |r.items| ==>
      r.items[i] in ss && r.items[i].experience == ParseId(experienceId.value).value
    ensures r.Rows? ==> forall i :: 0 <= i < |ss| && ss[i].experience == ParseId(experienceId.value).value ==>
      ss[i] in r.items
  {
    LookupById(experienceId, ss, OfExperience)
  }

  /** The body of an `end_session` request: each key may be absent. A
      present `rating` may be null, hence the nested option. */
  datatype EndRequest = EndRequest(
    interactionsCount: Option<int>,
    completedMilestones: Option<seq<string>>,
    userFeedback: Option<string>,
    rating: Option<Option<int>>)

  /** `end_session` at time `now`: an ended session is refused with 400 and
      left alone; an open one takes each field from the request when the key
      is present, keeps it otherwise, and is then ended. */
  function EndSessionAction(s: Session, req: EndRequest, now: int): (res: (int, Session))
    ensures !IsActive(s) <==> res.0 == BadRequest400
    ensures !IsActive(s) ==> res.1 == s
    ensures IsActive(s) ==> res.0 == Ok200
    ensures IsActive(s) ==>
      && res.1.interactionsCount == req.interactionsCount.GetOr(s.interactionsCount)
      && res.1.completedMilestones == req.completedMilestones.GetOr(s.completedMilestones)
      && res.1.userFeedback == req.userFeedback.GetOr(s.userFeedback)
      && res.1.rating == req.rating.GetOr(s.rating)
      && res.1.endTime == Some(now)
      && res.1.durationSeconds == EndSession(s, now).durationSeconds
      && res.1.durationSeconds.Some?
      && res.1.id == s.id && res.1.user == s.user && res.1.experience == s.experience
      && res.1.memorial == s.memorial && res.1.startTime == s.startTime
  {
    if !IsActive(s) then (BadRequest400, s)
    else
      var updated := s.(
        interactionsCount := req.interactionsCount.GetOr(s.interactionsCount),
        completedMilestones := req.completedMilestones.GetOr(s.completedMilestones),
        userFeedback := req.userFeedback.GetOr(s.userFeedback),
        rating := req.rating.GetOr(s.rating));
      (Ok200, EndSession(updated, now))
  }

  /** A session can be ended through the endpoint once: a second request,
      whatever it carries, is refused and changes nothing. */
  lemma EndSessionActionOnce(s: Session, first: EndRequest, second: EndRequest, t1: int, t2: int)
    requires IsActive(s)
    ensures var (code, ended) := EndSessionAction(s, first, t1);
      code == Ok200 && EndSessionAction(ended, second, t2) == (BadRequest400, ended)
  {
  }

  /** An empty request ends the session exactly as the model's
      `end_session()` would. */
  lemma EmptyEndRequestJustEnds(s: Session, now: int)
    requires IsActive(s)
    ensures EndSessionAction(s, EndRequest(None, None, None, None), now) == (Ok200, EndSession(s, now))
  {
  }
}

=== FILE: wrappers.dfy ===
/** Optional values and validation results: the model's stand-ins for Python's
    `None` and for a raised `ValidationError` carrying a message. */
module Wrappers {

  /** A value that may be absent (`None` in Python, `null`/`undefined` in TypeScript). */
  datatype Option<+T> = None | Some(value: T) {

    /** The value, or `default` when absent (`x if x is not None else default`). */
    function GetOr(default: T): T {
      match this
      case Some(v) => v
      case None => default
    }
  }

  /** The outcome of a validator: the accepted value, or the error message it raised. */
  datatype Result<+T> = Ok(value: T) | Err(message: string)
}
